=== FILE: README.md ===
# dotjson in Dafny

dotjson is a small TypeScript library for addressing values inside nested
JSON-like trees by path strings such as `user.addresses[0].city`. This
project models its core and proves properties of the model:

- **Paths** (`src/utils.ts`). `splitPath` scans a path character by
  character. A separator ends a key. `[` … `]` encloses an index, which
  is parsed with `parseInt`. `joinPath` writes segments back.
  `getType` and `isPrimitive` classify values.
- **Flattening** (`src/conversion.ts`). `jsonToDot` walks a tree in
  pre-order and emits one `path → leaf` entry per primitive.
  `dotToJson` rebuilds a tree from such entries. `flatten` and
  `unflatten` are the same two operations with only a separator.
- **Access** (`src/operations.ts`). `get` reads along a path. `set`
  writes along a path into a shallow copy of the root.
- **Comparison** (`src/comparison.ts`). `compareJson` flattens both
  trees and reports four kinds of change: keys added, keys removed,
  values modified and types changed. `isEqual` reports whether there is
  no change at all.
- **Cloning**. `deepClone` (`src/utils.ts`) copies a graph of objects and
  arrays. It keeps a map from the containers already seen to their
  copies.

## How values are modelled

**Plain trees.** The pure operations work on the `Value` datatype
(module `Values`). It holds null, undefined, booleans, integers, strings,
arrays, and objects as ordered `(name, value)` lists. JavaScript
property assignment is `Put`: a new name goes to the end, and an existing
name keeps its position. A flattened object is an ordered list of
`(path, leaf)` pairs.

**Memory.** `set` and `deepClone` change containers in place and let
several properties share one container. They work on a memory of nodes
instead (module `Heap`):

- A `Memory` object holds `nodes: seq<Node>`. `Alloc` appends a node and
  `Store` rewrites one.
- A property's content is a `Slot`: a primitive, or the address of a
  node.
- Each of these methods is proved against a specification function on
  the node sequence (`Update.SetResult`, and the `Clone.Built` layout
  for deepClone).

**Path segments.** A segment is a key, an integer index, or the `NaN`
that `parseInt` returns for text without digits (`PathCodec.Segment`).
`parseInt` is modelled in full (`Decimal.ParseInt`): leading JavaScript
white space, an optional sign, and the longest run of decimal digits.

## Model

| member | source | states |
|---|---|---|
| Decimal.NatToString | src/conversion.ts:23-24 | the decimal text of an array index is a non-empty digit string |
| Decimal.CanonicalNatToString | src/conversion.ts:23-24 | the decimal text of n is a canonical array index whose value is n |
| Decimal.ParseInt | src/utils.ts:25 | `parseInt(s, 10)` is NaN exactly when no digit follows the leading white space and the optional sign |
| Decimal.ParseNatToString | src/utils.ts:25 | parsing the decimal text of n gives back n |
| PathCodec.SplitPath | src/utils.ts:9-44 | the scanning loop yields the segments the character scanner defines; every key it pushes is non-empty and free of brackets; the empty path gives no segments |
| PathCodec.SplitKeys | src/utils.ts:17-41 | keys are pushed only when non-empty, and brackets never enter a key |
| PathCodec.ParseSegment | src/utils.ts:25 | the bracketed text becomes an index or NaN, never a key, and NaN exactly when no digit follows the leading white space and the optional sign |
| PathCodec.ParseIntToString | src/utils.ts:23-27 | a bracketed integer reads back as that integer |
| PathCodec.ParseNaN | src/utils.ts:23-27 | a bracketed `NaN` reads back as the NaN segment |
| PathCodec.JoinPath | src/utils.ts:52-62 | no segments join to `""`; otherwise the path begins with the rendering of the first segment, so a first key is written without a separator in front |
| PathCodec.JoinPathEmpty | src/utils.ts:52-62 | with non-empty keys, the joined path is empty exactly when there are no segments |
| PathCodec.SplitJoin | src/utils.ts:9-62 | splitPath inverts joinPath when no key is empty or contains the separator or a bracket |
| PathCodec.JoinInjective | src/utils.ts:52-62 | under the same conditions, distinct segment lists join to distinct paths |
| Values.GetType | src/utils.ts:69-73 | getType answers one of seven type names |
| Values.GetTypeSeparatesKinds | src/utils.ts:69-73 | two values get the same type name exactly when they are of the same kind (null apart from objects, arrays apart from objects) |
| Values.IsPrimitive | src/utils.ts:80-88 | holds exactly for null, strings, numbers, booleans and undefined |
| Values.PrimitiveByType | src/utils.ts:80-88 | isPrimitive holds exactly for the values that getType calls neither "array" nor "object" |
| Values.Lookup | src/conversion.ts:61 | a property is absent exactly when its name is not among the object's names; when present, it is the value stored with it |
| Values.Put | src/conversion.ts:61 | after `o[k] = v`, `o[k]` is v; an existing name keeps its place; a new name is appended |
| Values.LookupPutOther | src/conversion.ts:61 | an assignment leaves every other property as it was |
| Values.PutPut | src/conversion.ts:61 | a second assignment to the same name overrides the first |
| Values.PutKeepsUnique | src/conversion.ts:61 | assignment never duplicates a property name |
| Values.Member | src/operations.ts:23-28 | `current[segment]` is an object's own property (undefined when absent) or an array's element at a canonical index |
| Get.Walk | src/operations.ts:14-30 | an empty path gives the value itself; any step from a primitive gives undefined; one key on an object gives its own property, or undefined when it has none |
| Get.Get | src/operations.ts:10-33 | the loop's result is the walk along the split path; an empty path returns the object itself |
| Get.WalkUndef | src/operations.ts:15-17 | once the walk reaches undefined, it stays undefined |
| Get.WalkAppend | src/operations.ts:14-30 | walking a path in two parts is walking it whole |
| Flatten.ItemPrefix | src/conversion.ts:22-24 | an element's prefix strictly extends the parent's; bracketed, it ends with `]`; plain, a non-empty parent is followed by the separator |
| Flatten.FieldPrefix | src/conversion.ts:32 | a property's prefix ends with its key; at the root it is the key alone, below it the parent, the separator and the key |
| Flatten.Entries | src/conversion.ts:14-36 | a primitive gives the one assignment `prefix → value`; an empty array or object gives none |
| Flatten.EntriesUnder | src/conversion.ts:14-36 | every path flatten assigns below a prefix extends that prefix |
| Flatten.FlattenInto | src/conversion.ts:14-36 | the inner flatten adds to the result the assignments of a pre-order walk, in order |
| Flatten.JsonToDot | src/conversion.ts:10-40 | the result holds those assignments, every value in it is a primitive, no path occurs twice, and a primitive input gives the one entry `"" → input` |
| Flatten.FlattenWith | src/conversion.ts:83-85 | flatten is jsonToDot with bracketed indices, with the same guarantees |
| Flatten.EntriesPrimitive | src/conversion.ts:15-17 | flatten emits only primitives |
| Flatten.AssignAllShape | src/conversion.ts:16 | assigning primitives keeps a flat map primitive-valued and free of repeated paths |
| Flatten.AssignAllDistinct | src/conversion.ts:16 | when no path repeats, assigning the entries one by one lists them in order |
| FlatPaths.FieldPrefixJoin | src/conversion.ts:32 | a property prefix is the joined path extended by the key |
| FlatPaths.ItemPrefixJoin | src/conversion.ts:22-23 | a bracketed element prefix is the joined path extended by the index |
| FlatPaths.EntriesAsPaths | src/conversion.ts:14-36 | with bracketed indices, every flattened key is the joined path of its leaf |
| FlatPaths.LeavesDistinct | src/conversion.ts:20-35 | distinct leaves sit at distinct paths |
| FlatPaths.FlatKeysAddressLeaves | src/conversion.ts:10-40 | with bracketed indices and keys free of the separator and brackets, each flattened key splits back into its leaf's path, and get at that path returns the leaf |
| Unflatten.Store | src/conversion.ts:61 | a write into an object or array keeps its kind and reads back; a new name is appended; an index one past the end extends the array |
| Unflatten.StoreStore | src/conversion.ts:61 | a later write to the same name overrides an earlier one |
| Unflatten.Place | src/conversion.ts:56-71 | placing a value along a path succeeds only into a container that can hold the first segment, and keeps that container's kind |
| Unflatten.PlaceSlot | src/conversion.ts:63-69 | at a segment that is not the last, a missing or falsy slot is replaced by a container of the kind the next segment calls for, a truthy primitive slot makes dotToJson throw TypeError, and a slot holding an object or array is reused with its kind kept |
| Unflatten.TruthyPrimitiveThrows | src/conversion.ts:63-69 | `dotToJson({a: 1, "a.b": 2})` throws TypeError: the truthy 1 stays in the slot, and setting `b` on it fails in strict mode |
| Unflatten.FalsySlotReplaced | src/conversion.ts:63-69 | `dotToJson({a: 0, "a.b": 2})` is `{a: {b: 2}}`: the falsy 0 is replaced by `{}` |
| Unflatten.ContainerSlotReused | src/conversion.ts:63-70 | for distinct one-letter keys j and i, `dotToJson({"a.j": x, "a.i": y})` is `{a: {j: x, i: y}}`: the second path writes into the object the first one created |
| Unflatten.PlaceAllErr | src/conversion.ts:52-72 | once a path fails, dotToJson fails |
| Unflatten.DotToJson | src/conversion.ts:48-75 | the loop over the entries computes the placement of every entry, in order, into `{}`; a success is an object; entries with empty paths leave `{}` |
| Unflatten.UnflattenWith | src/conversion.ts:93-95 | unflatten is dotToJson with the given separator |
| RoundTrip.Rebuild | src/conversion.ts:52-72 | placing a container's leaves into an empty container of its kind rebuilds the container |
| RoundTrip.DotToJsonUndoesJsonToDot | src/conversion.ts:10-75 | for an object with no empty nested containers and well-formed keys, dotToJson of jsonToDot (bracketed indices) is the object |
| RoundTrip.PlainIndicesBecomeKeys | src/conversion.ts:22-24 | with plain indices the round trip fails: `{a: [1]}` comes back as `{a: {"0": 1}}` |
| Comparison.AsMap | src/comparison.ts:25-26 | a flat map with distinct paths, read as a dictionary, maps each path to its value |
| Comparison.AsMapLookup | src/comparison.ts:26 | `key in dot1` agrees with the ordered lookup, and so do the values |
| Comparison.FlatOfUnique | src/comparison.ts:14-15 | both flattenings have distinct paths |
| Comparison.DiffMaps | src/comparison.ts:24-62 | added keys are only in the second dictionary, removed keys only in the first; modified and retyped keys are in both, and no key is both |
| Comparison.DiffDisjoint | src/comparison.ts:24-62 | the four parts of a diff name pairwise disjoint sets of keys |
| Comparison.CompareFlat | src/comparison.ts:24-64 | the two loops over the flattenings build exactly the declarative diff of the two dictionaries |
| Comparison.Judge | src/comparison.ts:34-51 | equal values are never reported; a modified key has different values; a retyped key has values with different type names; with neither option set, a key is skipped exactly when the values are equal |
| Comparison.CompareKey | src/comparison.ts:26-51 | the branches for one key of the second flattening record exactly what the key-by-key rule says: an absent key is added unless its value is an ignored undefined, a present one is modified, retyped or skipped as Judge decides |
| Comparison.ScanStep | src/comparison.ts:25-53 | recording key i extends added, modified and typeChanges from the diff of the first i keys to the diff of the first i + 1 keys |
| Comparison.FindAddedModified | src/comparison.ts:25-53 | the first loop yields exactly the added, modified and retyped parts of the declarative diff |
| Comparison.FindRemoved | src/comparison.ts:56-62 | the second loop yields exactly the keys of the first dictionary that the second lacks, except ignored undefined values |
| Comparison.CompareJson | src/comparison.ts:12-65 | compareJson is that diff of the two flattenings |
| Comparison.IsEqual | src/comparison.ts:74-83 | isEqual holds exactly when the diff is empty; with neither option set, exactly when the two flattenings are equal as dictionaries |
| Comparison.EmptyIffSame | src/comparison.ts:24-62 | with neither option set, the diff is empty exactly when the dictionaries are equal |
| Comparison.SelfEmpty | src/comparison.ts:24-62 | a dictionary compared with itself gives the empty diff, whatever the options |
| Comparison.CompareWithSelf | src/comparison.ts:12-65 | any value compared with itself gives the empty diff |
| Comparison.CommonKeyOutcome | src/comparison.ts:31-51 | for a key on both sides, outside the option cases: it is retyped exactly when the values differ in kind, modified exactly when they differ but share a kind, and the diff records old and new |
| Comparison.IgnoreCaseStrings | src/comparison.ts:38-41 | with ignoreCase, two strings are never retyped, and are modified exactly when their lower-cased forms differ |
| Comparison.IgnoreUndefinedDrops | src/comparison.ts:27-58 | with ignoreUndefined, a key whose value is undefined on either side appears nowhere in the diff |
| Heap.Read | src/operations.ts:73 | `x[name]` on a node is an element (undefined past the end), an array's length, or an own property (undefined when absent) |
| Heap.StoreAt | src/operations.ts:58 | an element store sets that element, keeps the others, and pads a write past the end with holes |
| Heap.Write | src/operations.ts:58-64 | `x[name] = s` keeps the node's kind, stores an element for a canonical index on an array and a property otherwise, and reads back |
| Heap.ReadOverWrite | src/operations.ts:58-64 | a write leaves every other name reading as before |
| Heap.Memory.Alloc | src/operations.ts:55 | a new container is appended at the next free address |
| Heap.Memory.Store | src/operations.ts:58 | a store rewrites one node and nothing else |
| Heap.HeapGetWalk | src/operations.ts:10-33 | get over memory that holds a tree reaches the slot that holds what get reaches in the tree |
| Heap.ReadEncodes | src/operations.ts:23-28 | reading a property of a container that holds a value gives the slot that holds that value's member |
| Heap.Spread | src/operations.ts:45 | `{...obj}` copies an object's own properties in order; a primitive other than a string spreads to nothing |
| Update.Pick | src/operations.ts:53-82 | the current container is kept when it can take the segment (an array for an index, any object for a key); otherwise a fresh `[]` or `{}` is allocated and nothing else changes |
| Update.Fill | src/operations.ts:73-87 | a falsy slot is filled with a fresh container of the kind the next segment calls for; every other node is unchanged |
| Update.Enter | src/operations.ts:67-90 | one intermediate step keeps memory closed, keeps every container's kind, and leaves the elements of plain objects alone |
| Update.Finish | src/operations.ts:52-65 | the last step does the same |
| Update.Run | src/operations.ts:48-92 | so does the whole loop |
| Update.Start | src/operations.ts:45 | the result starts as a new plain object holding `{...obj}` |
| Update.Container | src/operations.ts:53-82 | the method picks the container as Pick does |
| Update.FillSlot | src/operations.ts:73-87 | the method fills the slot as Fill does |
| Update.Set | src/operations.ts:43-95 | set returns the new copy at the next free address, and memory becomes the specified result of the walk |
| Update.RunAbove | src/operations.ts:48-92 | when the walk enters a container made after some point in memory, nothing below that point changes |
| Update.Untouched | src/operations.ts:48-92 | a node that nothing refers to, and that the walk does not start at, is unchanged |
| Update.KeyRun | src/operations.ts:48-92 | along an acyclic path of plain objects, get (src/operations.ts:10-33) after the walk finds the value |
| Update.SetIndexFirst | src/operations.ts:45-78 | when the path is empty or starts with an index, the copy is returned as `{...obj}` and the write goes into a detached array |
| Update.SetOneKey | src/operations.ts:45-64 | a one-key set returns `{...obj}` with that key assigned, and every other node is unchanged |
| Update.SetKeepsCopy | src/operations.ts:84-89 | when the first key already holds a truthy value, the copy itself is not changed |
| Update.SetFillsCopy | src/operations.ts:84-87 | when the first key holds a falsy value, the copy gets a fresh container there: an array when the next segment is an index, an object otherwise |
| Update.SetLosesWrite | src/operations.ts:67-78 | when a truthy value in the way cannot take the next segment, the write goes into a detached container, and get on the result does not find the value |
| Update.SetMutatesShared | src/operations.ts:45-89 | only the root is copied: a two-key set through an existing object writes into that shared object |
| Update.SetThenGet | src/operations.ts:10-95 | in acyclic memory, along a path of keys through plain objects, get on the result of set finds the value; the root may also be absent or falsy, whose copy `{...obj}` is `{}` |
| Update.SetKeepsInput | src/operations.ts:43-95 | in acyclic memory, set leaves its input container unchanged, and every container ranked at least as high |
| Update.SetCycleWritesInput | src/operations.ts:43-95 | with a cycle the input can change: for `o = {a: o}`, `set(o, "a.x", 1)` adds `x: 1` to `o` itself |
| Update.SetThenGetCycle | src/operations.ts:43-95 | in memory with a cycle the property fails: `set({a: o}, "a.b.b", true)` with `o.b = o` loses the write |
| Clone.DeepClone | src/utils.ts:96-123 | a primitive comes back unchanged; a container already seen gives its recorded copy; otherwise the result is a copy whose every node mirrors its origin, the input is unchanged, and the seen map only grows |
| Clone.CloneArray | src/utils.ts:105-109 | an array's copy holds the copies of its elements in order and no named properties |
| Clone.CloneObject | src/utils.ts:111-119 | an object is recorded as seen before its properties are copied; the copy holds the copies of its own properties in order |
| Clone.DeepCloneFresh | src/utils.ts:96-123 | with an empty seen map, the result mirrors the value, every new node is a complete copy of an input node, and no input object gets two object copies |
| Clone.CloneGet | src/utils.ts:96-123 | get along any path that does not read a named property of an array (`map` drops those) gives on the clone the same primitive as on the original, or the clone of the same container |
| Clone.UnreachedCycleAllowed | src/utils.ts:96-123 | a self-containing array that the value never reaches does not exclude the input: `{x: 1}` beside `a = [a]` meets the premise, and no rank admits a scope that holds `a` |
| Clone.CloneDisjoint | src/utils.ts:105-119 | a clone refers only to clones, so it shares nothing with its input |
| Clone.ObjectsCloneOnce | src/utils.ts:101-113 | one input object has one object clone, so sharing and cycles through objects are preserved |

## Round trip

dotToJson is meant to undo jsonToDot, `dotToJson(jsonToDot(t)) == t`, in
both array modes. The code does not keep this law in the plain mode, and
the model follows the code. With plain indices, jsonToDot writes
`a.0`, and splitPath reads `0` back as a key. dotToJson then builds
`{a: {"0": 1}}` from `{a: [1]}` (`RoundTrip.PlainIndicesBecomeKeys`). The
law holds for bracketed indices, and only for a root object: dotToJson
always starts from `{}` (`RoundTrip.DotToJsonUndoesJsonToDot`).

## Left out

- `console.log` in isEqual (src/comparison.ts:76) is output only and is left out.
- Numbers are integers. NaN, infinities and fractions are not modelled. So `value1 !== value2` is structural inequality of primitives.
- Property enumeration uses insertion order. JavaScript enumerates integer-like keys first, in numeric order; that ordering is not modelled.
- The prototype chain is not modelled. `for … in` and `key in dot1` see only own properties, and names such as `__proto__` or `constructor` are ordinary property names here.
- A write through a primitive in dotToJson is a strict-mode TypeError. It is modelled as the error `TypeError`.
- Named properties on arrays are not modelled in dotToJson's tree values. A write of a key, a negative index or NaN into an array is reported as `NotModelled`.
- Array holes read as undefined in the model. JavaScript keeps them as holes, which `forEach` and `map` skip.
- toLowerCase is modelled on ASCII letters only.
- Unflatten.DotToJson: a container given as a value in the flat input is treated as an independent tree. The source stores the caller's container itself (src/conversion.ts:61), so two paths holding the same container share it, and a later path that writes through it (src/conversion.ts:64-68) changes that container for both paths and for the caller. The model copies the value instead, so it shows neither the sharing nor the change to the caller's container.
- PathCodec.ParseIntToString, PathCodec.SplitJoin, PathCodec.JoinInjective: indices are exact integers in the model. JavaScript numbers are doubles. `parseInt` rounds a digit run beyond 2^53 (`a[12345678901234567890]` reads back as 12345678901234567000). A template literal writes an index of 10^21 or more in exponent form, so `joinPath([1e21])` is `[1e+21]` and splitPath reads it back as 1. The three lemmas carry over to JavaScript only for indices of magnitude below 2^53.
- Strings are sequences of Unicode scalar values in the model. JavaScript strings are UTF-16 code units, so the two differ for characters outside the Basic Multilingual Plane. `{..."😀"}` (src/operations.ts:45) has two properties, "0" and "1", while Heap.Spread gives one. A separator outside that plane is one `char` that the scanner can match, while `char === separator` (src/utils.ts:29) compares one code unit with a two-unit string and never matches.
- Functions, symbols and bigints are not modelled. So deepClone's final `return value` (src/utils.ts:122) has no counterpart.
- The separator is one character, the default `.`. Multi-character separators are not modelled.
- The upper bound of JavaScript array indices (2^32 - 2) is not modelled.
- In set, a write to an array's `length` is treated as a plain property; truncating the array is not modelled.
- `new Array` sized by `map` is modelled as an allocation that is filled afterwards.
- Garbage collection of the WeakMap in deepClone is not modelled.
- The shared type declarations and the package entry point (`src/types.ts`, `src/index.ts`) are not part of this model.
- Update.SetThenGet: proved only for acyclic memory and paths of keys through plain objects. `Update.SetThenGetCycle` shows that cycles break it. Index segments and arrays along the way are not covered by the lemma.
- Update.SetKeepsInput: proved only for acyclic memory. With a cycle through the input, set writes into the input itself: for `o = {a: o}`, `set(o, "a.x", 1)` adds `x` to `o` (`Update.SetCycleWritesInput`).
- Clone.DeepClone: requires a scope of containers, closed under elements and property values and holding the value, in which no cycle runs through array elements alone (`ArraysRanked`). The source registers an array as seen only after mapping its elements, so on a cycle of arrays that the value reaches it recurses without end, and the model leaves that input out. A cycle of arrays elsewhere in memory, which the value never reaches, does not exclude the input (`Clone.UnreachedCycleAllowed`).
- Clone.DeepClone: requires that input objects have distinct property names, as JavaScript objects always do.
- Clone.DeepClone: an array reached twice before its copy is finished is copied twice. The model does not state how many clones an array gets; `Clone.ObjectsCloneOnce` states it for objects only.

=== FILE: comparison.dfy ===
/** compareJson and isEqual (src/comparison.ts). */
module Comparison {
  import opened Wrappers
  import opened Values
  import opened Flatten

  /** ComparisonOptions: the flattening options plus the two comparison switches. */
  datatype ComparisonOptions = ComparisonOptions(
    separator: char, preserveArrayIndices: bool, ignoreCase: bool, ignoreUndefined: bool)

  const DefaultComparison: ComparisonOptions := ComparisonOptions('.', true, false, false)

  /** A value that changed: `{ old, new }`. */
  datatype Change = Change(oldValue: Value, newValue: Value)

  /** A type change: `{ old: type1, new: type2 }`, the getType names. */
  datatype TypeChange = TypeChange(oldType: string, newType: string)

  /** JsonDiff: four maps keyed by flat path. */
  datatype Diff = Diff(
    added: map<string, Value>,
    removed: map<string, Value>,
    modified: map<string, Change>,
    typeChanges: map<string, TypeChange>)

  const EmptyDiff: Diff := Diff(map[], map[], map[], map[])

  /** Lower-casing of ASCII letters; other characters are left alone. */
  function Lower(s: string): (r: string)
    ensures |r| == |s|
  {
    seq(|s|, i requires 0 <= i < |s| => if 'A' <= s[i] <= 'Z' then (s[i] as int + 32) as char else s[i])
  }

  // ---------------------------------------------------------------------
  // Flat maps as dictionaries.
  // ---------------------------------------------------------------------

  /** The dictionary a list of assignments with distinct keys describes. */
  function AsMap(ps: FlatMap): (m: map<string, Value>)
    requires UniqueKeys(ps)
    ensures forall i :: 0 <= i < |ps| ==> ps[i].0 in m && m[ps[i].0] == ps[i].1
  {
    map i | 0 <= i < |ps| :: ps[i].0 := ps[i].1
  }

  /** `key in dot` and `dot[key]` read the dictionary. */
  lemma AsMapLookup(ps: FlatMap, k: string)
    requires UniqueKeys(ps)
    ensures Lookup(ps, k).None? <==> k !in AsMap(ps)
    ensures Lookup(ps, k).Some? ==> AsMap(ps)[k] == Lookup(ps, k).value
  {
    if k in Keys(ps) {
      var j :| 0 <= j < |ps| && Keys(ps)[j] == k;
    }
    if k in AsMap(ps) {
      var j :| 0 <= j < |ps| && ps[j].0 == k;
      assert Keys(ps)[j] == k;
    }
  }

  /** A prefix of a list with distinct keys has distinct keys. */
  lemma PrefixUnique(ps: FlatMap, i: nat)
    requires UniqueKeys(ps) && i <= |ps|
    ensures UniqueKeys(ps[..i])
  {
    forall x, y | 0 <= x < y < i ensures ps[..i][x].0 != ps[..i][y].0 {
      assert ps[..i][x] == ps[x] && ps[..i][y] == ps[y];
    }
  }

  /** The keys of the dictionary are the listed keys. */
  lemma AsMapKey(ps: FlatMap, k: string)
    requires UniqueKeys(ps)
    ensures k in AsMap(ps) ==> exists j :: 0 <= j < |ps| && ps[j].0 == k
  {
  }

  /** A key listed after the prefix is not in the prefix's dictionary. */
  lemma FreshNotIn(ps: FlatMap, i: nat)
    requires UniqueKeys(ps) && i < |ps|
    ensures UniqueKeys(ps[..i]) && ps[i].0 !in AsMap(ps[..i])
  {
    PrefixUnique(ps, i);
    AsMapKey(ps[..i], ps[i].0);
  }

  /** Appending a fresh key to the list adds it to the dictionary. */
  lemma AsMapSnoc(a: FlatMap, e: (string, Value))
    requires UniqueKeys(a) && UniqueKeys(a + [e]) && e.0 !in AsMap(a)
    ensures AsMap(a + [e]) == AsMap(a)[e.0 := e.1]
  {
    var b := a + [e];
    var l, r := AsMap(b), AsMap(a)[e.0 := e.1];
    forall k | k in l ensures k in r && l[k] == r[k] {
      AsMapKey(b, k);
      var j :| 0 <= j < |b| && b[j].0 == k;
      if j < |a| {
        assert a[j] == b[j];
      }
    }
    forall k | k in r ensures k in l {
      if k != e.0 {
        AsMapKey(a, k);
        var j :| 0 <= j < |a| && a[j].0 == k;
        assert b[j] == a[j];
        assert b[j].0 in l;
      } else {
        assert b[|a|] == e;
        assert b[|a|].0 in l;
      }
    }
  }

  lemma FreshKey(ps: FlatMap, i: nat)
    requires UniqueKeys(ps) && i < |ps|
    ensures UniqueKeys(ps[..i]) && UniqueKeys(ps[..i + 1])
    ensures ps[i].0 !in AsMap(ps[..i])
    ensures AsMap(ps[..i + 1]) == AsMap(ps[..i])[ps[i].0 := ps[i].1]
  {
    FreshNotIn(ps, i);
    PrefixUnique(ps, i + 1);
    assert ps[..i + 1] == ps[..i] + [ps[i]];
    AsMapSnoc(ps[..i], ps[i]);
  }

  // ---------------------------------------------------------------------
  // The diff, declaratively.
  // ---------------------------------------------------------------------

  /** The flattening both inputs go through. */
  function FlatOf(v: Value, opts: ComparisonOptions): FlatMap {
    AssignAll([], Entries(v, "", FlattenOptions(opts.separator, opts.preserveArrayIndices)))
  }

  /** Keys of `mine` missing from `other`, with their values, unless skipped as undefined. */
  function OnlyIn(mine: map<string, Value>, other: map<string, Value>, ignoreUndefined: bool): map<string, Value> {
    map k | k in mine && k !in other && !(ignoreUndefined && mine[k] == Undef) :: mine[k]
  }

  datatype Verdict = Same | Modified | Retyped

  /** What compareJson records for a key present on both sides. */
  function Judge(v1: Value, v2: Value, opts: ComparisonOptions): (r: Verdict)
    ensures v1 == v2 ==> r == Same
    ensures r == Modified ==> v1 != v2
    ensures r == Retyped ==> v1 != v2 && GetType(v1) != GetType(v2)
    ensures !opts.ignoreUndefined && !opts.ignoreCase ==> (r == Same <==> v1 == v2)
  {
    if opts.ignoreUndefined && (v1 == Undef || v2 == Undef) then Same
    else if opts.ignoreCase && v1.Str? && v2.Str? then
      (if Lower(v1.s) != Lower(v2.s) then Modified else Same)
    else if v1 == v2 then Same
    else if GetType(v1) != GetType(v2) then Retyped
    else Modified
  }

  function ModifiedOf(m1: map<string, Value>, m2: map<string, Value>, opts: ComparisonOptions): map<string, Change> {
    map k | k in m1 && k in m2 && Judge(m1[k], m2[k], opts) == Modified :: Change(m1[k], m2[k])
  }

  function RetypedOf(m1: map<string, Value>, m2: map<string, Value>, opts: ComparisonOptions): map<string, TypeChange> {
    map k | k in m1 && k in m2 && Judge(m1[k], m2[k], opts) == Retyped :: TypeChange(GetType(m1[k]), GetType(m2[k]))
  }

  /** The diff between two flat dictionaries. */
  function DiffMaps(m1: map<string, Value>, m2: map<string, Value>, opts: ComparisonOptions): (d: Diff)
    ensures d.added.Keys !! m1.Keys && d.removed.Keys !! m2.Keys
    ensures d.added.Keys <= m2.Keys && d.removed.Keys <= m1.Keys
    ensures d.modified.Keys <= m1.Keys * m2.Keys && d.typeChanges.Keys <= m1.Keys * m2.Keys
    ensures d.modified.Keys !! d.typeChanges.Keys
  {
    Diff(OnlyIn(m2, m1, opts.ignoreUndefined), OnlyIn(m1, m2, opts.ignoreUndefined),
         ModifiedOf(m1, m2, opts), RetypedOf(m1, m2, opts))
  }

  /** What compareJson(obj1, obj2, options) returns. */
  function DiffSpec(obj1: Value, obj2: Value, opts: ComparisonOptions): Diff {
    DiffMaps(FlatDict(obj1, opts), FlatDict(obj2, opts), opts)
  }

  /** The flattening of v as a dictionary. */
  function FlatDict(v: Value, opts: ComparisonOptions): map<string, Value> {
    FlatOfUnique(v, opts);
    AsMap(FlatOf(v, opts))
  }

  lemma FlatOfUnique(v: Value, opts: ComparisonOptions)
    ensures UniqueKeys(FlatOf(v, opts))
  {
    var es := Entries(v, "", FlattenOptions(opts.separator, opts.preserveArrayIndices));
    EntriesPrimitive(v, "", FlattenOptions(opts.separator, opts.preserveArrayIndices));
    AssignAllShape([], es);
  }

  /** The four key sets are pairwise disjoint (src/comparison.ts:25-62). */
  lemma DiffDisjoint(m1: map<string, Value>, m2: map<string, Value>, opts: ComparisonOptions)
    ensures var d := DiffMaps(m1, m2, opts);
      d.added.Keys !! d.removed.Keys && d.added.Keys !! d.modified.Keys &&
      d.added.Keys !! d.typeChanges.Keys && d.removed.Keys !! d.modified.Keys &&
      d.removed.Keys !! d.typeChanges.Keys && d.modified.Keys !! d.typeChanges.Keys
  {
    var d := DiffMaps(m1, m2, opts);
    assert d.added.Keys !! d.removed.Keys by {
      forall k | k in d.added.Keys ensures k !in d.removed.Keys {
        assert k in m2;
      }
    }
  }

  // ---------------------------------------------------------------------
  // The loops.
  // ---------------------------------------------------------------------

  /** Adding a fresh key to the scanned side of OnlyIn. */
  lemma OnlyInStep(mine: map<string, Value>, other: map<string, Value>, ign: bool, k: string, v: Value)
    requires k !in mine
    ensures OnlyIn(mine[k := v], other, ign) ==
      if k !in other && !(ign && v == Undef) then OnlyIn(mine, other, ign)[k := v] else OnlyIn(mine, other, ign)
  {
  }

  /** Adding a fresh key to the second dictionary of ModifiedOf. */
  lemma ModifiedStep(m1: map<string, Value>, m2: map<string, Value>, opts: ComparisonOptions, k: string, v: Value)
    requires k !in m2
    ensures ModifiedOf(m1, m2[k := v], opts) ==
      if k in m1 && Judge(m1[k], v, opts) == Modified then ModifiedOf(m1, m2, opts)[k := Change(m1[k], v)]
      else ModifiedOf(m1, m2, opts)
  {
    var l := ModifiedOf(m1, m2[k := v], opts);
    var r := if k in m1 && Judge(m1[k], v, opts) == Modified then ModifiedOf(m1, m2, opts)[k := Change(m1[k], v)]
      else ModifiedOf(m1, m2, opts);
    forall x ensures (x in l <==> x in r) && (x in l ==> l[x] == r[x]) {
      if x != k {
        assert (x in m2[k := v]) == (x in m2);
      }
    }
  }

  /** Adding a fresh key to the second dictionary of RetypedOf. */
  lemma RetypedStep(m1: map<string, Value>, m2: map<string, Value>, opts: ComparisonOptions, k: string, v: Value)
    requires k !in m2
    ensures RetypedOf(m1, m2[k := v], opts) ==
      if k in m1 && Judge(m1[k], v, opts) == Retyped then RetypedOf(m1, m2, opts)[k := TypeChange(GetType(m1[k]), GetType(v))]
      else RetypedOf(m1, m2, opts)
  {
    var l := RetypedOf(m1, m2[k := v], opts);
    var r := if k in m1 && Judge(m1[k], v, opts) == Retyped then RetypedOf(m1, m2, opts)[k := TypeChange(GetType(m1[k]), GetType(v))]
      else RetypedOf(m1, m2, opts);
    forall x ensures (x in l <==> x in r) && (x in l ==> l[x] == r[x]) {
      if x != k {
        assert (x in m2[k := v]) == (x in m2);
      }
    }
  }

  /**
   * What compareJson's first loop records for one key of the second input
   * (src/comparison.ts:26-51): an addition when the first input lacks the
   * key, otherwise whatever Judge decides.
   */
  function Recorded(dot1: FlatMap, key: string, value2: Value, opts: ComparisonOptions, diff: Diff): Diff {
    var found := Lookup(dot1, key);
    Diff(
      if found.None? && !(opts.ignoreUndefined && value2 == Undef) then diff.added[key := value2]
      else diff.added,
      diff.removed,
      if found.Some? && Judge(found.value, value2, opts) == Modified
      then diff.modified[key := Change(found.value, value2)]
      else diff.modified,
      if found.Some? && Judge(found.value, value2, opts) == Retyped
      then diff.typeChanges[key := TypeChange(GetType(found.value), GetType(value2))]
      else diff.typeChanges)
  }

  /** The body of compareJson's first loop for one key, branch by branch. */
  method CompareKey(dot1: FlatMap, key: string, value2: Value, opts: ComparisonOptions, diff: Diff) returns (d: Diff)
    ensures d == Recorded(dot1, key, value2, opts, diff)
  {
    d := diff;
    match Lookup(dot1, key)
    case None =>
      if !opts.ignoreUndefined || value2 != Undef {
        d := d.(added := d.added[key := value2]);
      }
    case Some(value1) =>
      if opts.ignoreUndefined && (value1 == Undef || value2 == Undef) {
      } else if opts.ignoreCase && value1.Str? && value2.Str? {
        if Lower(value1.s) != Lower(value2.s) {
          d := d.(modified := d.modified[key := Change(value1, value2)]);
        }
      } else if value1 != value2 {
        var type1, type2 := GetType(value1), GetType(value2);
        if type1 != type2 {
          d := d.(typeChanges := d.typeChanges[key := TypeChange(type1, type2)]);
        } else {
          d := d.(modified := d.modified[key := Change(value1, value2)]);
        }
      }
  }

  /** After the first i keys of the second input: added, modified and typeChanges so far. */
  predicate Scanned(dot1: FlatMap, dot2: FlatMap, i: nat, opts: ComparisonOptions, d: Diff)
    requires UniqueKeys(dot1) && UniqueKeys(dot2) && i <= |dot2|
  {
    UniqueKeys(dot2[..i]) &&
    d.added == OnlyIn(AsMap(dot2[..i]), AsMap(dot1), opts.ignoreUndefined) &&
    d.modified == ModifiedOf(AsMap(dot1), AsMap(dot2[..i]), opts) &&
    d.typeChanges == RetypedOf(AsMap(dot1), AsMap(dot2[..i]), opts)
  }

  /** The additions after key i of the second input. */
  lemma AddedKey(dot1: FlatMap, dot2: FlatMap, i: nat, ign: bool)
    requires UniqueKeys(dot1) && UniqueKeys(dot2) && i < |dot2|
    ensures UniqueKeys(dot2[..i]) && UniqueKeys(dot2[..i + 1])
    ensures OnlyIn(AsMap(dot2[..i + 1]), AsMap(dot1), ign) ==
      if Lookup(dot1, dot2[i].0).None? && !(ign && dot2[i].1 == Undef)
      then OnlyIn(AsMap(dot2[..i]), AsMap(dot1), ign)[dot2[i].0 := dot2[i].1]
      else OnlyIn(AsMap(dot2[..i]), AsMap(dot1), ign)
  {
    FreshKey(dot2, i);
    OnlyInStep(AsMap(dot2[..i]), AsMap(dot1), ign, dot2[i].0, dot2[i].1);
    AsMapLookup(dot1, dot2[i].0);
  }

  /** The modifications after key i of the second input. */
  lemma ModifiedKey(dot1: FlatMap, dot2: FlatMap, i: nat, opts: ComparisonOptions)
    requires UniqueKeys(dot1) && UniqueKeys(dot2) && i < |dot2|
    ensures UniqueKeys(dot2[..i]) && UniqueKeys(dot2[..i + 1])
    ensures ModifiedOf(AsMap(dot1), AsMap(dot2[..i + 1]), opts) ==
      if Lookup(dot1, dot2[i].0).Some? && Judge(Lookup(dot1, dot2[i].0).value, dot2[i].1, opts) == Modified
      then ModifiedOf(AsMap(dot1), AsMap(dot2[..i]), opts)[dot2[i].0 := Change(Lookup(dot1, dot2[i].0).value, dot2[i].1)]
      else ModifiedOf(AsMap(dot1), AsMap(dot2[..i]), opts)
  {
    FreshKey(dot2, i);
    ModifiedStep(AsMap(dot1), AsMap(dot2[..i]), opts, dot2[i].0, dot2[i].1);
    AsMapLookup(dot1, dot2[i].0);
  }

  /** The type changes after key i of the second input. */
  lemma RetypedKey(dot1: FlatMap, dot2: FlatMap, i: nat, opts: ComparisonOptions)
    requires UniqueKeys(dot1) && UniqueKeys(dot2) && i < |dot2|
    ensures UniqueKeys(dot2[..i]) && UniqueKeys(dot2[..i + 1])
    ensures RetypedOf(AsMap(dot1), AsMap(dot2[..i + 1]), opts) ==
      if Lookup(dot1, dot2[i].0).Some? && Judge(Lookup(dot1, dot2[i].0).value, dot2[i].1, opts) == Retyped
      then RetypedOf(AsMap(dot1), AsMap(dot2[..i]), opts)[dot2[i].0 := TypeChange(GetType(Lookup(dot1, dot2[i].0).value), GetType(dot2[i].1))]
      else RetypedOf(AsMap(dot1), AsMap(dot2[..i]), opts)
  {
    FreshKey(dot2, i);
    RetypedStep(AsMap(dot1), AsMap(dot2[..i]), opts, dot2[i].0, dot2[i].1);
    AsMapLookup(dot1, dot2[i].0);
  }

  /** Recording key i of the second input extends the scan by one key. */
  lemma ScanStep(dot1: FlatMap, dot2: FlatMap, i: nat, opts: ComparisonOptions, d: Diff)
    requires UniqueKeys(dot1) && UniqueKeys(dot2) && i < |dot2|
    requires Scanned(dot1, dot2, i, opts, d)
    ensures Scanned(dot1, dot2, i + 1, opts, Recorded(dot1, dot2[i].0, dot2[i].1, opts, d))
  {
    AddedKey(dot1, dot2, i, opts.ignoreUndefined);
    ModifiedKey(dot1, dot2, i, opts);
    RetypedKey(dot1, dot2, i, opts);
  }

  /**
   * compareJson's first loop (src/comparison.ts:25-53): every key of the
   * second input, recorded as added, modified or retyped.
   */
  method FindAddedModified(dot1: FlatMap, dot2: FlatMap, opts: ComparisonOptions) returns (scan: Diff)
    requires UniqueKeys(dot1) && UniqueKeys(dot2)
    ensures scan.added == OnlyIn(AsMap(dot2), AsMap(dot1), opts.ignoreUndefined)
    ensures scan.modified == ModifiedOf(AsMap(dot1), AsMap(dot2), opts)
    ensures scan.typeChanges == RetypedOf(AsMap(dot1), AsMap(dot2), opts)
  {
    scan := Diff(map[], map[], map[], map[]);
    for i := 0 to |dot2|
      invariant Scanned(dot1, dot2, i, opts, scan)
    {
      ScanStep(dot1, dot2, i, opts, scan);
      scan := CompareKey(dot1, dot2[i].0, dot2[i].1, opts, scan);
    }
    assert dot2[..|dot2|] == dot2;
  }

  /**
   * compareJson's second loop (src/comparison.ts:56-62): the keys of the
   * first input that the second lacks.
   */
  method FindRemoved(dot1: FlatMap, dot2: FlatMap, opts: ComparisonOptions) returns (removed: map<string, Value>)
    requires UniqueKeys(dot1) && UniqueKeys(dot2)
    ensures removed == OnlyIn(AsMap(dot1), AsMap(dot2), opts.ignoreUndefined)
  {
    removed := map[];
    for j := 0 to |dot1|
      invariant UniqueKeys(dot1[..j])
      invariant removed == OnlyIn(AsMap(dot1[..j]), AsMap(dot2), opts.ignoreUndefined)
    {
      var key := dot1[j].0;
      FreshKey(dot1, j);
      OnlyInStep(AsMap(dot1[..j]), AsMap(dot2), opts.ignoreUndefined, key, dot1[j].1);
      AsMapLookup(dot2, key);
      if Lookup(dot2, key).None? {
        if !opts.ignoreUndefined || dot1[j].1 != Undef {
          removed := removed[key := dot1[j].1];
        }
      }
    }
    assert dot1[..|dot1|] == dot1;
  }

  /** The two loops of compareJson over the flattened inputs (src/comparison.ts:17-64). */
  method CompareFlat(dot1: FlatMap, dot2: FlatMap, opts: ComparisonOptions) returns (diff: Diff)
    requires UniqueKeys(dot1) && UniqueKeys(dot2)
    ensures diff == DiffMaps(AsMap(dot1), AsMap(dot2), opts)
  {
    var scan := FindAddedModified(dot1, dot2, opts);
    var removed := FindRemoved(dot1, dot2, opts);
    diff := Diff(scan.added, removed, scan.modified, scan.typeChanges);
  }

  /** compareJson (src/comparison.ts:12-65): flatten both sides, then compare. */
  method CompareJson(obj1: Value, obj2: Value, opts: ComparisonOptions) returns (diff: Diff)
    ensures diff == DiffSpec(obj1, obj2, opts)
  {
    FlatOfUnique(obj1, opts);
    FlatOfUnique(obj2, opts);
    var fo := FlattenOptions(opts.separator, opts.preserveArrayIndices);
    var dot1 := JsonToDot(obj1, fo);
    var dot2 := JsonToDot(obj2, fo);
    diff := CompareFlat(dot1, dot2, opts);
  }

  /** Whether a diff records nothing. */
  predicate IsEmpty(d: Diff) {
    |d.added| == 0 && |d.removed| == 0 && |d.modified| == 0 && |d.typeChanges| == 0
  }

  /**
   * isEqual (src/comparison.ts:74-83): true exactly when the diff is empty;
   * with neither switch on, exactly when the two flattenings agree.
   */
  method IsEqual(obj1: Value, obj2: Value, opts: ComparisonOptions) returns (eq: bool)
    ensures eq <==> IsEmpty(DiffSpec(obj1, obj2, opts))
    ensures !opts.ignoreCase && !opts.ignoreUndefined ==>
      (eq <==> FlatDict(obj1, opts) == FlatDict(obj2, opts))
  {
    var diff := CompareJson(obj1, obj2, opts);
    eq := |diff.added| == 0 && |diff.removed| == 0 && |diff.modified| == 0 && |diff.typeChanges| == 0;
    if !opts.ignoreCase && !opts.ignoreUndefined {
      EmptyIffSame(FlatDict(obj1, opts), FlatDict(obj2, opts), opts);
    }
  }

  // ---------------------------------------------------------------------
  // Properties.
  // ---------------------------------------------------------------------

  /** With neither switch on, the diff is empty exactly when the dictionaries are equal. */
  lemma EmptyIffSame(m1: map<string, Value>, m2: map<string, Value>, opts: ComparisonOptions)
    requires !opts.ignoreCase && !opts.ignoreUndefined
    ensures IsEmpty(DiffMaps(m1, m2, opts)) <==> m1 == m2
  {
    var d := DiffMaps(m1, m2, opts);
    if m1 != m2 {
      if k :| k in m2 && k !in m1 {
        assert k in d.added;
      } else if k :| k in m1 && k !in m2 {
        assert k in d.removed;
      } else {
        assert m1.Keys == m2.Keys;
        var k :| k in m1 && m1[k] != m2[k];
        assert k in d.modified || k in d.typeChanges;
      }
    } else {
      SelfEmpty(m1, opts);
    }
  }

  /** A dictionary compared with itself yields four empty maps. */
  lemma SelfEmpty(m: map<string, Value>, opts: ComparisonOptions)
    ensures DiffMaps(m, m, opts) == EmptyDiff
  {
    var d := DiffMaps(m, m, opts);
    assert forall k | k in m :: Judge(m[k], m[k], opts) == Same;
    assert d.modified == map[];
    assert d.typeChanges == map[];
  }

  /** compareJson(x, x) yields four empty maps (src/comparison.ts:42). */
  lemma CompareWithSelf(x: Value, opts: ComparisonOptions)
    ensures DiffSpec(x, x, opts) == EmptyDiff
  {
    SelfEmpty(FlatDict(x, opts), opts);
  }

  /**
   * A common key whose values differ, with no switch interfering, is a type
   * change when getType differs and a modification otherwise, recorded with
   * the original values (src/comparison.ts:42-51).
   */
  lemma CommonKeyOutcome(m1: map<string, Value>, m2: map<string, Value>, opts: ComparisonOptions, k: string)
    requires k in m1 && k in m2
    requires !(opts.ignoreUndefined && (m1[k] == Undef || m2[k] == Undef))
    requires !(opts.ignoreCase && m1[k].Str? && m2[k].Str?)
    ensures var d := DiffMaps(m1, m2, opts);
      (k in d.typeChanges <==> m1[k] != m2[k] && !SameKind(m1[k], m2[k])) &&
      (k in d.modified <==> m1[k] != m2[k] && SameKind(m1[k], m2[k])) &&
      (k in d.modified ==> d.modified[k] == Change(m1[k], m2[k])) &&
      (k in d.typeChanges ==> d.typeChanges[k] == TypeChange(GetType(m1[k]), GetType(m2[k])))
  {
    GetTypeSeparatesKinds(m1[k], m2[k]);
  }

  /**
   * With ignoreCase, two strings yield an entry exactly when their
   * lower-cased forms differ, and the entry keeps the original strings
   * (src/comparison.ts:38-41).
   */
  lemma IgnoreCaseStrings(m1: map<string, Value>, m2: map<string, Value>, opts: ComparisonOptions, k: string)
    requires opts.ignoreCase && k in m1 && k in m2 && m1[k].Str? && m2[k].Str?
    ensures var d := DiffMaps(m1, m2, opts);
      k !in d.typeChanges &&
      (k in d.modified <==> Lower(m1[k].s) != Lower(m2[k].s)) &&
      (k in d.modified ==> d.modified[k] == Change(m1[k], m2[k]))
  {
  }

  /**
   * With ignoreUndefined, an undefined value on either side of a common
   * key, or alone on one side, yields no entry (src/comparison.ts:27, 34-36, 58).
   */
  lemma IgnoreUndefinedDrops(m1: map<string, Value>, m2: map<string, Value>, opts: ComparisonOptions, k: string)
    requires opts.ignoreUndefined
    requires (k in m1 && m1[k] == Undef) || (k in m2 && m2[k] == Undef)
    ensures var d := DiffMaps(m1, m2, opts);
      k !in d.added && k !in d.removed && k !in d.modified && k !in d.typeChanges
  {
  }
}

=== FILE: conversion_flatten.dfy ===
/** jsonToDot and its inner recursive flatten (src/conversion.ts:8-40). */
module Flatten {
  import opened Wrappers
  import opened Decimal
  import opened Values
  import opened PathCodec

  /** DotNotationOptions: the separator and whether array indices are bracketed. */
  datatype FlattenOptions = FlattenOptions(separator: char, preserveArrayIndices: bool)

  const DefaultOptions: FlattenOptions := FlattenOptions('.', true)

  /** A flattened object: path strings to leaves, in insertion order. */
  type FlatMap = seq<(string, Value)>

  /** The prefix of an array element. */
  function ItemPrefix(prefix: string, i: nat, opts: FlattenOptions): (r: string)
    ensures prefix <= r && |r| > |prefix|
    ensures opts.preserveArrayIndices ==> r[|r| - 1] == ']'
    ensures !opts.preserveArrayIndices && prefix != "" ==> r[|prefix|] == opts.separator
  {
    if opts.preserveArrayIndices then prefix + "[" + NatToString(i) + "]"
    else prefix + (if prefix != "" then [opts.separator] else "") + NatToString(i)
  }

  /** The prefix of an object property. */
  function FieldPrefix(prefix: string, key: string, sep: char): (r: string)
    ensures prefix <= r && |key| <= |r| && r[|r| - |key|..] == key
    ensures prefix == "" ==> r == key
    ensures prefix != "" ==> |r| == |prefix| + 1 + |key| && r[|prefix|] == sep
  {
    if prefix != "" then prefix + [sep] + key else key
  }

  /**
   * The assignments flatten makes, in order: one (prefix, leaf) per
   * primitive met in a pre-order walk.
   */
  function Entries(v: Value, prefix: string, opts: FlattenOptions): (r: seq<(string, Value)>)
    ensures (v.Arr? && v.items == []) || (v.Obj? && v.fields == []) ==> r == []
    ensures IsPrimitive(v) ==> r == [(prefix, v)]
    decreases v, 1, 0
  {
    match v
    case Arr(items) => ItemEntries(v, prefix, opts, |items|)
    case Obj(fields) => FieldEntries(v, prefix, opts, |fields|)
    case _ => [(prefix, v)]
  }

  /** The assignments for the first n elements of an array. */
  function ItemEntries(v: Value, prefix: string, opts: FlattenOptions, n: nat): (r: seq<(string, Value)>)
    requires v.Arr? && n <= |v.items|
    decreases v, 0, n
  {
    if n == 0 then []
    else ItemEntries(v, prefix, opts, n - 1) + Entries(v.items[n - 1], ItemPrefix(prefix, n - 1, opts), opts)
  }

  /** The assignments for the first n properties of an object. */
  function FieldEntries(v: Value, prefix: string, opts: FlattenOptions, n: nat): (r: seq<(string, Value)>)
    requires v.Obj? && n <= |v.fields|
    decreases v, 0, n
  {
    if n == 0 then []
    else
      var f := v.fields[n - 1];
      FieldEntries(v, prefix, opts, n - 1) + Entries(f.1, FieldPrefix(prefix, f.0, opts.separator), opts)
  }

  /** Every path in es extends prefix. */
  predicate AllUnder(es: seq<(string, Value)>, prefix: string) {
    forall i :: 0 <= i < |es| ==> prefix <= es[i].0
  }

  lemma AllUnderAppend(a: seq<(string, Value)>, b: seq<(string, Value)>, prefix: string)
    requires AllUnder(a, prefix) && AllUnder(b, prefix)
    ensures AllUnder(a + b, prefix)
  {
    forall i | 0 <= i < |a + b| ensures prefix <= (a + b)[i].0 {
      if i >= |a| {
        assert (a + b)[i] == b[i - |a|];
      }
    }
  }

  /** Paths under a longer prefix are under a shorter one. */
  lemma AllUnderWiden(es: seq<(string, Value)>, prefix: string, longer: string)
    requires prefix <= longer && AllUnder(es, longer)
    ensures AllUnder(es, prefix)
  {
    forall i | 0 <= i < |es| ensures prefix <= es[i].0 {
      assert longer <= es[i].0;
      assert es[i].0[..|prefix|] == longer[..|prefix|];
    }
  }

  /** Every path flatten emits below a prefix extends that prefix. */
  lemma {:induction false} EntriesUnder(v: Value, prefix: string, opts: FlattenOptions)
    ensures AllUnder(Entries(v, prefix, opts), prefix)
    decreases v, 1, 0
  {
    match v
    case Arr(items) => ItemEntriesUnder(v, prefix, opts, |items|);
    case Obj(fields) => FieldEntriesUnder(v, prefix, opts, |fields|);
    case _ =>
  }

  lemma {:induction false} ItemEntriesUnder(v: Value, prefix: string, opts: FlattenOptions, n: nat)
    requires v.Arr? && n <= |v.items|
    ensures AllUnder(ItemEntries(v, prefix, opts, n), prefix)
    decreases v, 0, n
  {
    if n > 0 {
      var p := ItemPrefix(prefix, n - 1, opts);
      ItemEntriesUnder(v, prefix, opts, n - 1);
      EntriesUnder(v.items[n - 1], p, opts);
      AllUnderWiden(Entries(v.items[n - 1], p, opts), prefix, p);
      AllUnderAppend(ItemEntries(v, prefix, opts, n - 1), Entries(v.items[n - 1], p, opts), prefix);
    }
  }

  lemma {:induction false} FieldEntriesUnder(v: Value, prefix: string, opts: FlattenOptions, n: nat)
    requires v.Obj? && n <= |v.fields|
    ensures AllUnder(FieldEntries(v, prefix, opts, n), prefix)
    decreases v, 0, n
  {
    if n > 0 {
      var f := v.fields[n - 1];
      var p := FieldPrefix(prefix, f.0, opts.separator);
      FieldEntriesUnder(v, prefix, opts, n - 1);
      EntriesUnder(f.1, p, opts);
      AllUnderWiden(Entries(f.1, p, opts), prefix, p);
      AllUnderAppend(FieldEntries(v, prefix, opts, n - 1), Entries(f.1, p, opts), prefix);
    }
  }

  /** Performing assignments `result[k] = x` one after another. */
  function AssignAll(acc: FlatMap, es: seq<(string, Value)>): FlatMap {
    if es == [] then acc
    else
      var last := es[|es| - 1];
      Put(AssignAll(acc, es[..|es| - 1]), last.0, last.1)
  }

  lemma {:induction false} AssignAllAppend(acc: FlatMap, a: seq<(string, Value)>, b: seq<(string, Value)>)
    ensures AssignAll(acc, a + b) == AssignAll(AssignAll(acc, a), b)
    decreases |b|
  {
    if b == [] {
      assert a + b == a;
    } else {
      assert (a + b)[..|a + b| - 1] == a + b[..|b| - 1];
      AssignAllAppend(acc, a, b[..|b| - 1]);
    }
  }

  /** The inner recursive flatten, writing into the shared result. */
  method FlattenInto(result: FlatMap, obj: Value, prefix: string, opts: FlattenOptions)
    returns (out: FlatMap)
    ensures out == AssignAll(result, Entries(obj, prefix, opts))
    decreases obj
  {
    if IsPrimitive(obj) {
      out := Put(result, prefix, obj);
      assert Entries(obj, prefix, opts) == [(prefix, obj)];
      return;
    }
    out := result;
    if obj.Arr? {
      for i := 0 to |obj.items|
        invariant out == AssignAll(result, ItemEntries(obj, prefix, opts, i))
      {
        var newPrefix := ItemPrefix(prefix, i, opts);
        AssignAllAppend(result, ItemEntries(obj, prefix, opts, i), Entries(obj.items[i], newPrefix, opts));
        out := FlattenInto(out, obj.items[i], newPrefix, opts);
      }
    } else {
      for i := 0 to |obj.fields|
        invariant out == AssignAll(result, FieldEntries(obj, prefix, opts, i))
      {
        var key := obj.fields[i].0;
        var newPrefix := FieldPrefix(prefix, key, opts.separator);
        AssignAllAppend(result, FieldEntries(obj, prefix, opts, i), Entries(obj.fields[i].1, newPrefix, opts));
        assert obj.fields[i] in obj.fields;
        out := FlattenInto(out, obj.fields[i].1, newPrefix, opts);
      }
    }
  }

  /** Every value flatten emits is a primitive. */
  predicate AllPrimitive(es: seq<(string, Value)>) {
    forall i :: 0 <= i < |es| ==> IsPrimitive(es[i].1)
  }

  /** jsonToDot (src/conversion.ts:14-40). */
  method JsonToDot(json: Value, opts: FlattenOptions) returns (result: FlatMap)
    ensures result == AssignAll([], Entries(json, "", opts))
    ensures AllPrimitive(result) && UniqueKeys(result)
    ensures IsPrimitive(json) ==> result == [("", json)]
  {
    result := FlattenInto([], json, "", opts);
    EntriesPrimitive(json, "", opts);
    AssignAllShape([], Entries(json, "", opts));
  }

  /** flatten (src/conversion.ts:83-85): jsonToDot with the given separator. */
  method FlattenWith(obj: Value, sep: char) returns (result: FlatMap)
    ensures result == AssignAll([], Entries(obj, "", FlattenOptions(sep, true)))
    ensures AllPrimitive(result) && UniqueKeys(result)
  {
    result := JsonToDot(obj, FlattenOptions(sep, true));
  }

  lemma {:induction false} EntriesPrimitive(v: Value, prefix: string, opts: FlattenOptions)
    ensures AllPrimitive(Entries(v, prefix, opts))
    decreases v, 1, 0
  {
    match v
    case Arr(items) => ItemEntriesPrimitive(v, prefix, opts, |items|);
    case Obj(fields) => FieldEntriesPrimitive(v, prefix, opts, |fields|);
    case _ =>
  }

  lemma {:induction false} ItemEntriesPrimitive(v: Value, prefix: string, opts: FlattenOptions, n: nat)
    requires v.Arr? && n <= |v.items|
    ensures AllPrimitive(ItemEntries(v, prefix, opts, n))
    decreases v, 0, n
  {
    if n > 0 {
      ItemEntriesPrimitive(v, prefix, opts, n - 1);
      EntriesPrimitive(v.items[n - 1], ItemPrefix(prefix, n - 1, opts), opts);
    }
  }

  lemma {:induction false} FieldEntriesPrimitive(v: Value, prefix: string, opts: FlattenOptions, n: nat)
    requires v.Obj? && n <= |v.fields|
    ensures AllPrimitive(FieldEntries(v, prefix, opts, n))
    decreases v, 0, n
  {
    if n > 0 {
      FieldEntriesPrimitive(v, prefix, opts, n - 1);
      var f := v.fields[n - 1];
      assert f in v.fields;
      EntriesPrimitive(f.1, FieldPrefix(prefix, f.0, opts.separator), opts);
    }
  }

  /**
   * Assigning a list of primitive entries gives a map with distinct keys
   * whose values are all among the entries' values.
   */
  lemma {:induction false} AssignAllShape(acc: FlatMap, es: seq<(string, Value)>)
    requires AllPrimitive(acc) && UniqueKeys(acc) && AllPrimitive(es)
    ensures AllPrimitive(AssignAll(acc, es)) && UniqueKeys(AssignAll(acc, es))
    decreases |es|
  {
    if es != [] {
      var last := es[|es| - 1];
      var front := AssignAll(acc, es[..|es| - 1]);
      AssignAllShape(acc, es[..|es| - 1]);
      PutKeepsUnique(front, last.0, last.1);
      PutKeepsPrimitive(front, last.0, last.1);
    }
  }

  lemma {:induction false} PutKeepsPrimitive(ps: FlatMap, k: string, v: Value)
    requires AllPrimitive(ps) && IsPrimitive(v)
    ensures AllPrimitive(Put(ps, k, v))
    decreases |ps|
  {
    if ps != [] && ps[0].0 != k {
      PutKeepsPrimitive(ps[1..], k, v);
    }
  }

  /** Assigning entries with distinct fresh keys just appends them. */
  lemma {:induction false} AssignAllDistinct(acc: FlatMap, es: seq<(string, Value)>)
    requires UniqueKeys(acc + es)
    ensures AssignAll(acc, es) == acc + es
    decreases |es|
  {
    if es != [] {
      var front := es[..|es| - 1];
      var last := es[|es| - 1];
      assert acc + es == (acc + front) + [last];
      assert UniqueKeys(acc + front) by {
        forall i, j | 0 <= i < j < |acc + front| ensures (acc + front)[i].0 != (acc + front)[j].0 {
          assert (acc + front)[i] == (acc + es)[i] && (acc + front)[j] == (acc + es)[j];
        }
      }
      AssignAllDistinct(acc, front);
      assert last.0 !in Keys(acc + front) by {
        forall i | 0 <= i < |acc + front| ensures (acc + front)[i].0 != last.0 {
          assert (acc + front)[i] == (acc + es)[i] && last == (acc + es)[|acc + es| - 1];
        }
      }
    }
  }
}

=== FILE: conversion_paths.dfy ===
/**
 * What jsonToDot's keys mean: in index-preserving mode each key is the
 * joinPath rendering of the key/index path that leads to its leaf.
 */
module FlatPaths {
  import opened Wrappers
  import opened Decimal
  import opened Values
  import opened PathCodec
  import opened Get
  import opened Flatten

  /** The leaves of v in pre-order, each with its full path (p leading to v). */
  function LeavesAt(v: Value, p: seq<Segment>): seq<(seq<Segment>, Value)>
    decreases v, 1, 0
  {
    match v
    case Arr(items) => ItemLeaves(v, p, |items|)
    case Obj(fields) => FieldLeaves(v, p, |fields|)
    case _ => [(p, v)]
  }

  function ItemLeaves(v: Value, p: seq<Segment>, n: nat): seq<(seq<Segment>, Value)>
    requires v.Arr? && n <= |v.items|
    decreases v, 0, n
  {
    if n == 0 then [] else ItemLeaves(v, p, n - 1) + LeavesAt(v.items[n - 1], p + [Index(n - 1)])
  }

  function FieldLeaves(v: Value, p: seq<Segment>, n: nat): seq<(seq<Segment>, Value)>
    requires v.Obj? && n <= |v.fields|
    decreases v, 0, n
  {
    if n == 0 then []
    else
      var f := v.fields[n - 1];
      FieldLeaves(v, p, n - 1) + LeavesAt(f.1, p + [Key(f.0)])
  }

  /** Each path rendered by joinPath. */
  function Joined(ls: seq<(seq<Segment>, Value)>, sep: char): seq<(string, Value)> {
    seq(|ls|, i requires 0 <= i < |ls| => (JoinPath(ls[i].0, sep), ls[i].1))
  }

  lemma JoinedAt(ls: seq<(seq<Segment>, Value)>, sep: char, i: nat)
    requires i < |ls|
    ensures |Joined(ls, sep)| == |ls| && Joined(ls, sep)[i] == (JoinPath(ls[i].0, sep), ls[i].1)
  {
  }

  lemma JoinedAppend(a: seq<(seq<Segment>, Value)>, b: seq<(seq<Segment>, Value)>, sep: char)
    ensures Joined(a + b, sep) == Joined(a, sep) + Joined(b, sep)
  {
    var l, r := Joined(a + b, sep), Joined(a, sep) + Joined(b, sep);
    assert |l| == |r|;
    forall i | 0 <= i < |l| ensures l[i] == r[i] {
      if i < |a| {
        assert (a + b)[i] == a[i];
      } else {
        assert (a + b)[i] == b[i - |a|];
      }
    }
  }

  /**
   * Every object key is joinable (non-empty, free of the separator and of
   * brackets) and every object has distinct keys.
   */
  predicate Addressable(v: Value, sep: char)
    decreases v
  {
    match v
    case Arr(items) => forall i :: 0 <= i < |items| ==> Addressable(items[i], sep)
    case Obj(fields) =>
      UniqueKeys(fields) &&
      forall i :: 0 <= i < |fields| ==>
        JoinableKey(Key(fields[i].0), sep) && Addressable(fields[i].1, sep)
    case _ => true
  }

  // ---------------------------------------------------------------------
  // Flatten keys are joined paths.
  // ---------------------------------------------------------------------

  predicate KeysNonEmpty(p: seq<Segment>) {
    forall i :: 0 <= i < |p| ==> p[i].Key? ==> p[i].name != ""
  }

  lemma FieldPrefixJoin(p: seq<Segment>, k: string, sep: char)
    requires KeysNonEmpty(p)
    ensures FieldPrefix(JoinPath(p, sep), k, sep) == JoinPath(p + [Key(k)], sep)
  {
    JoinPathEmpty(p, sep);
    var q := p + [Key(k)];
    assert q[..|q| - 1] == p;
    var jp := JoinPath(p, sep);
    assert JoinPath(q, sep) == jp + Render(Key(k), |p|, sep);
    if p == [] {
      assert "" + k == k;
    } else {
      assert jp != "";
      assert Render(Key(k), |p|, sep) == [sep] + k;
      assert jp + [sep] + k == jp + ([sep] + k);
    }
  }

  lemma ItemPrefixJoin(p: seq<Segment>, i: nat, sep: char)
    ensures ItemPrefix(JoinPath(p, sep), i, FlattenOptions(sep, true)) == JoinPath(p + [Index(i)], sep)
  {
    var q := p + [Index(i)];
    assert q[..|q| - 1] == p;
  }

  /** In index-preserving mode, flatten keys are the joined leaf paths. */
  lemma {:induction false} EntriesAsPaths(v: Value, p: seq<Segment>, sep: char)
    requires KeysNonEmpty(p) && Addressable(v, sep)
    ensures Entries(v, JoinPath(p, sep), FlattenOptions(sep, true)) == Joined(LeavesAt(v, p), sep)
    decreases v, 1, 0
  {
    match v
    case Arr(items) => ItemEntriesAsPaths(v, p, sep, |items|);
    case Obj(fields) => FieldEntriesAsPaths(v, p, sep, |fields|);
    case _ =>
  }

  lemma {:induction false} ItemEntriesAsPaths(v: Value, p: seq<Segment>, sep: char, n: nat)
    requires v.Arr? && n <= |v.items|
    requires KeysNonEmpty(p) && Addressable(v, sep)
    ensures ItemEntries(v, JoinPath(p, sep), FlattenOptions(sep, true), n) == Joined(ItemLeaves(v, p, n), sep)
    decreases v, 0, n
  {
    if n > 0 {
      var opts := FlattenOptions(sep, true);
      var c := v.items[n - 1];
      var q := p + [Index(n - 1)];
      KeysNonEmptyStep(p, Index(n - 1));
      calc {
        ItemEntries(v, JoinPath(p, sep), opts, n);
        ItemEntries(v, JoinPath(p, sep), opts, n - 1) + Entries(c, ItemPrefix(JoinPath(p, sep), n - 1, opts), opts);
        { ItemEntriesAsPaths(v, p, sep, n - 1); ItemPrefixJoin(p, n - 1, sep); }
        Joined(ItemLeaves(v, p, n - 1), sep) + Entries(c, JoinPath(q, sep), opts);
        { EntriesAsPaths(c, q, sep); }
        Joined(ItemLeaves(v, p, n - 1), sep) + Joined(LeavesAt(c, q), sep);
        { JoinedAppend(ItemLeaves(v, p, n - 1), LeavesAt(c, q), sep); }
        Joined(ItemLeaves(v, p, n), sep);
      }
    }
  }

  lemma {:induction false} FieldEntriesAsPaths(v: Value, p: seq<Segment>, sep: char, n: nat)
    requires v.Obj? && n <= |v.fields|
    requires KeysNonEmpty(p) && Addressable(v, sep)
    ensures FieldEntries(v, JoinPath(p, sep), FlattenOptions(sep, true), n) == Joined(FieldLeaves(v, p, n), sep)
    decreases v, 0, n
  {
    if n > 0 {
      var opts := FlattenOptions(sep, true);
      var f := v.fields[n - 1];
      assert f in v.fields;
      var q := p + [Key(f.0)];
      FieldEntriesSplit(v, p, sep, n);
      FieldEntriesAsPaths(v, p, sep, n - 1);
      EntriesAsPaths(f.1, q, sep);
      FieldJoinedStep(v, p, sep, n);
    }
  }

  /** The step of FieldEntriesAsPaths, given its two halves. */
  lemma FieldJoinedStep(v: Value, p: seq<Segment>, sep: char, n: nat)
    requires v.Obj? && 0 < n <= |v.fields|
    requires var f := v.fields[n - 1]; var opts := FlattenOptions(sep, true);
      FieldEntries(v, JoinPath(p, sep), opts, n) ==
        FieldEntries(v, JoinPath(p, sep), opts, n - 1) + Entries(f.1, JoinPath(p + [Key(f.0)], sep), opts) &&
      FieldEntries(v, JoinPath(p, sep), opts, n - 1) == Joined(FieldLeaves(v, p, n - 1), sep) &&
      Entries(f.1, JoinPath(p + [Key(f.0)], sep), opts) == Joined(LeavesAt(f.1, p + [Key(f.0)]), sep)
    ensures FieldEntries(v, JoinPath(p, sep), FlattenOptions(sep, true), n) == Joined(FieldLeaves(v, p, n), sep)
  {
    var f := v.fields[n - 1];
    JoinedAppend(FieldLeaves(v, p, n - 1), LeavesAt(f.1, p + [Key(f.0)]), sep);
  }

  /** One property's step of the flatten walk, with its prefix as a joined path. */
  lemma FieldEntriesSplit(v: Value, p: seq<Segment>, sep: char, n: nat)
    requires v.Obj? && 0 < n <= |v.fields|
    requires KeysNonEmpty(p) && Addressable(v, sep)
    ensures var f := v.fields[n - 1];
      FieldEntries(v, JoinPath(p, sep), FlattenOptions(sep, true), n) ==
        FieldEntries(v, JoinPath(p, sep), FlattenOptions(sep, true), n - 1) +
        Entries(f.1, JoinPath(p + [Key(f.0)], sep), FlattenOptions(sep, true)) &&
      KeysNonEmpty(p + [Key(f.0)]) && Addressable(f.1, sep)
  {
    var f := v.fields[n - 1];
    assert JoinableKey(Key(f.0), sep) && Addressable(f.1, sep);
    KeysNonEmptyStep(p, Key(f.0));
    FieldPrefixJoin(p, f.0, sep);
  }

  lemma KeysNonEmptyStep(p: seq<Segment>, x: Segment)
    requires KeysNonEmpty(p) && (x.Key? ==> x.name != "")
    ensures KeysNonEmpty(p + [x])
  {
    var q := p + [x];
    forall i | 0 <= i < |q| && q[i].Key? ensures q[i].name != "" {
      if i < |p| {
        assert q[i] == p[i];
      }
    }
  }

  // ---------------------------------------------------------------------
  // Leaf paths: where they start, what get finds there, that they differ.
  // ---------------------------------------------------------------------

  /** A leaf path extends p, and get finds the leaf along the rest of it. */
  predicate LeafBelow(v: Value, p: seq<Segment>, leaf: (seq<Segment>, Value), sep: char) {
    |leaf.0| >= |p| && leaf.0[..|p|] == p && Walk(v, leaf.0[|p|..]) == leaf.1 &&
    (Joinable(p, sep) ==> Joinable(leaf.0, sep))
  }

  lemma {:induction false} LeavesBelow(v: Value, p: seq<Segment>, sep: char)
    requires Addressable(v, sep)
    ensures forall i :: 0 <= i < |LeavesAt(v, p)| ==> LeafBelow(v, p, LeavesAt(v, p)[i], sep)
    decreases v, 1, 0
  {
    match v
    case Arr(items) => ItemLeavesBelow(v, p, sep, |items|);
    case Obj(fields) => FieldLeavesBelow(v, p, sep, |fields|);
    case _ =>
  }

  lemma {:induction false} ItemLeavesBelow(v: Value, p: seq<Segment>, sep: char, n: nat)
    requires v.Arr? && n <= |v.items| && Addressable(v, sep)
    ensures forall i :: 0 <= i < |ItemLeaves(v, p, n)| ==> LeafBelow(v, p, ItemLeaves(v, p, n)[i], sep)
    ensures forall i :: 0 <= i < |ItemLeaves(v, p, n)| ==>
      |ItemLeaves(v, p, n)[i].0| > |p| && exists j :: 0 <= j < n && ItemLeaves(v, p, n)[i].0[|p|] == Index(j)
    decreases v, 0, n
  {
    if n > 0 {
      ItemLeavesBelow(v, p, sep, n - 1);
      var c := v.items[n - 1];
      var q := p + [Index(n - 1)];
      LeavesBelow(c, q, sep);
      var A := ItemLeaves(v, p, n - 1);
      var B := LeavesAt(c, q);
      forall i | 0 <= i < |A + B|
        ensures LeafBelow(v, p, (A + B)[i], sep)
        ensures |(A + B)[i].0| > |p| && exists j :: 0 <= j < n && (A + B)[i].0[|p|] == Index(j)
      {
        if i >= |A| {
          assert (A + B)[i] == B[i - |A|];
          ItemLeafStep(v, p, sep, n - 1, B[i - |A|]);
        }
      }
    }
  }

  /** A leaf below element j of v is a leaf below v, one index further down. */
  lemma ItemLeafStep(v: Value, p: seq<Segment>, sep: char, j: nat, leaf: (seq<Segment>, Value))
    requires v.Arr? && j < |v.items|
    requires LeafBelow(v.items[j], p + [Index(j)], leaf, sep)
    ensures LeafBelow(v, p, leaf, sep) && |leaf.0| > |p| && leaf.0[|p|] == Index(j)
  {
    var q := p + [Index(j)];
    var path := leaf.0;
    assert path[..|p|] == p by {
      assert path[..|q|][..|p|] == path[..|p|];
    }
    assert path[|p|] == q[|p|];
    assert path[|p|..] == [Index(j)] + path[|q|..];
    CanonicalNatToString(j);
    assert Member(v, PropName(Index(j))) == v.items[j];
    JoinableStep(p, Index(j), sep);
  }

  lemma {:induction false} FieldLeavesBelow(v: Value, p: seq<Segment>, sep: char, n: nat)
    requires v.Obj? && n <= |v.fields| && Addressable(v, sep)
    ensures forall i :: 0 <= i < |FieldLeaves(v, p, n)| ==> LeafBelow(v, p, FieldLeaves(v, p, n)[i], sep)
    ensures forall i :: 0 <= i < |FieldLeaves(v, p, n)| ==>
      |FieldLeaves(v, p, n)[i].0| > |p| &&
      exists j :: 0 <= j < n && FieldLeaves(v, p, n)[i].0[|p|] == Key(v.fields[j].0)
    decreases v, 0, n
  {
    if n > 0 {
      FieldLeavesBelow(v, p, sep, n - 1);
      var f := v.fields[n - 1];
      assert f in v.fields;
      var q := p + [Key(f.0)];
      LeavesBelow(f.1, q, sep);
      var A := FieldLeaves(v, p, n - 1);
      var B := LeavesAt(f.1, q);
      forall i | 0 <= i < |A + B|
        ensures LeafBelow(v, p, (A + B)[i], sep)
        ensures |(A + B)[i].0| > |p| && exists j :: 0 <= j < n && (A + B)[i].0[|p|] == Key(v.fields[j].0)
      {
        if i >= |A| {
          assert (A + B)[i] == B[i - |A|];
          FieldLeafStep(v, p, sep, n - 1, B[i - |A|]);
        }
      }
    }
  }

  /** A leaf below property j of v is a leaf below v, one key further down. */
  lemma FieldLeafStep(v: Value, p: seq<Segment>, sep: char, j: nat, leaf: (seq<Segment>, Value))
    requires v.Obj? && j < |v.fields| && Addressable(v, sep)
    requires LeafBelow(v.fields[j].1, p + [Key(v.fields[j].0)], leaf, sep)
    ensures LeafBelow(v, p, leaf, sep) && |leaf.0| > |p| && leaf.0[|p|] == Key(v.fields[j].0)
  {
    var f := v.fields[j];
    var q := p + [Key(f.0)];
    var path := leaf.0;
    assert path[..|p|] == p by {
      assert path[..|q|][..|p|] == path[..|p|];
    }
    assert path[|p|] == q[|p|];
    assert path[|p|..] == [Key(f.0)] + path[|q|..];
    FirstKeyLookup(v.fields, j);
    assert Member(v, f.0) == f.1;
    JoinableStep(p, Key(f.0), sep);
  }

  /** A joinable path extended by a joinable segment stays joinable. */
  lemma JoinableStep(p: seq<Segment>, x: Segment, sep: char)
    requires JoinableKey(x, sep)
    ensures Joinable(p, sep) ==> Joinable(p + [x], sep)
  {
    if Joinable(p, sep) {
      var q := p + [x];
      forall i | 0 <= i < |q| ensures JoinableKey(q[i], sep) {
        if i < |p| {
          assert q[i] == p[i];
        }
      }
    }
  }

  /** With distinct keys, looking a key up finds its own property. */
  lemma {:induction false} FirstKeyLookup(fs: seq<(string, Value)>, j: nat)
    requires UniqueKeys(fs) && j < |fs|
    ensures Lookup(fs, fs[j].0) == Some(fs[j].1)
    decreases j
  {
    if j > 0 {
      assert UniqueKeys(fs[1..]) by {
        forall a, b | 0 <= a < b < |fs[1..]| ensures fs[1..][a].0 != fs[1..][b].0 {
          assert fs[1..][a] == fs[a + 1] && fs[1..][b] == fs[b + 1];
        }
      }
      FirstKeyLookup(fs[1..], j - 1);
      assert fs[0].0 != fs[j].0;
    }
  }

  predicate DistinctPaths(ls: seq<(seq<Segment>, Value)>) {
    forall i, j :: 0 <= i < j < |ls| ==> ls[i].0 != ls[j].0
  }

  lemma {:induction false} LeavesDistinct(v: Value, p: seq<Segment>, sep: char)
    requires Addressable(v, sep)
    ensures DistinctPaths(LeavesAt(v, p))
    decreases v, 1, 0
  {
    match v
    case Arr(items) => ItemLeavesDistinct(v, p, sep, |items|);
    case Obj(fields) => FieldLeavesDistinct(v, p, sep, |fields|);
    case _ =>
  }

  lemma {:induction false} ItemLeavesDistinct(v: Value, p: seq<Segment>, sep: char, n: nat)
    requires v.Arr? && n <= |v.items| && Addressable(v, sep)
    ensures DistinctPaths(ItemLeaves(v, p, n))
    decreases v, 0, n
  {
    if n > 0 {
      ItemLeavesDistinct(v, p, sep, n - 1);
      LeavesDistinct(v.items[n - 1], p + [Index(n - 1)], sep);
      ItemCross(v, p, sep, n);
      AppendDistinct(ItemLeaves(v, p, n - 1), LeavesAt(v.items[n - 1], p + [Index(n - 1)]));
    }
  }

  /** A leaf below an earlier element and one below element n - 1 part at the index. */
  lemma ItemCross(v: Value, p: seq<Segment>, sep: char, n: nat)
    requires v.Arr? && 0 < n <= |v.items| && Addressable(v, sep)
    ensures Apart(ItemLeaves(v, p, n - 1), LeavesAt(v.items[n - 1], p + [Index(n - 1)]))
  {
    var q := p + [Index(n - 1)];
    var A := ItemLeaves(v, p, n - 1);
    var B := LeavesAt(v.items[n - 1], q);
    ItemLeavesBelow(v, p, sep, n - 1);
    LeavesBelow(v.items[n - 1], q, sep);
    forall i, j | 0 <= i < |A| && 0 <= j < |B| ensures A[i].0 != B[j].0 {
      ItemLeafStep(v, p, sep, n - 1, B[j]);
      var k :| 0 <= k < n - 1 && A[i].0[|p|] == Index(k);
    }
  }

  lemma {:induction false} FieldLeavesDistinct(v: Value, p: seq<Segment>, sep: char, n: nat)
    requires v.Obj? && n <= |v.fields| && Addressable(v, sep)
    ensures DistinctPaths(FieldLeaves(v, p, n))
    decreases v, 0, n
  {
    if n > 0 {
      var f := v.fields[n - 1];
      assert f in v.fields;
      FieldLeavesDistinct(v, p, sep, n - 1);
      LeavesDistinct(f.1, p + [Key(f.0)], sep);
      FieldCross(v, p, sep, n);
      AppendDistinct(FieldLeaves(v, p, n - 1), LeavesAt(f.1, p + [Key(f.0)]));
    }
  }

  /** A leaf below an earlier property and one below property n - 1 part at the key. */
  lemma FieldCross(v: Value, p: seq<Segment>, sep: char, n: nat)
    requires v.Obj? && 0 < n <= |v.fields| && Addressable(v, sep)
    ensures Apart(FieldLeaves(v, p, n - 1), LeavesAt(v.fields[n - 1].1, p + [Key(v.fields[n - 1].0)]))
  {
    var f := v.fields[n - 1];
    assert f in v.fields;
    var q := p + [Key(f.0)];
    var A := FieldLeaves(v, p, n - 1);
    var B := LeavesAt(f.1, q);
    FieldLeavesBelow(v, p, sep, n - 1);
    LeavesBelow(f.1, q, sep);
    assert UniqueKeys(v.fields);
    forall i, j | 0 <= i < |A| && 0 <= j < |B| ensures A[i].0 != B[j].0 {
      FieldLeafStep(v, p, sep, n - 1, B[j]);
      KeysApart(v, p, n, A[i].0, B[j].0);
    }
  }

  /** Paths that leave p by different properties differ. */
  lemma KeysApart(v: Value, p: seq<Segment>, n: nat, a: seq<Segment>, b: seq<Segment>)
    requires v.Obj? && 0 < n <= |v.fields| && UniqueKeys(v.fields)
    requires |a| > |p| && exists k :: 0 <= k < n - 1 && a[|p|] == Key(v.fields[k].0)
    requires |b| > |p| && b[|p|] == Key(v.fields[n - 1].0)
    ensures a != b
  {
    var k :| 0 <= k < n - 1 && a[|p|] == Key(v.fields[k].0);
    assert v.fields[k].0 != v.fields[n - 1].0;
  }

  /** No path of A is a path of B. */
  predicate Apart(A: seq<(seq<Segment>, Value)>, B: seq<(seq<Segment>, Value)>) {
    forall i, j :: 0 <= i < |A| && 0 <= j < |B| ==> A[i].0 != B[j].0
  }

  /** Two lists of distinct paths that share no path concatenate to one. */
  lemma AppendDistinct(A: seq<(seq<Segment>, Value)>, B: seq<(seq<Segment>, Value)>)
    requires DistinctPaths(A) && DistinctPaths(B)
    requires Apart(A, B)
    ensures DistinctPaths(A + B)
  {
    var AB := A + B;
    forall i, j | 0 <= i < j < |AB| ensures AB[i].0 != AB[j].0 {
      if j >= |A| {
        assert AB[j] == B[j - |A|];
        if i >= |A| {
          assert AB[i] == B[i - |A|];
        }
      }
    }
  }

  /** Distinct joinable paths render to distinct keys. */
  lemma JoinedUnique(ls: seq<(seq<Segment>, Value)>, sep: char)
    requires DistinctPaths(ls)
    requires forall i :: 0 <= i < |ls| ==> Joinable(ls[i].0, sep)
    ensures UniqueKeys([] + Joined(ls, sep))
  {
    var J := Joined(ls, sep);
    assert [] + J == J;
    forall i, j | 0 <= i < j < |J| ensures J[i].0 != J[j].0 {
      JoinedAt(ls, sep, i);
      JoinedAt(ls, sep, j);
      JoinApart(ls[i].0, ls[j].0, sep);
    }
  }

  lemma JoinApart(a: seq<Segment>, b: seq<Segment>, sep: char)
    requires Joinable(a, sep) && Joinable(b, sep) && a != b
    ensures JoinPath(a, sep) != JoinPath(b, sep)
  {
    if JoinPath(a, sep) == JoinPath(b, sep) {
      JoinInjective(a, b, sep);
    }
  }

  /** A leaf found from the root splits back from its joined path, and get finds it. */
  lemma LeafAddressed(t: Value, leaf: (seq<Segment>, Value), sep: char)
    requires sep != '[' && sep != ']' && LeafBelow(t, [], leaf, sep)
    ensures Joinable(leaf.0, sep) && Split(JoinPath(leaf.0, sep), sep) == leaf.0 && Walk(t, leaf.0) == leaf.1
  {
    assert Joinable([], sep);
    assert leaf.0[0..] == leaf.0;
    SplitJoin(leaf.0, sep);
  }

  /**
   * In index-preserving mode, jsonToDot's result is the list of leaves with
   * their joined paths; splitting each key gives the path that leads to its
   * leaf, and get along that path finds the leaf (src/conversion.ts:20-33).
   */
  lemma FlatKeysAddressLeaves(t: Value, sep: char)
    requires sep != '[' && sep != ']' && Addressable(t, sep)
    ensures AssignAll([], Entries(t, "", FlattenOptions(sep, true))) == Joined(LeavesAt(t, []), sep)
    ensures forall i :: 0 <= i < |LeavesAt(t, [])| ==>
      Split(JoinPath(LeavesAt(t, [])[i].0, sep), sep) == LeavesAt(t, [])[i].0 &&
      Walk(t, LeavesAt(t, [])[i].0) == LeavesAt(t, [])[i].1
  {
    LeavesAddressed(t, sep);
    FlatIsJoined(t, sep);
  }

  /** Every leaf path is joinable, splits back from its joined form, and leads get to the leaf. */
  lemma LeavesAddressed(t: Value, sep: char)
    requires sep != '[' && sep != ']' && Addressable(t, sep)
    ensures forall i :: 0 <= i < |LeavesAt(t, [])| ==>
      Joinable(LeavesAt(t, [])[i].0, sep) &&
      Split(JoinPath(LeavesAt(t, [])[i].0, sep), sep) == LeavesAt(t, [])[i].0 &&
      Walk(t, LeavesAt(t, [])[i].0) == LeavesAt(t, [])[i].1
  {
    var L := LeavesAt(t, []);
    LeavesBelow(t, [], sep);
    forall i | 0 <= i < |L|
      ensures Joinable(L[i].0, sep) && Split(JoinPath(L[i].0, sep), sep) == L[i].0 && Walk(t, L[i].0) == L[i].1
    {
      assert LeafBelow(t, [], L[i], sep);
      LeafAddressed(t, L[i], sep);
    }
  }

  /** In index-preserving mode, jsonToDot's result lists the leaves under their joined paths. */
  lemma FlatIsJoined(t: Value, sep: char)
    requires sep != '[' && sep != ']' && Addressable(t, sep)
    ensures AssignAll([], Entries(t, "", FlattenOptions(sep, true))) == Joined(LeavesAt(t, []), sep)
  {
    var L := LeavesAt(t, []);
    var J := Joined(L, sep);
    assert Entries(t, "", FlattenOptions(sep, true)) == J by {
      EntriesAsPaths(t, [], sep);
    }
    assert UniqueKeys([] + J) by {
      LeavesAddressed(t, sep);
      LeavesDistinct(t, [], sep);
      JoinedUnique(L, sep);
    }
    AssignAllDistinct([], J);
    assert [] + J == J;
  }
}

=== FILE: conversion_roundtrip.dfy ===
/**
 * dotToJson undoes jsonToDot in index-preserving mode, for object roots
 * whose keys are addressable and whose nested containers are non-empty.
 */
module RoundTrip {
  import opened Wrappers
  import opened Seqs
  import opened Decimal
  import opened Values
  import opened PathCodec
  import opened Get
  import opened Flatten
  import opened FlatPaths
  import opened Unflatten

  /** No nested object or array is empty (an empty one leaves no key behind). */
  predicate NoEmptyNested(v: Value)
    decreases v
  {
    match v
    case Arr(items) => forall i :: 0 <= i < |items| ==> Filled(items[i]) && NoEmptyNested(items[i])
    case Obj(fields) => forall i :: 0 <= i < |fields| ==> Filled(fields[i].1) && NoEmptyNested(fields[i].1)
    case _ => true
  }

  predicate Filled(v: Value) {
    (v.Arr? ==> |v.items| > 0) && (v.Obj? ==> |v.fields| > 0)
  }

  /** The empty container of the same kind. */
  function EmptyOf(v: Value): Value
    requires v.Arr? || v.Obj?
  {
    if v.Arr? then Arr([]) else Obj([])
  }

  /** Every leaf path, prefixed by p. */
  function Under(p: seq<Segment>, ls: seq<(seq<Segment>, Value)>): seq<(seq<Segment>, Value)> {
    seq(|ls|, i requires 0 <= i < |ls| => (p + ls[i].0, ls[i].1))
  }

  lemma UnderAppend(p: seq<Segment>, a: seq<(seq<Segment>, Value)>, b: seq<(seq<Segment>, Value)>)
    ensures Under(p, a + b) == Under(p, a) + Under(p, b)
  {
    var l, r := Under(p, a + b), Under(p, a) + Under(p, b);
    assert |l| == |r|;
    forall i | 0 <= i < |l| ensures l[i] == r[i] {
      if i < |a| {
        assert (a + b)[i] == a[i];
      } else {
        assert (a + b)[i] == b[i - |a|];
      }
    }
  }

  /** Leaf paths below p are the paths below the root, prefixed by p. */
  lemma {:induction false} LeavesUnder(v: Value, p: seq<Segment>)
    ensures LeavesAt(v, p) == Under(p, LeavesAt(v, []))
    decreases v, 1, 0
  {
    match v
    case Arr(items) => ItemLeavesUnder(v, p, |items|);
    case Obj(fields) => FieldLeavesUnder(v, p, |fields|);
    case _ => assert p + [] == p;
  }

  lemma {:induction false} ItemLeavesUnder(v: Value, p: seq<Segment>, n: nat)
    requires v.Arr? && n <= |v.items|
    ensures ItemLeaves(v, p, n) == Under(p, ItemLeaves(v, [], n))
    decreases v, 0, n
  {
    if n > 0 {
      var c := v.items[n - 1];
      ItemLeavesUnder(v, p, n - 1);
      LeavesUnder(c, p + [Index(n - 1)]);
      LeavesUnder(c, [] + [Index(n - 1)]);
      var L := LeavesAt(c, []);
      assert Under(p + [Index(n - 1)], L) == Under(p, Under([Index(n - 1)], L)) by {
        forall i | 0 <= i < |L| ensures p + [Index(n - 1)] + L[i].0 == p + ([Index(n - 1)] + L[i].0) {
        }
      }
      assert [] + [Index(n - 1)] == [Index(n - 1)];
      UnderAppend(p, ItemLeaves(v, [], n - 1), LeavesAt(c, [Index(n - 1)]));
    }
  }

  lemma {:induction false} FieldLeavesUnder(v: Value, p: seq<Segment>, n: nat)
    requires v.Obj? && n <= |v.fields|
    ensures FieldLeaves(v, p, n) == Under(p, FieldLeaves(v, [], n))
    decreases v, 0, n
  {
    if n > 0 {
      var f := v.fields[n - 1];
      FieldLeavesUnder(v, p, n - 1);
      LeavesUnder(f.1, p + [Key(f.0)]);
      LeavesUnder(f.1, [] + [Key(f.0)]);
      var L := LeavesAt(f.1, []);
      assert Under(p + [Key(f.0)], L) == Under(p, Under([Key(f.0)], L)) by {
        forall i | 0 <= i < |L| ensures p + [Key(f.0)] + L[i].0 == p + ([Key(f.0)] + L[i].0) {
        }
      }
      assert [] + [Key(f.0)] == [Key(f.0)];
      UnderAppend(p, FieldLeaves(v, [], n - 1), LeavesAt(f.1, [Key(f.0)]));
    }
  }

  // ---------------------------------------------------------------------
  // Placing with an empty path meaning "the value itself".
  // ---------------------------------------------------------------------

  function PlaceStep(acc: Result<Value, PlaceError>, e: (seq<Segment>, Value)): Result<Value, PlaceError> {
    match acc
    case Err(err) => Err(err)
    case Ok(t) => if e.0 == [] then Ok(e.1) else Place(t, e.0, e.1)
  }

  function Build(acc: Result<Value, PlaceError>, ps: seq<(seq<Segment>, Value)>): Result<Value, PlaceError> {
    if ps == [] then acc else PlaceStep(Build(acc, ps[..|ps| - 1]), ps[|ps| - 1])
  }

  lemma {:induction false} BuildAppend(acc: Result<Value, PlaceError>, a: seq<(seq<Segment>, Value)>, b: seq<(seq<Segment>, Value)>)
    ensures Build(acc, a + b) == Build(Build(acc, a), b)
    decreases |b|
  {
    if b == [] {
      assert a + b == a;
    } else {
      var b' := b[..|b| - 1];
      assert (a + b)[..|a + b| - 1] == a + b';
      assert (a + b)[|a + b| - 1] == b[|b| - 1];
      BuildAppend(acc, a, b');
    }
  }

  predicate PathsNonEmpty(ps: seq<(seq<Segment>, Value)>) {
    forall i :: 0 <= i < |ps| ==> ps[i].0 != []
  }

  /** With no empty path, dotToJson's fold and Build agree. */
  lemma {:induction false} PlaceAllIsBuild(acc: Result<Value, PlaceError>, ps: seq<(seq<Segment>, Value)>)
    requires PathsNonEmpty(ps)
    ensures PlaceAll(acc, ps) == Build(acc, ps)
    decreases |ps|
  {
    if ps != [] {
      PlaceAllIsBuild(acc, ps[..|ps| - 1]);
    }
  }

  /** Placing along non-empty paths keeps the kind of the starting node. */
  lemma {:induction false} BuildKeepsKind(c: Value, ps: seq<(seq<Segment>, Value)>)
    requires PathsNonEmpty(ps)
    ensures Build(Ok(c), ps).Ok? ==> SameKind(Build(Ok(c), ps).value, c)
    decreases |ps|
  {
    if ps != [] {
      BuildKeepsKind(c, ps[..|ps| - 1]);
    }
  }

  function Lifted(r: Result<Value, PlaceError>, node: Value, name: string): Result<Value, PlaceError>
    requires Storable(node, name)
  {
    match r
    case Err(e) => Err(e)
    case Ok(x) => Ok(Store(node, name, x))
  }

  /**
   * Placing a child's leaves one level down, into a container where the slot
   * is still absent, builds the child from the empty container its first
   * path calls for and stores it in the slot.
   */
  lemma {:induction false} Lift(node: Value, s: Segment, ps: seq<(seq<Segment>, Value)>, k: nat)
    requires (node.Obj? || node.Arr?) && Storable(node, PropName(s)) && Member(node, PropName(s)) == Undef
    requires PathsNonEmpty(ps) && 1 <= k <= |ps|
    ensures Build(Ok(node), Under([s], ps[..k])) ==
      Lifted(Build(Ok(EmptyFor(ps[0].0[0])), ps[..k]), node, PropName(s))
    decreases k
  {
    var name := PropName(s);
    var c0 := EmptyFor(ps[0].0[0]);
    var e := ps[k - 1];
    UnderLast(s, ps, k);
    assert ps[..k][..k - 1] == ps[..k - 1];
    if k == 1 {
      assert ([s] + e.0)[1..] == e.0 && ([s] + e.0)[0] == s;
      assert Build(Ok(node), Under([s], ps[..k])[..0]) == Ok(node);
      assert Build(Ok(c0), ps[..0]) == Ok(c0);
    } else {
      Lift(node, s, ps, k - 1);
      var R := Build(Ok(c0), ps[..k - 1]);
      if R.Ok? {
        BuildKeepsKind(c0, ps[..k - 1]);
        LiftStep(node, s, R.value, e);
      }
    }
  }

  /** The last pair of Under([s], ps[..k]), and what comes before it. */
  lemma UnderLast(s: Segment, ps: seq<(seq<Segment>, Value)>, k: nat)
    requires 1 <= k <= |ps|
    ensures |Under([s], ps[..k])| == k
    ensures Under([s], ps[..k])[..k - 1] == Under([s], ps[..k - 1])
    ensures Under([s], ps[..k])[k - 1] == ([s] + ps[k - 1].0, ps[k - 1].1)
  {
    assert Under([s], ps[..k])[..k - 1] == Under([s], ps[..k - 1]);
  }

  /** One more pair placed below a filled slot is placed into the slot's container. */
  lemma LiftStep(node: Value, s: Segment, x: Value, e: (seq<Segment>, Value))
    requires (node.Obj? || node.Arr?) && Storable(node, PropName(s))
    requires (x.Obj? || x.Arr?) && e.0 != []
    ensures PlaceStep(Ok(Store(node, PropName(s), x)), ([s] + e.0, e.1)) ==
      Lifted(PlaceStep(Ok(x), e), node, PropName(s))
  {
    var name := PropName(s);
    var segs := [s] + e.0;
    assert segs[0] == s && segs[1..] == e.0 && |segs| > 1;
    var stored := Store(node, name, x);
    assert Member(stored, name) == x && Truthy(x);
    assert !IsPrimitive(stored) && Storable(stored, name);
    var inner := Place(x, e.0, e.1);
    assert Place(stored, segs, e.1) == match inner case Err(err) => Err(err) case Ok(c) => Ok(Store(stored, name, c));
    if inner.Ok? {
      StoreStore(node, name, x, inner.value);
    }
  }

  // ---------------------------------------------------------------------
  // Rebuilding a tree from its own leaves.
  // ---------------------------------------------------------------------

  /** The leaves of a filled container lie below it, the first one below its first member. */
  lemma ContainerLeaves(v: Value)
    requires (v.Obj? || v.Arr?) && Filled(v) && NoEmptyNested(v)
    ensures PathsNonEmpty(LeavesAt(v, []))
    ensures |LeavesAt(v, [])| > 0 && EmptyFor(LeavesAt(v, [])[0].0[0]) == EmptyOf(v)
  {
    if v.Obj? {
      FieldLeavesFirst(v, |v.fields|);
      FieldLeavesNonEmpty(v, |v.fields|);
    } else {
      ItemLeavesFirst(v, |v.items|);
      ItemLeavesNonEmpty(v, |v.items|);
    }
  }

  lemma UnderNonEmpty(s: Segment, ls: seq<(seq<Segment>, Value)>)
    ensures PathsNonEmpty(Under([s], ls))
  {
    forall i | 0 <= i < |ls| ensures Under([s], ls)[i].0 != [] {
      assert Under([s], ls)[i].0[0] == s;
    }
  }

  lemma {:induction false} ItemLeavesNonEmpty(v: Value, n: nat)
    requires v.Arr? && n <= |v.items|
    ensures PathsNonEmpty(ItemLeaves(v, [], n))
  {
    if n > 0 {
      ItemLeavesNonEmpty(v, n - 1);
      LeavesUnder(v.items[n - 1], [Index(n - 1)]);
      UnderNonEmpty(Index(n - 1), LeavesAt(v.items[n - 1], []));
      assert [] + [Index(n - 1)] == [Index(n - 1)];
    }
  }

  lemma {:induction false} FieldLeavesNonEmpty(v: Value, n: nat)
    requires v.Obj? && n <= |v.fields|
    ensures PathsNonEmpty(FieldLeaves(v, [], n))
  {
    if n > 0 {
      var f := v.fields[n - 1];
      FieldLeavesNonEmpty(v, n - 1);
      LeavesUnder(f.1, [Key(f.0)]);
      UnderNonEmpty(Key(f.0), LeavesAt(f.1, []));
      assert [] + [Key(f.0)] == [Key(f.0)];
    }
  }

  /** Leaves of a non-empty tree exist, and a filled tree's first leaf path starts at its first member. */
  lemma {:induction false} LeavesExist(v: Value)
    requires Filled(v) && NoEmptyNested(v)
    ensures |LeavesAt(v, [])| > 0
    decreases v, 1
  {
    match v
    case Arr(items) => ItemLeavesFirst(v, |items|);
    case Obj(fields) => FieldLeavesFirst(v, |fields|);
    case _ =>
  }

  lemma {:induction false} ItemLeavesFirst(v: Value, n: nat)
    requires v.Arr? && 0 < n <= |v.items| && NoEmptyNested(v)
    ensures |ItemLeaves(v, [], n)| > 0 && ItemLeaves(v, [], n)[0].0 != [] && ItemLeaves(v, [], n)[0].0[0] == Index(0)
    decreases v, 0, n
  {
    if n == 1 {
      LeavesExist(v.items[0]);
      LeavesUnder(v.items[0], [Index(0)]);
      assert ItemLeaves(v, [], 0) == [];
      assert [] + [Index(0)] == [Index(0)];
    } else {
      ItemLeavesFirst(v, n - 1);
    }
  }

  lemma {:induction false} FieldLeavesFirst(v: Value, n: nat)
    requires v.Obj? && 0 < n <= |v.fields| && NoEmptyNested(v)
    ensures |FieldLeaves(v, [], n)| > 0 && FieldLeaves(v, [], n)[0].0 != [] && FieldLeaves(v, [], n)[0].0[0] == Key(v.fields[0].0)
    decreases v, 0, n
  {
    if n == 1 {
      LeavesExist(v.fields[0].1);
      LeavesUnder(v.fields[0].1, [Key(v.fields[0].0)]);
      assert FieldLeaves(v, [], 0) == [];
      assert [] + [Key(v.fields[0].0)] == [Key(v.fields[0].0)];
    } else {
      FieldLeavesFirst(v, n - 1);
    }
  }

  /** A child stored in a slot that is still absent. */
  lemma PlaceChild(node: Value, s: Segment, c: Value)
    requires (node.Obj? || node.Arr?) && Storable(node, PropName(s)) && Member(node, PropName(s)) == Undef
    requires Filled(c) && NoEmptyNested(c)
    requires (c.Obj? || c.Arr?) ==> Build(Ok(EmptyOf(c)), LeavesAt(c, [])) == Ok(c)
    ensures Build(Ok(node), LeavesAt(c, [s])) == Ok(Store(node, PropName(s), c))
  {
    LeavesUnder(c, [] + [s]);
    assert [] + [s] == [s];
    var L := LeavesAt(c, []);
    if c.Obj? || c.Arr? {
      ContainerLeaves(c);
      assert L[..|L|] == L;
      Lift(node, s, L, |L|);
    } else {
      assert Under([s], L) == [([s], c)];
      assert Under([s], L)[..0] == [];
    }
  }

  /** A subtree placed under an absent slot is rebuilt there. */
  lemma {:induction false} StoreChild(node: Value, s: Segment, c: Value, sep: char)
    requires (node.Obj? || node.Arr?) && Storable(node, PropName(s)) && Member(node, PropName(s)) == Undef
    requires Filled(c) && NoEmptyNested(c) && Addressable(c, sep)
    ensures Build(Ok(node), LeavesAt(c, [s])) == Ok(Store(node, PropName(s), c))
    decreases c, 2
  {
    if c.Obj? || c.Arr? {
      Rebuild(c, sep);
    }
    PlaceChild(node, s, c);
  }

  /** Placing the leaves of the first n properties rebuilds those properties. */
  lemma {:induction false} FieldRebuild(v: Value, sep: char, n: nat)
    requires v.Obj? && n <= |v.fields| && Addressable(v, sep) && NoEmptyNested(v)
    ensures Build(Ok(Obj([])), FieldLeaves(v, [], n)) == Ok(Obj(v.fields[..n]))
    decreases v, 0, n
  {
    if n > 0 {
      var f := v.fields[n - 1];
      var prev := v.fields[..n - 1];
      var A, B := FieldLeaves(v, [], n - 1), LeavesAt(f.1, [Key(f.0)]);
      assert FieldLeaves(v, [], n) == A + B by {
        assert [] + [Key(f.0)] == [Key(f.0)];
      }
      assert f.0 !in Keys(prev);
      assert Filled(f.1) && NoEmptyNested(f.1) && Addressable(f.1, sep);
      calc {
        Build(Ok(Obj([])), FieldLeaves(v, [], n));
        { BuildAppend(Ok(Obj([])), A, B); }
        Build(Build(Ok(Obj([])), A), B);
        { FieldRebuild(v, sep, n - 1); }
        Build(Ok(Obj(prev)), B);
        { StoreChild(Obj(prev), Key(f.0), f.1, sep); }
        Ok(Store(Obj(prev), f.0, f.1));
        Ok(Obj(prev + [f]));
        { TakeOneMore(v.fields, n - 1); }
        Ok(Obj(v.fields[..n]));
      }
    } else {
      assert v.fields[..0] == [];
    }
  }

  /** The index just past the end of an array is absent and appends when written. */
  lemma ArrayEnd(items: seq<Value>, c: Value)
    ensures Storable(Arr(items), PropName(Index(|items|)))
    ensures Member(Arr(items), PropName(Index(|items|))) == Undef
    ensures Store(Arr(items), PropName(Index(|items|)), c) == Arr(items + [c])
  {
    CanonicalNatToString(|items|);
  }

  /** Placing the leaves of the first n elements rebuilds those elements. */
  lemma {:induction false} ItemRebuild(v: Value, sep: char, n: nat)
    requires v.Arr? && n <= |v.items| && Addressable(v, sep) && NoEmptyNested(v)
    ensures Build(Ok(Arr([])), ItemLeaves(v, [], n)) == Ok(Arr(v.items[..n]))
    decreases v, 0, n
  {
    if n > 0 {
      var c := v.items[n - 1];
      var prev := v.items[..n - 1];
      var A, B := ItemLeaves(v, [], n - 1), LeavesAt(c, [Index(n - 1)]);
      assert ItemLeaves(v, [], n) == A + B by {
        assert [] + [Index(n - 1)] == [Index(n - 1)];
      }
      assert Filled(c) && NoEmptyNested(c) && Addressable(c, sep);
      assert |prev| == n - 1;
      calc {
        Build(Ok(Arr([])), ItemLeaves(v, [], n));
        { BuildAppend(Ok(Arr([])), A, B); }
        Build(Build(Ok(Arr([])), A), B);
        { ItemRebuild(v, sep, n - 1); }
        Build(Ok(Arr(prev)), B);
        { ArrayEnd(prev, c); StoreChild(Arr(prev), Index(n - 1), c, sep); }
        Ok(Store(Arr(prev), PropName(Index(n - 1)), c));
        { ArrayEnd(prev, c); }
        Ok(Arr(prev + [c]));
        { TakeOneMore(v.items, n - 1); }
        Ok(Arr(v.items[..n]));
      }
    } else {
      assert v.items[..0] == [];
    }
  }

  /** Placing all leaves of a container into an empty one of its kind rebuilds it. */
  lemma {:induction false} Rebuild(v: Value, sep: char)
    requires (v.Obj? || v.Arr?) && Addressable(v, sep) && NoEmptyNested(v)
    ensures Build(Ok(EmptyOf(v)), LeavesAt(v, [])) == Ok(v)
    decreases v, 1, 0
  {
    if v.Obj? {
      FieldRebuild(v, sep, |v.fields|);
      assert v.fields[..|v.fields|] == v.fields;
    } else {
      ItemRebuild(v, sep, |v.items|);
      assert v.items[..|v.items|] == v.items;
    }
  }

  /**
   * dotToJson(jsonToDot(t)) == t in index-preserving mode, for an object t
   * whose keys are joinable and distinct and whose nested objects and arrays
   * are non-empty (src/conversion.ts:14-74).
   */
  lemma DotToJsonUndoesJsonToDot(t: Value, sep: char)
    requires t.Obj? && sep != '[' && sep != ']' && Addressable(t, sep) && NoEmptyNested(t)
    ensures UnflattenSpec(AssignAll([], Entries(t, "", FlattenOptions(sep, true))), sep) == Ok(t)
  {
    var L := LeavesAt(t, []);
    FlatKeysAddressLeaves(t, sep);
    var J := Joined(L, sep);
    assert AssignAll([], Entries(t, "", FlattenOptions(sep, true))) == J;
    var S := SplitAll(J, sep);
    assert S == L by {
      assert |S| == |L|;
      forall i | 0 <= i < |L| ensures S[i] == L[i] {
        JoinedAt(L, sep, i);
        assert S[i] == (Split(JoinPath(L[i].0, sep), sep), L[i].1);
      }
    }
    assert UnflattenSpec(J, sep) == PlaceAll(Ok(Obj([])), L);
    if t.fields == [] {
      assert L == [];
    } else {
      ContainerLeaves(t);
      PlaceAllIsBuild(Ok(Obj([])), L);
      Rebuild(t, sep);
    }
  }

  lemma PlainFlattenExample()
    ensures AssignAll([], Entries(Obj([("a", Arr([Num(1)]))]), "", FlattenOptions('.', false))) == [("a.0", Num(1))]
  {
    var t := Obj([("a", Arr([Num(1)]))]);
    var opts := FlattenOptions('.', false);
    assert NatToString(0) == "0";
    assert ItemPrefix("a", 0, opts) == "a.0";
    var es := Entries(t.fields[0].1, FieldPrefix("", "a", '.'), opts);
    assert ItemEntries(t.fields[0].1, "a", opts, 0) == [];
    assert es == [("a.0", Num(1))];
    assert FieldEntries(t, "", opts, 0) == [];
    assert Entries(t, "", opts) == [] + es;
  }

  lemma PlainSplitExample()
    ensures Split("a.0", '.') == [Key("a"), Key("0")]
  {
    var s := "a.0";
    assert s[..2] == "a." && s[..2][..1] == "a" && s[..2][..1][..0] == "";
    var st1 := Run(Start, "a", '.');
    assert st1 == Scan([], "a", false);
    var st2 := Run(Start, "a.", '.');
    assert st2 == Scan([Key("a")], "", false);
    assert Run(Start, s, '.') == Scan([Key("a")], "0", false);
  }

  lemma PlainPlaceExample()
    ensures Place(Obj([]), [Key("a"), Key("0")], Num(1)) == Ok(Obj([("a", Obj([("0", Num(1))]))]))
  {
    var segs := [Key("a"), Key("0")];
    assert segs[1..] == [Key("0")];
    assert Place(Obj([]), segs[1..], Num(1)) == Ok(Obj([("0", Num(1))]));
  }

  /**
   * Without bracketed indices the round trip fails: an array index becomes a
   * plain key, and dotToJson rebuilds an object in its place.
   */
  lemma PlainIndicesBecomeKeys()
    ensures
      var t := Obj([("a", Arr([Num(1)]))]);
      var flat := AssignAll([], Entries(t, "", FlattenOptions('.', false)));
      flat == [("a.0", Num(1))] &&
      UnflattenSpec(flat, '.') == Ok(Obj([("a", Obj([("0", Num(1))]))])) &&
      UnflattenSpec(flat, '.') != Ok(t)
  {
    PlainFlattenExample();
    PlainSplitExample();
    PlainPlaceExample();
    var flat: FlatMap := [("a.0", Num(1))];
    var ps := SplitAll(flat, '.');
    assert ps == [([Key("a"), Key("0")], Num(1))];
    assert ps[..0] == [];
  }
}

=== FILE: conversion_unflatten.dfy ===
/** dotToJson and unflatten (src/conversion.ts:48-96). */
module Unflatten {
  import opened Wrappers
  import opened Decimal
  import opened Values
  import opened PathCodec
  import opened Flatten

  /**
   * Why dotToJson stops: a write into a primitive throws a TypeError (module
   * code runs in strict mode); a write of a name that is not a canonical
   * index into an array is outside the model.
   */
  datatype PlaceError = TypeError | NotModelled

  /** Containers this model can write `name` into. */
  predicate Storable(node: Value, name: string) {
    node.Obj? || (node.Arr? && IsCanonicalIndex(name))
  }

  /**
   * `node[name] = v` on a container. Writing past the end of an array leaves
   * holes, which this model fills with undefined.
   */
  function Store(node: Value, name: string, v: Value): (r: Value)
    requires Storable(node, name)
    ensures SameKind(r, node) && Member(r, name) == v
    ensures node.Obj? && name !in Keys(node.fields) ==> r == Obj(node.fields + [(name, v)])
    ensures node.Arr? && CanonicalValue(name) == |node.items| ==> r == Arr(node.items + [v])
  {
    if node.Obj? then Obj(Put(node.fields, name, v))
    else
      var i := CanonicalValue(name);
      if i < |node.items| then Arr(node.items[i := v])
      else
        var r := Arr(node.items + seq(i - |node.items|, _ => Undef) + [v]);
        assert i - |node.items| == 0 ==> r == Arr(node.items + [v]);
        r
  }

  /** A second write to the same property replaces the first. */
  lemma StoreStore(node: Value, name: string, a: Value, b: Value)
    requires Storable(node, name)
    ensures Store(Store(node, name, a), name, b) == Store(node, name, b)
  {
    if node.Obj? {
      PutPut(node.fields, name, a, b);
    } else {
      var i := CanonicalValue(name);
      var s := Store(node, name, a);
      assert |s.items| == if i < |node.items| then |node.items| else i + 1;
      if i >= |node.items| {
        assert s.items[i := b] == node.items + seq(i - |node.items|, _ => Undef) + [b];
      }
    }
  }

  /** The container dotToJson creates for a missing intermediate slot. */
  function EmptyFor(next: Segment): Value {
    if next.Key? then Obj([]) else Arr([])
  }

  /**
   * The inner loop of dotToJson for one path: each non-final segment reuses
   * a truthy slot or fills it with the container the next segment calls
   * for, and the final segment receives the value.
   */
  function Place(node: Value, segs: seq<Segment>, v: Value): (r: Result<Value, PlaceError>)
    requires |segs| > 0
    ensures r.Ok? ==> SameKind(r.value, node) && Storable(node, PropName(segs[0]))
    decreases |segs|
  {
    var name := PropName(segs[0]);
    if IsPrimitive(node) then Err(TypeError)
    else if !Storable(node, name) then Err(NotModelled)
    else if |segs| == 1 then Ok(Store(node, name, v))
    else
      var slot := Member(node, name);
      var child := if Truthy(slot) then slot else EmptyFor(segs[1]);
      match Place(child, segs[1..], v)
      case Err(e) => Err(e)
      case Ok(c) => Ok(Store(node, name, c))
  }

  /**
   * `current[segment] = current[segment] || []` (or `|| {}`) at a segment
   * that is not the last: a missing or falsy slot is replaced by the
   * container the next segment calls for, a truthy primitive slot makes the
   * next write throw, and a slot holding a container is reused.
   */
  lemma PlaceSlot(node: Value, segs: seq<Segment>, v: Value)
    requires |segs| > 1 && Storable(node, PropName(segs[0]))
    ensures var slot := Member(node, PropName(segs[0]));
      var r := Place(node, segs, v);
      (!Truthy(slot) && r.Ok? ==> SameKind(Member(r.value, PropName(segs[0])), EmptyFor(segs[1]))) &&
      (Truthy(slot) && IsPrimitive(slot) ==> r == Err(TypeError)) &&
      ((slot.Obj? || slot.Arr?) && r.Ok? ==> SameKind(Member(r.value, PropName(segs[0])), slot))
  {
  }

  /** Placing a sequence of (segments, value) pairs in order; an empty path assigns nothing. */
  function PlaceAll(acc: Result<Value, PlaceError>, ps: seq<(seq<Segment>, Value)>): Result<Value, PlaceError> {
    if ps == [] then acc
    else
      var last := ps[|ps| - 1];
      match PlaceAll(acc, ps[..|ps| - 1])
      case Err(e) => Err(e)
      case Ok(t) => if last.0 == [] then Ok(t) else Place(t, last.0, last.1)
  }

  lemma {:induction false} PlaceAllAppend(acc: Result<Value, PlaceError>, a: seq<(seq<Segment>, Value)>, b: seq<(seq<Segment>, Value)>)
    ensures PlaceAll(acc, a + b) == PlaceAll(PlaceAll(acc, a), b)
    decreases |b|
  {
    if b == [] {
      assert a + b == a;
    } else {
      var b' := b[..|b| - 1];
      assert (a + b)[..|a + b| - 1] == a + b';
      assert (a + b)[|a + b| - 1] == b[|b| - 1];
      PlaceAllAppend(acc, a, b');
      assert PlaceAll(acc, a + b') == PlaceAll(PlaceAll(acc, a), b');
    }
  }

  /** Once a write has thrown, nothing later changes the outcome. */
  lemma {:induction false} PlaceAllErr(e: PlaceError, ps: seq<(seq<Segment>, Value)>)
    ensures PlaceAll(Err(e), ps) == Err(e)
    decreases |ps|
  {
    if ps != [] {
      PlaceAllErr(e, ps[..|ps| - 1]);
    }
  }

  /** Every path split, with its value. */
  function SplitAll(dot: FlatMap, sep: char): seq<(seq<Segment>, Value)> {
    seq(|dot|, i requires 0 <= i < |dot| => (Split(dot[i].0, sep), dot[i].1))
  }

  /** What dotToJson returns, or the error it throws. */
  function UnflattenSpec(dot: FlatMap, sep: char): Result<Value, PlaceError> {
    PlaceAll(Ok(Obj([])), SplitAll(dot, sep))
  }

  lemma SplitAllAppend(a: FlatMap, b: FlatMap, sep: char)
    ensures SplitAll(a + b, sep) == SplitAll(a, sep) + SplitAll(b, sep)
  {
    var l, r := SplitAll(a + b, sep), SplitAll(a, sep) + SplitAll(b, sep);
    assert |l| == |r|;
    forall i | 0 <= i < |l| ensures l[i] == r[i] {
      if i < |a| {
        assert (a + b)[i] == a[i];
      } else {
        assert (a + b)[i] == b[i - |a|];
      }
    }
  }

  /** dotToJson (src/conversion.ts:48-74): the root is always an object. */
  method DotToJson(dot: FlatMap, sep: char) returns (r: Result<Value, PlaceError>)
    ensures r == UnflattenSpec(dot, sep)
    ensures r.Ok? ==> r.value.Obj?
    ensures (forall i :: 0 <= i < |dot| ==> Split(dot[i].0, sep) == []) ==> r == Ok(Obj([]))
  {
    var result := Obj([]);
    for i := 0 to |dot|
      invariant PlaceAll(Ok(Obj([])), SplitAll(dot[..i], sep)) == Ok(result) && result.Obj?
      invariant (forall j :: 0 <= j < |dot| ==> Split(dot[j].0, sep) == []) ==> result == Obj([])
    {
      var segments := SplitPath(dot[i].0, sep);
      PlaceNext(dot, sep, i);
      if segments != [] {
        var placed := Place(result, segments, dot[i].1);
        if placed.Err? {
          ErrorStays(dot, sep, i + 1, placed.error);
          return Err(placed.error);
        }
        result := placed.value;
      }
    }
    assert dot[..|dot|] == dot;
    r := Ok(result);
  }

  /** Placing one more pair of the flat map continues from where the prefix left off. */
  lemma PlaceNext(dot: FlatMap, sep: char, i: nat)
    requires i < |dot|
    ensures PlaceAll(Ok(Obj([])), SplitAll(dot[..i + 1], sep)) ==
      match PlaceAll(Ok(Obj([])), SplitAll(dot[..i], sep))
      case Err(e) => Err(e)
      case Ok(t) => if Split(dot[i].0, sep) == [] then Ok(t) else Place(t, Split(dot[i].0, sep), dot[i].1)
  {
    var step := SplitAll(dot[..i + 1], sep);
    assert dot[..i + 1] == dot[..i] + [dot[i]];
    SplitAllAppend(dot[..i], [dot[i]], sep);
    assert step[..|step| - 1] == SplitAll(dot[..i], sep);
  }

  /** An error thrown while placing a prefix is what dotToJson throws. */
  lemma ErrorStays(dot: FlatMap, sep: char, i: nat, e: PlaceError)
    requires i <= |dot| && PlaceAll(Ok(Obj([])), SplitAll(dot[..i], sep)) == Err(e)
    ensures UnflattenSpec(dot, sep) == Err(e)
  {
    assert dot[..i] + dot[i..] == dot;
    SplitAllAppend(dot[..i], dot[i..], sep);
    PlaceAllAppend(Ok(Obj([])), SplitAll(dot[..i], sep), SplitAll(dot[i..], sep));
    PlaceAllErr(e, SplitAll(dot[i..], sep));
  }

  /** unflatten (src/conversion.ts:93-95): dotToJson with the given separator. */
  method UnflattenWith(dot: FlatMap, sep: char) returns (r: Result<Value, PlaceError>)
    ensures r == UnflattenSpec(dot, sep)
    ensures r.Ok? ==> r.value.Obj?
  {
    r := DotToJson(dot, sep);
  }

  /** splitPath of `a` and of `a.k` for a one-letter key k. */
  lemma SplitKeyPath(k: char)
    requires k != '.' && k != '[' && k != ']'
    ensures Split("a", '.') == [Key("a")]
    ensures Split(['a', '.', k], '.') == [Key("a"), Key([k])]
  {
    var s := ['a', '.', k];
    assert s[..2] == "a." && "a."[..1] == "a" && "a"[..0] == "";
    assert Run(Start, "a", '.') == Scan([], "a", false);
    assert Run(Start, "a.", '.') == Scan([Key("a")], "", false);
    assert Run(Start, s, '.') == Scan([Key("a")], [k], false);
  }

  /** dotToJson of two pairs: the first is placed into `{}`, then the second into the result. */
  lemma PlaceTwo(dot: FlatMap, s0: seq<Segment>, s1: seq<Segment>)
    requires |dot| == 2 && s0 != [] && s1 != []
    requires Split(dot[0].0, '.') == s0 && Split(dot[1].0, '.') == s1
    ensures Place(Obj([]), s0, dot[0].1).Err? ==> UnflattenSpec(dot, '.') == Place(Obj([]), s0, dot[0].1)
    ensures Place(Obj([]), s0, dot[0].1).Ok? ==>
      UnflattenSpec(dot, '.') == Place(Place(Obj([]), s0, dot[0].1).value, s1, dot[1].1)
  {
    var q := SplitAll(dot, '.');
    assert q[0] == (s0, dot[0].1) && q[1] == (s1, dot[1].1);
    var q0 := q[..1];
    assert q0[..0] == [] && q0[0] == (s0, dot[0].1) && q0 == q[..|q| - 1];
    assert PlaceAll(Ok(Obj([])), q0) == Place(Obj([]), s0, dot[0].1);
  }

  /** One step of Place through a slot, once the rest of the path has been placed. */
  lemma PlaceStepOk(node: Value, segs: seq<Segment>, v: Value, child: Value, c: Value)
    requires |segs| > 1 && !IsPrimitive(node) && Storable(node, PropName(segs[0]))
    requires child == if Truthy(Member(node, PropName(segs[0]))) then Member(node, PropName(segs[0])) else EmptyFor(segs[1])
    requires Place(child, segs[1..], v) == Ok(c)
    ensures Place(node, segs, v) == Ok(Store(node, PropName(segs[0]), c))
  {
  }

  /** The last step of Place stores the value. */
  lemma PlaceLast(node: Value, k: string, v: Value)
    requires node.Obj?
    ensures Place(node, [Key(k)], v) == Ok(Obj(Put(node.fields, k, v)))
  {
  }

  /** Assigning the one property of a one-property object replaces its value. */
  lemma PutOnly(k: string, x: Value, c: Value)
    ensures Put([(k, x)], k, c) == [(k, c)]
  {
    assert [(k, x)][1..] == [];
  }

  /** `{a: 1, "a.b": 2}` throws: the truthy 1 is kept, and a property cannot be set on it. */
  lemma TruthyPrimitiveThrows()
    ensures UnflattenSpec([("a", Num(1)), ("a.b", Num(2))], '.') == Err(TypeError)
  {
    SplitKeyPath('b');
    PlaceTwo([("a", Num(1)), ("a.b", Num(2))], [Key("a")], [Key("a"), Key("b")]);
    PlaceLast(Obj([]), "a", Num(1));
    PlaceIntoPrimitive("a", "b", Num(1), Num(2));
  }

  /** Placing `k.j` into `{k: x}` for a truthy primitive x throws. */
  lemma PlaceIntoPrimitive(k: string, j: string, x: Value, v: Value)
    requires Truthy(x) && IsPrimitive(x)
    ensures Place(Obj([(k, x)]), [Key(k), Key(j)], v) == Err(TypeError)
  {
    assert Member(Obj([(k, x)]), k) == x;
    assert [Key(k), Key(j)][1..] == [Key(j)];
  }

  /** `{a: 0, "a.b": 2}` gives `{a: {b: 2}}`: the falsy 0 is replaced by `{}`. */
  lemma FalsySlotReplaced()
    ensures UnflattenSpec([("a", Num(0)), ("a.b", Num(2))], '.') == Ok(Obj([("a", Obj([("b", Num(2))]))]))
  {
    SplitKeyPath('b');
    PlaceTwo([("a", Num(0)), ("a.b", Num(2))], [Key("a")], [Key("a"), Key("b")]);
    PlaceLast(Obj([]), "a", Num(0));
    PlaceIntoFalsy("a", "b", Num(0), Num(2));
  }

  /** Placing `k.j` into `{k: x}` for a falsy x replaces x by `{j: v}`. */
  lemma PlaceIntoFalsy(k: string, j: string, x: Value, v: Value)
    requires !Truthy(x)
    ensures Place(Obj([(k, x)]), [Key(k), Key(j)], v) == Ok(Obj([(k, Obj([(j, v)]))]))
  {
    var t := Obj([(k, x)]);
    assert Member(t, k) == x;
    assert [Key(k), Key(j)][1..] == [Key(j)];
    PlaceLast(Obj([]), j, v);
    PlaceStepOk(t, [Key(k), Key(j)], v, Obj([]), Obj([(j, v)]));
    PutOnly(k, x, Obj([(j, v)]));
  }

  /**
   * `{"a.j": x, "a.i": y}` gives `{a: {j: x, i: y}}` for distinct one-letter
   * keys: the object made for the first path is reused by the second.
   */
  lemma ContainerSlotReused(j: char, i: char, x: Value, y: Value)
    requires j != i && j !in ".[]" && i !in ".[]"
    ensures UnflattenSpec([(['a', '.', j], x), (['a', '.', i], y)], '.') ==
      Ok(Obj([("a", Obj([([j], x), ([i], y)]))]))
  {
    var dot: FlatMap := [(['a', '.', j], x), (['a', '.', i], y)];
    SplitKeyPath(j);
    SplitKeyPath(i);
    PlaceNewKeys("a", [j], x);
    PlaceIntoSibling(j, i, x, y);
    PlaceTwo(dot, [Key("a"), Key([j])], [Key("a"), Key([i])]);
  }

  /** Placing `a.i` into `{a: {j: x}}` adds i after j. */
  lemma PlaceIntoSibling(j: char, i: char, x: Value, y: Value)
    requires j != i
    ensures Place(Obj([("a", Obj([([j], x)]))]), [Key("a"), Key([i])], y) ==
      Ok(Obj([("a", Obj([([j], x), ([i], y)]))]))
  {
    var o := Obj([([j], x)]);
    assert Keys(o.fields) == [[j]];
    PlaceIntoChild("a", [i], o, y);
    assert o.fields + [([i], y)] == [([j], x), ([i], y)];
  }

  /** Two keys placed into `{}` build two nested one-property objects. */
  lemma PlaceNewKeys(k: string, j: string, v: Value)
    ensures Place(Obj([]), [Key(k), Key(j)], v) == Ok(Obj([(k, Obj([(j, v)]))]))
  {
    assert Member(Obj([]), k) == Undef;
    assert [Key(k), Key(j)][1..] == [Key(j)];
    PlaceLast(Obj([]), j, v);
    PlaceStepOk(Obj([]), [Key(k), Key(j)], v, Obj([]), Obj([(j, v)]));
  }

  /** Placing `k.j` into `{k: o}` for an object o without j appends j to o. */
  lemma PlaceIntoChild(k: string, j: string, o: Value, v: Value)
    requires o.Obj? && j !in Keys(o.fields)
    ensures Place(Obj([(k, o)]), [Key(k), Key(j)], v) == Ok(Obj([(k, Obj(o.fields + [(j, v)]))]))
  {
    var t := Obj([(k, o)]);
    var c := Obj(o.fields + [(j, v)]);
    assert Member(t, k) == o;
    assert [Key(k), Key(j)][1..] == [Key(j)];
    PlaceLast(o, j, v);
    PlaceStepOk(t, [Key(k), Key(j)], v, o, c);
    PutOnly(k, o, c);
  }
}

=== FILE: decimal.dfy ===
/**
 * Decimal rendering and parsing of integers: JavaScript's `${n}` for
 * integers, `parseInt(s, 10)`, and the canonical array-index test that
 * decides whether a property name addresses an array element.
 */
module Decimal {
  import opened Wrappers

  predicate IsDigit(c: char) {
    '0' <= c <= '9'
  }

  predicate AllDigits(s: string) {
    forall i :: 0 <= i < |s| ==> IsDigit(s[i])
  }

  function DigitChar(d: nat): (c: char)
    requires d < 10
    ensures IsDigit(c)
  {
    (48 + d) as char
  }

  function DigitOf(c: char): (d: nat)
    requires IsDigit(c)
    ensures d < 10
  {
    c as int - 48
  }

  /** The decimal digits of a natural number, without leading zeros. */
  function NatToString(n: nat): (s: string)
    ensures |s| > 0 && AllDigits(s)
    decreases n
  {
    if n < 10 then [DigitChar(n)] else NatToString(n / 10) + [DigitChar(n % 10)]
  }

  /** `${i}` for an integer. */
  function IntToString(i: int): string {
    if i < 0 then "-" + NatToString(-i) else NatToString(i)
  }

  /** The number a run of decimal digits denotes. */
  function DigitsValue(s: string): nat
    requires AllDigits(s)
  {
    if s == [] then 0 else DigitsValue(s[..|s| - 1]) * 10 + DigitOf(s[|s| - 1])
  }

  predicate NoLeadingZero(s: string) {
    |s| > 0 && (s[0] == '0' ==> |s| == 1)
  }

  /** Rendering a natural number and reading it back gives the number. */
  lemma {:induction false} NatToStringValue(n: nat)
    ensures DigitsValue(NatToString(n)) == n
    ensures NoLeadingZero(NatToString(n))
    decreases n
  {
    if n >= 10 {
      NatToStringValue(n / 10);
      var s := NatToString(n);
      assert s[..|s| - 1] == NatToString(n / 10);
      assert s[0] == NatToString(n / 10)[0];
    }
  }

  /** A digit run without leading zeros is the rendering of its value. */
  lemma {:induction false} DigitsRender(s: string)
    requires AllDigits(s) && NoLeadingZero(s)
    ensures NatToString(DigitsValue(s)) == s
    decreases |s|
  {
    var n := DigitsValue(s);
    if |s| == 1 {
      assert s == [s[0]];
      assert DigitsValue(s[..0]) == 0;
      assert DigitChar(DigitOf(s[0])) == s[0];
    } else {
      var p := s[..|s| - 1];
      assert p[0] == s[0];
      assert s[0] != '0';
      DigitsPositive(p);
      DigitsRender(p);
      assert n / 10 == DigitsValue(p) && n % 10 == DigitOf(s[|s| - 1]);
      assert s == p + [s[|s| - 1]];
    }
  }

  lemma {:induction false} DigitsPositive(s: string)
    requires AllDigits(s) && |s| > 0 && s[0] != '0'
    ensures DigitsValue(s) >= 1
    decreases |s|
  {
    if |s| > 1 {
      DigitsPositive(s[..|s| - 1]);
    }
  }

  /**
   * A property name that addresses an array element: the decimal rendering
   * of a natural number.
   */
  predicate IsCanonicalIndex(name: string) {
    AllDigits(name) && NoLeadingZero(name)
  }

  function CanonicalValue(name: string): nat
    requires IsCanonicalIndex(name)
  {
    DigitsValue(name)
  }

  /** The rendering of a natural number is a canonical index naming that number. */
  lemma CanonicalNatToString(n: nat)
    ensures IsCanonicalIndex(NatToString(n))
    ensures CanonicalValue(NatToString(n)) == n
  {
    NatToStringValue(n);
  }

  /** The rendering of a negative integer is never a canonical index. */
  lemma NegativeNotCanonical(i: int)
    requires i < 0
    ensures !IsCanonicalIndex(IntToString(i))
  {
    assert !IsDigit(IntToString(i)[0]);
  }

  // ---------------------------------------------------------------------
  // parseInt(s, 10)
  // ---------------------------------------------------------------------

  /** The characters parseInt skips before the number (white space and line terminators). */
  predicate IsJsSpace(c: char) {
    var x := c as int;
    x == 0x09 || x == 0x0A || x == 0x0B || x == 0x0C || x == 0x0D || x == 0x20 ||
    x == 0xA0 || x == 0x1680 || (0x2000 <= x <= 0x200A) || x == 0x2028 ||
    x == 0x2029 || x == 0x202F || x == 0x205F || x == 0x3000 || x == 0xFEFF
  }

  function TrimStart(s: string): (t: string)
    ensures |t| <= |s| && t == s[|s| - |t|..]
    ensures t != [] ==> !IsJsSpace(t[0])
  {
    if s != [] && IsJsSpace(s[0]) then TrimStart(s[1..]) else s
  }

  /** The longest prefix of s made of decimal digits. */
  function LeadingDigits(s: string): (d: string)
    ensures AllDigits(d) && d <= s
    ensures |d| < |s| ==> !IsDigit(s[|d|])
  {
    if s != [] && IsDigit(s[0]) then [s[0]] + LeadingDigits(s[1..]) else []
  }

  /**
   * parseInt(s, 10): leading white space, an optional sign, then the longest
   * run of decimal digits; None stands for NaN (no digit after the sign).
   */
  function ParseInt(s: string): (r: Option<int>)
    ensures r.None? <==>
      var t := TrimStart(s);
      var u := if t != [] && (t[0] == '+' || t[0] == '-') then t[1..] else t;
      u == [] || !IsDigit(u[0])
  {
    var t := TrimStart(s);
    var negative := t != [] && t[0] == '-';
    var u := if t != [] && (t[0] == '+' || t[0] == '-') then t[1..] else t;
    var z := LeadingDigits(u);
    if z == [] then None
    else
      var magnitude: int := DigitsValue(z);
      Some(if negative then -magnitude else magnitude)
  }

  /** Nothing is trimmed from text that does not start with white space. */
  lemma TrimNone(s: string)
    requires s == [] || !IsJsSpace(s[0])
    ensures TrimStart(s) == s
  {
  }

  /** A non-empty digit run parses to the number it denotes. */
  lemma {:induction false} ParseDigits(s: string)
    requires |s| > 0 && AllDigits(s)
    ensures ParseInt(s) == Some(DigitsValue(s))
  {
    assert !IsJsSpace(s[0]);
    TrimNone(s);
    LeadingAllDigits(s);
  }

  /** A minus sign before a non-empty digit run negates its value. */
  lemma {:induction false} ParseNegative(d: string)
    requires |d| > 0 && AllDigits(d)
    ensures ParseInt("-" + d) == Some(-(DigitsValue(d) as int))
  {
    var s := "-" + d;
    assert TrimStart(s) == s by {
      assert s[0] == '-';
      TrimNone(s);
    }
    assert LeadingDigits(s[1..]) == d by {
      assert s[1..] == d;
      LeadingAllDigits(d);
    }
  }

  /** Text that starts with a letter other than a sign is NaN to parseInt. */
  lemma ParseLetter(s: string)
    requires s != [] && !IsJsSpace(s[0]) && !IsDigit(s[0]) && s[0] != '+' && s[0] != '-'
    ensures ParseInt(s) == None
  {
    TrimNone(s);
  }

  lemma {:induction false} LeadingAllDigits(s: string)
    requires AllDigits(s)
    ensures LeadingDigits(s) == s
  {
    if s != [] {
      LeadingAllDigits(s[1..]);
    }
  }

  /** Rendering a natural number and parsing it back gives the number. */
  lemma ParseNatToString(n: nat)
    ensures ParseInt(NatToString(n)) == Some(n)
  {
    NatToStringValue(n);
    ParseDigits(NatToString(n));
  }
}

=== FILE: heap.dfy ===
/**
 * JavaScript's objects and arrays as a memory of nodes, for the operations
 * that update containers in place or build new ones: set
 * (src/operations.ts:43-95) and deepClone (src/utils.ts:96-123). A value
 * held in a property is a primitive or the address of a node, so two
 * properties may share one node, and a write through one is seen through
 * the other.
 */
module Heap {
  import opened Wrappers
  import opened Decimal
  import opened Values
  import opened PathCodec
  import Get

  /** The address of an object or array in memory. */
  type Addr = nat

  /** A property's content: a primitive, or a reference to a container. */
  datatype Slot = Prim(p: Primitive) | Ref(addr: Addr)

  /** What `!x` is false for. */
  predicate SlotTruthy(s: Slot) {
    s.Ref? || Truthy(s.p)
  }

  /**
   * An array (its elements and its named properties) or a plain object (its
   * own properties, in enumeration order).
   */
  datatype Node = Node(isArray: bool, elems: seq<Slot>, props: seq<(string, Slot)>)

  /** `{}` */
  const EmptyObject: Node := Node(false, [], [])

  /** `[]` */
  const EmptyArray: Node := Node(true, [], [])

  /** Whether `x[name]` addresses an array element. */
  predicate IsElement(n: Node, name: string) {
    n.isArray && IsCanonicalIndex(name)
  }

  /**
   * `x[name]`: an element (undefined past the end), an array's length, or
   * an own property (undefined when absent).
   */
  function Read(n: Node, name: string): (r: Slot)
    ensures IsElement(n, name) && CanonicalValue(name) < |n.elems| ==> r == n.elems[CanonicalValue(name)]
    ensures IsElement(n, name) && CanonicalValue(name) >= |n.elems| ==> r == Prim(Undef)
    ensures n.isArray && name == "length" ==> r == Prim(Num(|n.elems|))
    ensures !IsElement(n, name) && !(n.isArray && name == "length") ==>
      (Lookup(n.props, name).Some? ==> r == Lookup(n.props, name).value) &&
      (Lookup(n.props, name).None? ==> r == Prim(Undef))
  {
    if IsElement(n, name) then
      (if CanonicalValue(name) < |n.elems| then n.elems[CanonicalValue(name)] else Prim(Undef))
    else if n.isArray && name == "length" then Prim(Num(|n.elems|))
    else match Lookup(n.props, name) case Some(s) => s case None => Prim(Undef)
  }

  /** An element list after `a[i] = s`; the holes a write past the end leaves read as undefined. */
  function StoreAt(items: seq<Slot>, i: nat, s: Slot): (r: seq<Slot>)
    ensures |r| == if i < |items| then |items| else i + 1
    ensures r[i] == s
    ensures forall j :: 0 <= j < |items| && j != i ==> r[j] == items[j]
    ensures forall j :: |items| <= j < i ==> r[j] == Prim(Undef)
  {
    if i < |items| then items[i := s] else items + seq(i - |items|, _ => Prim(Undef)) + [s]
  }

  /**
   * `x[name] = s`: an element store for a canonical index on an array,
   * otherwise a property assignment (the model treats an array's `length`
   * as a plain property name here).
   */
  function Write(n: Node, name: string, s: Slot): (r: Node)
    ensures r.isArray == n.isArray
    ensures IsElement(n, name) ==> r.elems == StoreAt(n.elems, CanonicalValue(name), s) && r.props == n.props
    ensures !IsElement(n, name) ==> r.props == Put(n.props, name, s) && r.elems == n.elems
    ensures !(n.isArray && name == "length") ==> Read(r, name) == s
  {
    if IsElement(n, name) then n.(elems := StoreAt(n.elems, CanonicalValue(name), s))
    else n.(props := Put(n.props, name, s))
  }

  /** Two canonical index names for the same number are the same name. */
  lemma CanonicalInjective(a: string, b: string)
    requires IsCanonicalIndex(a) && IsCanonicalIndex(b) && CanonicalValue(a) == CanonicalValue(b)
    ensures a == b
  {
    DigitsRender(a);
    DigitsRender(b);
  }

  /** A write leaves every other name reading as before (an array's length aside). */
  lemma ReadOverWrite(n: Node, name: string, s: Slot, other: string)
    requires other != name && !(n.isArray && other == "length")
    ensures Read(Write(n, name, s), other) == Read(n, other)
  {
    if IsElement(n, name) && IsElement(n, other) {
      if CanonicalValue(other) == CanonicalValue(name) {
        CanonicalInjective(other, name);
      }
    } else if !IsElement(n, name) && !IsElement(n, other) {
      LookupPutOther(n.props, name, s, other);
    }
  }

  /** The memory: the node at each address. Allocation appends. */
  class Memory {
    var nodes: seq<Node>

    constructor (init: seq<Node>)
      ensures nodes == init
    {
      nodes := init;
    }

    /** A new container, at the next free address. */
    method Alloc(n: Node) returns (a: Addr)
      modifies this
      ensures a == |old(nodes)| && nodes == old(nodes) + [n]
    {
      a := |nodes|;
      nodes := nodes + [n];
    }

    /** `x[name] = s` for the container at address a. */
    method Store(a: Addr, name: string, s: Slot)
      requires a < |nodes|
      modifies this
      ensures nodes == old(nodes)[a := Write(old(nodes)[a], name, s)]
    {
      nodes := nodes[a := Write(nodes[a], name, s)];
    }
  }

  // ---------------------------------------------------------------------
  // References stay inside memory.
  // ---------------------------------------------------------------------

  predicate SlotIn(s: Slot, bound: nat) {
    s.Ref? ==> s.addr < bound
  }

  predicate PropsIn(ps: seq<(string, Slot)>, bound: nat) {
    forall j :: 0 <= j < |ps| ==> SlotIn(ps[j].1, bound)
  }

  predicate ElemsIn(es: seq<Slot>, bound: nat) {
    forall j :: 0 <= j < |es| ==> SlotIn(es[j], bound)
  }

  /** Every reference n holds is below bound. */
  predicate NodeIn(n: Node, bound: nat) {
    ElemsIn(n.elems, bound) && PropsIn(n.props, bound)
  }

  /** Memory without dangling references. */
  predicate Closed(nodes: seq<Node>) {
    forall a :: 0 <= a < |nodes| ==> NodeIn(nodes[a], |nodes|)
  }

  lemma {:induction false} PutIn(ps: seq<(string, Slot)>, k: string, s: Slot, bound: nat)
    requires PropsIn(ps, bound) && SlotIn(s, bound)
    ensures PropsIn(Put(ps, k, s), bound)
    decreases |ps|
  {
    if ps != [] && ps[0].0 != k {
      PutIn(ps[1..], k, s, bound);
      assert Put(ps, k, s) == [ps[0]] + Put(ps[1..], k, s);
    }
  }

  /** A read from a node returns one of its references. */
  lemma ReadIn(n: Node, name: string, bound: nat)
    requires NodeIn(n, bound)
    ensures SlotIn(Read(n, name), bound)
  {
    if !IsElement(n, name) && !(n.isArray && name == "length") {
      var r := Lookup(n.props, name);
      if r.Some? {
        var i :| 0 <= i < |n.props| && n.props[i] == (name, r.value);
      }
    }
  }

  /** A write of an in-bounds slot keeps a node's references in bounds. */
  lemma WriteIn(n: Node, name: string, s: Slot, bound: nat)
    requires NodeIn(n, bound) && SlotIn(s, bound)
    ensures NodeIn(Write(n, name, s), bound)
  {
    PutIn(n.props, name, s, bound);
  }

  lemma NodeInGrow(n: Node, bound: nat, bound': nat)
    requires NodeIn(n, bound) && bound <= bound'
    ensures NodeIn(n, bound')
  {
  }

  /** Storing an in-bounds slot keeps memory closed. */
  lemma StoreClosed(nodes: seq<Node>, a: Addr, name: string, s: Slot)
    requires Closed(nodes) && a < |nodes| && SlotIn(s, |nodes|)
    ensures Closed(nodes[a := Write(nodes[a], name, s)])
  {
    WriteIn(nodes[a], name, s, |nodes|);
  }

  /** Allocating a node whose references are in bounds keeps memory closed. */
  lemma AllocClosed(nodes: seq<Node>, n: Node)
    requires Closed(nodes) && NodeIn(n, |nodes| + 1)
    ensures Closed(nodes + [n])
  {
    forall a | 0 <= a < |nodes| + 1 ensures NodeIn((nodes + [n])[a], |nodes| + 1) {
      if a < |nodes| {
        NodeInGrow(nodes[a], |nodes|, |nodes| + 1);
      }
    }
  }

  // ---------------------------------------------------------------------
  // Reading through memory.
  // ---------------------------------------------------------------------

  /** The own enumerable properties `{...x}` copies, in order. */
  function Spread(nodes: seq<Node>, x: Slot): (r: seq<(string, Slot)>)
    requires SlotIn(x, |nodes|)
    ensures x.Ref? && !nodes[x.addr].isArray ==> r == nodes[x.addr].props
    ensures x.Prim? && !x.p.Str? ==> r == []
  {
    match x
    case Prim(p) =>
      if p.Str? then seq(|p.s|, i requires 0 <= i < |p.s| => (NatToString(i), Prim(Str([p.s[i]]))))
      else []
    case Ref(a) =>
      var n := nodes[a];
      if n.isArray then seq(|n.elems|, i requires 0 <= i < |n.elems| => (NatToString(i), n.elems[i])) + n.props
      else n.props
  }

  /** The references `{...x}` copies are references x holds. */
  lemma SpreadIn(nodes: seq<Node>, x: Slot)
    requires Closed(nodes) && SlotIn(x, |nodes|)
    ensures PropsIn(Spread(nodes, x), |nodes|)
  {
    if x.Ref? && nodes[x.addr].isArray {
      var n := nodes[x.addr];
      var a := seq(|n.elems|, i requires 0 <= i < |n.elems| => (NatToString(i), n.elems[i]));
      assert Spread(nodes, x) == a + n.props;
    }
  }

  /**
   * get (src/operations.ts:10-33) over memory: undefined once a primitive
   * is met, or an index meets a non-array.
   */
  function HeapGet(nodes: seq<Node>, s: Slot, segs: seq<Segment>): Slot
    decreases |segs|
  {
    if segs == [] then s
    else if s.Prim? || s.addr >= |nodes| then Prim(Undef)
    else if segs[0].Key? || nodes[s.addr].isArray then HeapGet(nodes, Read(nodes[s.addr], PropName(segs[0])), segs[1..])
    else Prim(Undef)
  }

  // ---------------------------------------------------------------------
  // Memory that holds a tree, and get over it.
  // ---------------------------------------------------------------------

  /**
   * s holds v: a primitive in place, an array as an array node with no
   * named properties and its elements in order, a plain object as an object
   * node with the same names in the same order.
   */
  predicate Encodes(nodes: seq<Node>, s: Slot, v: Value)
    decreases v
  {
    match v
    case Arr(items) =>
      s.Ref? && s.addr < |nodes| && nodes[s.addr].isArray && nodes[s.addr].props == [] &&
      |nodes[s.addr].elems| == |items| &&
      forall i :: 0 <= i < |items| ==> Encodes(nodes, nodes[s.addr].elems[i], items[i])
    case Obj(fields) =>
      s.Ref? && s.addr < |nodes| && !nodes[s.addr].isArray && |nodes[s.addr].props| == |fields| &&
      forall i :: 0 <= i < |fields| ==>
        nodes[s.addr].props[i].0 == fields[i].0 && Encodes(nodes, nodes[s.addr].props[i].1, fields[i].1)
    case _ => s.Prim? && s.p == v
  }

  /** Properties in memory that hold the fields of a value, pair by pair. */
  predicate PropsEncode(nodes: seq<Node>, props: seq<(string, Slot)>, fields: seq<(string, Value)>) {
    |props| == |fields| &&
    forall i :: 0 <= i < |fields| ==> props[i].0 == fields[i].0 && Encodes(nodes, props[i].1, fields[i].1)
  }

  /** A name found among such properties is found among the fields, holding the same value. */
  lemma {:induction false} LookupEncodes(nodes: seq<Node>, props: seq<(string, Slot)>, fields: seq<(string, Value)>, name: string)
    requires PropsEncode(nodes, props, fields)
    ensures Lookup(props, name).None? <==> Lookup(fields, name).None?
    ensures Lookup(props, name).Some? ==> Encodes(nodes, Lookup(props, name).value, Lookup(fields, name).value)
  {
    if props != [] {
      assert props[0].0 == fields[0].0 && Encodes(nodes, props[0].1, fields[0].1);
      if props[0].0 != name {
        assert PropsEncode(nodes, props[1..], fields[1..]) by {
          forall i | 0 <= i < |fields| - 1
            ensures props[1..][i].0 == fields[1..][i].0 && Encodes(nodes, props[1..][i].1, fields[1..][i].1)
          {
            assert props[1..][i] == props[i + 1] && fields[1..][i] == fields[i + 1];
          }
        }
        LookupEncodes(nodes, props[1..], fields[1..], name);
      }
    }
  }

  /** Reading a property of a container that holds v gives what holds v's member. */
  lemma ReadEncodes(nodes: seq<Node>, s: Slot, v: Value, name: string)
    requires Encodes(nodes, s, v) && s.Ref?
    ensures Encodes(nodes, Read(nodes[s.addr], name), Member(v, name))
  {
    var n := nodes[s.addr];
    if v.Obj? {
      assert PropsEncode(nodes, n.props, v.fields);
      LookupEncodes(nodes, n.props, v.fields, name);
    } else if v.Arr? && IsCanonicalIndex(name) && CanonicalValue(name) < |v.items| {
      assert Encodes(nodes, n.elems[CanonicalValue(name)], v.items[CanonicalValue(name)]);
    }
  }

  /**
   * get over memory agrees with get over the tree the memory holds: the
   * slot reached holds the value reached.
   */
  lemma {:induction false} HeapGetWalk(nodes: seq<Node>, s: Slot, v: Value, segs: seq<Segment>)
    requires Encodes(nodes, s, v)
    ensures Encodes(nodes, HeapGet(nodes, s, segs), Get.Walk(v, segs))
    decreases |segs|
  {
    if segs != [] && s.Ref? && (segs[0].Key? || nodes[s.addr].isArray) {
      var name := PropName(segs[0]);
      ReadEncodes(nodes, s, v, name);
      HeapGetWalk(nodes, Read(nodes[s.addr], name), Member(v, name), segs[1..]);
    }
  }
}

=== FILE: operations_get.dfy ===
/** The read accessor of src/operations.ts. */
module Get {
  import opened Values
  import opened PathCodec

  /**
   * The value `get` reaches from v along segs: undefined as soon as the
   * current value is null or undefined, a numeric segment meets a
   * non-array, or a key meets a non-object; otherwise one property per step.
   */
  function Walk(v: Value, segs: seq<Segment>): (r: Value)
    ensures segs == [] ==> r == v
    ensures segs != [] && IsPrimitive(v) ==> r == Undef
    ensures |segs| == 1 && segs[0].Key? && v.Obj? && segs[0].name in Keys(v.fields) ==> r == Lookup(v.fields, segs[0].name).value
    ensures |segs| == 1 && segs[0].Key? && v.Obj? && segs[0].name !in Keys(v.fields) ==> r == Undef
    decreases |segs|
  {
    if segs == [] then v
    else if v.Null? || v.Undef? then Undef
    else if !segs[0].Key? && !v.Arr? then Undef
    else if segs[0].Key? && !v.Arr? && !v.Obj? then Undef
    else Walk(Member(v, PropName(segs[0])), segs[1..])
  }

  /** get (src/operations.ts:10-33). */
  method Get(obj: Value, path: string, sep: char) returns (r: Value)
    ensures r == Walk(obj, Split(path, sep))
    ensures Split(path, sep) == [] ==> r == obj
  {
    var segments := SplitPath(path, sep);
    var current := obj;
    for i := 0 to |segments|
      invariant Walk(obj, segments) == Walk(current, segments[i..])
    {
      if current.Null? || current.Undef? {
        return Undef;
      }
      var segment := segments[i];
      if !segment.Key? {
        if !current.Arr? {
          return Undef;
        }
        current := Member(current, PropName(segment));
      } else {
        if !current.Arr? && !current.Obj? {
          return Undef;
        }
        current := Member(current, PropName(segment));
      }
      assert segments[i..][1..] == segments[i + 1..];
    }
    r := current;
  }

  /** Once a walk has fallen off the tree it stays undefined. */
  lemma {:induction false} WalkUndef(segs: seq<Segment>)
    ensures Walk(Undef, segs) == Undef
  {
  }

  /** Walking a concatenated path is walking its halves in turn. */
  lemma {:induction false} WalkAppend(v: Value, a: seq<Segment>, b: seq<Segment>)
    ensures Walk(v, a + b) == Walk(Walk(v, a), b)
    decreases |a|
  {
    if a == [] {
      assert a + b == b;
    } else {
      assert (a + b)[0] == a[0] && (a + b)[1..] == a[1..] + b;
      if v.Null? || v.Undef? || (!a[0].Key? && !v.Arr?) || (a[0].Key? && !v.Arr? && !v.Obj?) {
        WalkUndef(b);
      } else {
        WalkAppend(Member(v, PropName(a[0])), a[1..], b);
      }
    }
  }
}

=== FILE: operations_set.dfy ===
/**
 * set (src/operations.ts:43-95). The root is copied with `{...obj}`; the
 * walk then goes through the containers the copy shares with obj, creating
 * `[]` or `{}` for absent or falsy slots, and writes the value at the last
 * segment.
 */
module Update {
  import opened Decimal
  import opened Values
  import opened PathCodec
  import opened Heap

  /** The container set creates for a segment: `[]` for a number, `{}` otherwise. */
  function EmptyFor(seg: Segment): Node {
    if seg.Key? then EmptyObject else EmptyArray
  }

  /** Whether set walks into the current value as it is, rather than replacing it. */
  predicate Reusable(nodes: seq<Node>, current: Slot, seg: Segment) {
    current.Ref? && (seg.Key? || (current.addr < |nodes| && nodes[current.addr].isArray))
  }

  /**
   * The container a segment is applied to, and the memory after choosing it:
   * the current value when it is an object (for a name) or an array (for a
   * number), otherwise a new `{}` or `[]` that nothing refers to.
   */
  function Pick(nodes: seq<Node>, current: Slot, seg: Segment): (r: (seq<Node>, Addr))
    requires Closed(nodes) && SlotIn(current, |nodes|)
    ensures Closed(r.0) && r.1 < |r.0| && |nodes| <= |r.0| && r.0[..|nodes|] == nodes
    ensures Reusable(nodes, current, seg) ==> r.1 == current.addr && r.0 == nodes
    ensures !Reusable(nodes, current, seg) ==> r.1 == |nodes| && r.0[r.1] == EmptyFor(seg)
  {
    if Reusable(nodes, current, seg) then (nodes, current.addr)
    else
      AllocClosed(nodes, EmptyFor(seg));
      (nodes + [EmptyFor(seg)], |nodes|)
  }

  /** `node[name] = next is a number ? [] : {}`, the new container at the next free address. */
  function Fill(nodes: seq<Node>, a: Addr, name: string, next: Segment): (r: seq<Node>)
    requires Closed(nodes) && a < |nodes|
    ensures Closed(r) && |r| == |nodes| + 1 && r[|nodes|] == EmptyFor(next)
    ensures r == (nodes + [EmptyFor(next)])[a := Write(nodes[a], name, Ref(|nodes|))]
    ensures forall b :: 0 <= b < |nodes| && b != a ==> r[b] == nodes[b]
  {
    AllocClosed(nodes, EmptyFor(next));
    StoreClosed(nodes + [EmptyFor(next)], a, name, Ref(|nodes|));
    (nodes + [EmptyFor(next)])[a := Write(nodes[a], name, Ref(|nodes|))]
  }

  /**
   * A segment other than the last: the container chosen for it, its slot
   * filled with the container for the next segment when falsy, and the
   * value the walk moves into.
   */
  function Enter(nodes: seq<Node>, current: Slot, seg: Segment, next: Segment): (r: (seq<Node>, Slot))
    requires Closed(nodes) && SlotIn(current, |nodes|)
    ensures Closed(r.0) && SlotIn(r.1, |r.0|) && |nodes| <= |r.0|
    ensures forall a :: 0 <= a < |nodes| ==> r.0[a].isArray == nodes[a].isArray
    ensures forall a :: 0 <= a < |nodes| && !nodes[a].isArray ==> r.0[a].elems == nodes[a].elems
  {
    var (nodes1, a) := Pick(nodes, current, seg);
    var name := PropName(seg);
    var nodes2 := if SlotTruthy(Read(nodes1[a], name)) then nodes1 else Fill(nodes1, a, name, next);
    ReadIn(nodes2[a], name, |nodes2|);
    (nodes2, Read(nodes2[a], name))
  }

  /** The last segment: the value stored into the container chosen for it. */
  function Finish(nodes: seq<Node>, current: Slot, seg: Segment, value: Slot): (r: seq<Node>)
    requires Closed(nodes) && SlotIn(current, |nodes|) && SlotIn(value, |nodes|)
    ensures Closed(r) && |nodes| <= |r|
    ensures forall a :: 0 <= a < |nodes| ==> r[a].isArray == nodes[a].isArray
    ensures forall a :: 0 <= a < |nodes| && !nodes[a].isArray ==> r[a].elems == nodes[a].elems
  {
    var (nodes1, a) := Pick(nodes, current, seg);
    StoreClosed(nodes1, a, PropName(seg), value);
    nodes1[a := Write(nodes1[a], PropName(seg), value)]
  }

  /**
   * The memory after set's loop runs segs from the current value: on every
   * segment but the last, a falsy slot of the chosen container is filled
   * with the container for the next segment, and the walk moves into the
   * slot; on the last, the value is stored.
   */
  function Run(nodes: seq<Node>, current: Slot, segs: seq<Segment>, value: Slot): (r: seq<Node>)
    requires Closed(nodes) && SlotIn(current, |nodes|) && SlotIn(value, |nodes|)
    ensures Closed(r) && |nodes| <= |r|
    ensures forall a :: 0 <= a < |nodes| ==> r[a].isArray == nodes[a].isArray
    ensures forall a :: 0 <= a < |nodes| && !nodes[a].isArray ==> r[a].elems == nodes[a].elems
    decreases |segs|
  {
    if segs == [] then nodes
    else if |segs| == 1 then Finish(nodes, current, segs[0], value)
    else
      var (nodes', current') := Enter(nodes, current, segs[0], segs[1]);
      Run(nodes', current', segs[1..], value)
  }

  /** The copy `{...obj}` that set starts from, placed at the next free address. */
  function Start(nodes: seq<Node>, obj: Slot): (r: seq<Node>)
    requires Closed(nodes) && SlotIn(obj, |nodes|)
    ensures Closed(r) && r == nodes + [Node(false, [], Spread(nodes, obj))]
  {
    SpreadIn(nodes, obj);
    NodeInGrow(Node(false, [], Spread(nodes, obj)), |nodes|, |nodes| + 1);
    AllocClosed(nodes, Node(false, [], Spread(nodes, obj)));
    nodes + [Node(false, [], Spread(nodes, obj))]
  }

  /** The memory after `set(obj, path, value, sep)`; the result is at address |nodes|. */
  function SetResult(nodes: seq<Node>, obj: Slot, segs: seq<Segment>, value: Slot): seq<Node>
    requires Closed(nodes) && SlotIn(obj, |nodes|) && SlotIn(value, |nodes|)
  {
    Run(Start(nodes, obj), Ref(|nodes|), segs, value)
  }

  /** `current = [] / {}` when the current value cannot take the segment. */
  method Container(mem: Memory, current: Slot, segment: Segment) returns (node: Addr)
    requires Closed(mem.nodes) && SlotIn(current, |mem.nodes|)
    modifies mem
    ensures (mem.nodes, node) == Pick(old(mem.nodes), current, segment)
  {
    if segment.Key? {
      if current.Ref? {
        node := current.addr;
      } else {
        node := mem.Alloc(EmptyObject);
      }
    } else {
      if current.Ref? && mem.nodes[current.addr].isArray {
        node := current.addr;
      } else {
        node := mem.Alloc(EmptyArray);
      }
    }
  }

  /** `node[name] = next is a number ? [] : {}` */
  method FillSlot(mem: Memory, node: Addr, name: string, next: Segment)
    requires Closed(mem.nodes) && node < |mem.nodes|
    modifies mem
    ensures mem.nodes == Fill(old(mem.nodes), node, name, next)
  {
    var child := mem.Alloc(if next.Key? then EmptyObject else EmptyArray);
    mem.Store(node, name, Ref(child));
  }

  /** set (src/operations.ts:43-95). */
  method Set(mem: Memory, obj: Slot, path: string, value: Slot, sep: char) returns (result: Addr)
    requires Closed(mem.nodes) && SlotIn(obj, |mem.nodes|) && SlotIn(value, |mem.nodes|)
    modifies mem
    ensures result == |old(mem.nodes)|
    ensures mem.nodes == SetResult(old(mem.nodes), obj, Split(path, sep), value)
  {
    var segments := SplitPath(path, sep);
    ghost var final := SetResult(mem.nodes, obj, segments, value);
    ghost var start := Start(mem.nodes, obj);
    result := mem.Alloc(Node(false, [], Spread(mem.nodes, obj)));
    var current := Ref(result);
    for i := 0 to |segments|
      invariant Closed(mem.nodes) && SlotIn(current, |mem.nodes|) && SlotIn(value, |mem.nodes|)
      invariant Run(mem.nodes, current, segments[i..], value) == final
    {
      var segment := segments[i];
      var name := PropName(segment);
      assert segments[i..][0] == segment && segments[i..][1..] == segments[i + 1..];
      var node := Container(mem, current, segment);
      if i == |segments| - 1 {
        StoreClosed(mem.nodes, node, name, value);
        mem.Store(node, name, value);
      } else {
        if !SlotTruthy(Read(mem.nodes[node], name)) {
          FillSlot(mem, node, name, segments[i + 1]);
        }
        ReadIn(mem.nodes[node], name, |mem.nodes|);
        current := Read(mem.nodes[node], name);
      }
    }
  }

  // ---------------------------------------------------------------------
  // What a run touches.
  // ---------------------------------------------------------------------

  /** A number segment never names an array's length. */
  lemma NotLength(seg: Segment)
    ensures !seg.Key? ==> PropName(seg) != "length"
  {
    if seg.Index? && seg.index < 0 {
      assert PropName(seg)[0] == '-';
    } else if seg.Index? {
      assert IsDigit(PropName(seg)[0]);
    }
  }

  /** The container chosen for seg is new, or an empty one of the right kind at or above bound. */
  predicate FreshFrom(nodes: seq<Node>, current: Slot, seg: Segment, bound: nat) {
    !Reusable(nodes, current, seg) || (bound <= current.addr < |nodes| && nodes[current.addr] == EmptyFor(seg))
  }

  /** Entering a fresh container fills its slot with a new one and moves into it. */
  lemma EnterFresh(nodes: seq<Node>, current: Slot, seg: Segment, next: Segment, bound: nat)
    requires Closed(nodes) && SlotIn(current, |nodes|) && bound <= |nodes| && FreshFrom(nodes, current, seg, bound)
    ensures var (nodes', current') := Enter(nodes, current, seg, next);
      nodes'[..bound] == nodes[..bound] && current'.Ref? && bound <= current'.addr && FreshFrom(nodes', current', next, bound)
  {
    PickFresh(nodes, current, seg, bound);
    var (nodes1, a) := Pick(nodes, current, seg);
    FillFresh(nodes1, a, seg, next, bound);
  }

  /** The container picked for a fresh step is an empty one at or above bound. */
  lemma PickFresh(nodes: seq<Node>, current: Slot, seg: Segment, bound: nat)
    requires Closed(nodes) && SlotIn(current, |nodes|) && bound <= |nodes| && FreshFrom(nodes, current, seg, bound)
    ensures var (nodes1, a) := Pick(nodes, current, seg);
      bound <= a && nodes1[a] == EmptyFor(seg) && |nodes| <= |nodes1| && nodes1[..bound] == nodes[..bound]
  {
    var (nodes1, a) := Pick(nodes, current, seg);
    assert nodes1[..bound] == nodes1[..|nodes|][..bound];
  }

  /** An empty container's slot is falsy, so the step fills it with a new container and moves there. */
  lemma FillFresh(nodes: seq<Node>, a: Addr, seg: Segment, next: Segment, bound: nat)
    requires Closed(nodes) && bound <= a < |nodes| && nodes[a] == EmptyFor(seg)
    ensures !SlotTruthy(Read(nodes[a], PropName(seg)))
    ensures var nodes2 := Fill(nodes, a, PropName(seg), next);
      Read(nodes2[a], PropName(seg)) == Ref(|nodes|) && nodes2[..bound] == nodes[..bound] &&
      |nodes| < |nodes2| && nodes2[|nodes|] == EmptyFor(next)
  {
    var name := PropName(seg);
    NotLength(seg);
    var nodes2 := Fill(nodes, a, name, next);
    assert Read(nodes2[a], name) == Ref(|nodes|);
    KeepBelow(nodes, a, Write(nodes[a], name, Ref(|nodes|)), EmptyFor(next), bound);
  }

  /**
   * A run whose first container is new, or an empty container of the right
   * kind at or above bound, writes only at or above bound: it works on new
   * containers that nothing below bound refers to.
   */
  lemma {:induction false} RunAbove(nodes: seq<Node>, current: Slot, segs: seq<Segment>, value: Slot, bound: nat)
    requires Closed(nodes) && SlotIn(current, |nodes|) && SlotIn(value, |nodes|) && |segs| >= 1 && bound <= |nodes|
    requires FreshFrom(nodes, current, segs[0], bound)
    ensures Run(nodes, current, segs, value)[..bound] == nodes[..bound]
    decreases |segs|
  {
    if |segs| == 1 {
      var (nodes1, a) := Pick(nodes, current, segs[0]);
      assert nodes1[..bound] == nodes[..bound];
    } else {
      EnterFresh(nodes, current, segs[0], segs[1], bound);
      var (nodes', current') := Enter(nodes, current, segs[0], segs[1]);
      RunAbove(nodes', current', segs[1..], value, bound);
    }
  }

  lemma KeepBelow(nodes: seq<Node>, a: Addr, n: Node, e: Node, bound: nat)
    requires bound <= a < |nodes|
    ensures (nodes + [e])[a := n][..bound] == nodes[..bound]
  {
  }

  /** s is not a reference to address r. */
  predicate SlotAvoids(s: Slot, r: Addr) {
    s != Ref(r)
  }

  predicate PropsAvoid(ps: seq<(string, Slot)>, r: Addr) {
    forall j :: 0 <= j < |ps| ==> SlotAvoids(ps[j].1, r)
  }

  predicate ElemsAvoid(es: seq<Slot>, r: Addr) {
    forall j :: 0 <= j < |es| ==> SlotAvoids(es[j], r)
  }

  predicate NodeAvoids(n: Node, r: Addr) {
    ElemsAvoid(n.elems, r) && PropsAvoid(n.props, r)
  }

  /** Nothing in memory refers to the container at r. */
  predicate NoRefTo(nodes: seq<Node>, r: Addr) {
    forall a :: 0 <= a < |nodes| ==> NodeAvoids(nodes[a], r)
  }

  lemma {:induction false} PutAvoids(ps: seq<(string, Slot)>, k: string, s: Slot, r: Addr)
    requires PropsAvoid(ps, r) && SlotAvoids(s, r)
    ensures PropsAvoid(Put(ps, k, s), r)
    decreases |ps|
  {
    if ps != [] && ps[0].0 != k {
      PutAvoids(ps[1..], k, s, r);
      assert Put(ps, k, s) == [ps[0]] + Put(ps[1..], k, s);
    }
  }

  lemma StoreAtAvoids(es: seq<Slot>, i: nat, s: Slot, r: Addr)
    requires ElemsAvoid(es, r) && SlotAvoids(s, r)
    ensures ElemsAvoid(StoreAt(es, i, s), r)
  {
    var es' := StoreAt(es, i, s);
    forall j | 0 <= j < |es'| ensures SlotAvoids(es'[j], r) {
      if j < |es| && j != i {
        assert es'[j] == es[j];
      }
    }
  }

  lemma WriteAvoids(n: Node, name: string, s: Slot, r: Addr)
    requires NodeAvoids(n, r) && SlotAvoids(s, r)
    ensures NodeAvoids(Write(n, name, s), r)
  {
    if IsElement(n, name) {
      StoreAtAvoids(n.elems, CanonicalValue(name), s, r);
    } else {
      PutAvoids(n.props, name, s, r);
    }
  }

  lemma ReadAvoids(n: Node, name: string, r: Addr)
    requires NodeAvoids(n, r)
    ensures SlotAvoids(Read(n, name), r)
  {
    if !IsElement(n, name) && !(n.isArray && name == "length") {
      var v := Lookup(n.props, name);
      if v.Some? {
        var i :| 0 <= i < |n.props| && n.props[i] == (name, v.value);
      }
    }
  }

  /** References below r are not references to r. */
  lemma BelowAvoids(nodes: seq<Node>, r: Addr)
    requires Closed(nodes) && r == |nodes|
    ensures NoRefTo(nodes, r)
  {
    forall a | 0 <= a < |nodes| ensures NodeAvoids(nodes[a], r) {
      assert NodeIn(nodes[a], |nodes|);
    }
  }

  /** Filling a slot with a new container adds no reference to an older one. */
  lemma FillAvoids(nodes: seq<Node>, a: Addr, name: string, next: Segment, r: Addr)
    requires Closed(nodes) && a < |nodes| && r < |nodes| && NoRefTo(nodes, r)
    ensures NoRefTo(Fill(nodes, a, name, next), r)
  {
    var nodes' := Fill(nodes, a, name, next);
    forall b | 0 <= b < |nodes'| ensures NodeAvoids(nodes'[b], r) {
      if b == a {
        WriteAvoids(nodes[a], name, Ref(|nodes|), r);
      }
    }
  }

  /** Entering from a value other than r, with nothing referring to r, leaves r alone. */
  lemma EnterAvoids(nodes: seq<Node>, current: Slot, seg: Segment, next: Segment, r: Addr)
    requires Closed(nodes) && SlotIn(current, |nodes|) && r < |nodes| && NoRefTo(nodes, r) && current != Ref(r)
    ensures var (nodes', current') := Enter(nodes, current, seg, next);
      nodes'[r] == nodes[r] && NoRefTo(nodes', r) && current' != Ref(r)
  {
    var (nodes1, a) := Pick(nodes, current, seg);
    var name := PropName(seg);
    assert a != r && NoRefTo(nodes1, r);
    var nodes2 := if SlotTruthy(Read(nodes1[a], name)) then nodes1 else Fill(nodes1, a, name, next);
    if nodes2 != nodes1 {
      FillAvoids(nodes1, a, name, next, r);
    }
    ReadAvoids(nodes2[a], name, r);
  }

  /**
   * A run that starts away from the container at r, stores a value other
   * than r, and in a memory where nothing refers to r, leaves r as it was.
   */
  lemma {:induction false} Untouched(nodes: seq<Node>, current: Slot, segs: seq<Segment>, value: Slot, r: Addr)
    requires Closed(nodes) && SlotIn(current, |nodes|) && SlotIn(value, |nodes|) && r < |nodes|
    requires NoRefTo(nodes, r) && current != Ref(r)
    ensures Run(nodes, current, segs, value)[r] == nodes[r]
    decreases |segs|
  {
    if |segs| == 1 {
      var (nodes1, a) := Pick(nodes, current, segs[0]);
      assert a != r;
    } else if |segs| > 1 {
      EnterAvoids(nodes, current, segs[0], segs[1], r);
      var (nodes', current') := Enter(nodes, current, segs[0], segs[1]);
      Untouched(nodes', current', segs[1..], value, r);
    }
  }

  // ---------------------------------------------------------------------
  // get after set, along a path of names.
  // ---------------------------------------------------------------------

  predicate AllKeys(segs: seq<Segment>) {
    forall i :: 0 <= i < |segs| ==> segs[i].Key?
  }

  /**
   * Every value met along the path, except the last, is absent or falsy or
   * a plain object.
   */
  predicate ObjectPath(nodes: seq<Node>, s: Slot, segs: seq<Segment>)
    decreases |segs|
  {
    segs == [] || !SlotTruthy(s) ||
    (s.Ref? && s.addr < |nodes| && !nodes[s.addr].isArray &&
     ObjectPath(nodes, Read(nodes[s.addr], PropName(segs[0])), segs[1..]))
  }

  /** s refers only to containers of rank below k. */
  predicate SlotBelow(s: Slot, rank: seq<nat>, k: nat) {
    s.Ref? ==> s.addr < |rank| && rank[s.addr] < k
  }

  predicate NodeBelow(n: Node, rank: seq<nat>, k: nat) {
    (forall j :: 0 <= j < |n.elems| ==> SlotBelow(n.elems[j], rank, k)) &&
    (forall j :: 0 <= j < |n.props| ==> SlotBelow(n.props[j].1, rank, k))
  }

  /** Every container refers only to containers of lower rank: memory holds no cycle. */
  predicate Acyclic(nodes: seq<Node>, rank: seq<nat>) {
    |rank| == |nodes| && forall a :: 0 <= a < |nodes| ==> NodeBelow(nodes[a], rank, rank[a])
  }

  lemma ReadBelow(n: Node, name: string, rank: seq<nat>, k: nat)
    requires NodeBelow(n, rank, k)
    ensures SlotBelow(Read(n, name), rank, k)
  {
    if !IsElement(n, name) && !(n.isArray && name == "length") {
      var v := Lookup(n.props, name);
      if v.Some? {
        var i :| 0 <= i < |n.props| && n.props[i] == (name, v.value);
      }
    }
  }

  /** A name segment on a plain object reuses it, filling a falsy slot with the next container. */
  lemma EnterObject(nodes: seq<Node>, x: Addr, k: string, next: Segment)
    requires Closed(nodes) && x < |nodes| && !nodes[x].isArray
    ensures var (nodes', current') := Enter(nodes, Ref(x), Key(k), next);
      var c := Read(nodes[x], k);
      (SlotTruthy(c) ==> nodes' == nodes && current' == c) &&
      (!SlotTruthy(c) ==> nodes' == Fill(nodes, x, k, next) && current' == Ref(|nodes|))
  {
    if !SlotTruthy(Read(nodes[x], k)) {
      assert Read(Fill(nodes, x, k, next)[x], k) == Ref(|nodes|);
    }
  }

  /** get through a plain object at x reads the first name and goes on from there. */
  lemma GetThrough(nodes: seq<Node>, x: Addr, segs: seq<Segment>)
    requires x < |nodes| && |segs| >= 1 && segs[0].Key?
    ensures HeapGet(nodes, Ref(x), segs) == HeapGet(nodes, Read(nodes[x], segs[0].name), segs[1..])
  {
  }

  /** Storing the last name into a plain object. */
  lemma FinishObject(nodes: seq<Node>, x: Addr, k: string, value: Slot)
    requires Closed(nodes) && SlotIn(value, |nodes|) && x < |nodes| && !nodes[x].isArray
    ensures Finish(nodes, Ref(x), Key(k), value) == nodes[x := Write(nodes[x], k, value)]
    ensures Read(Finish(nodes, Ref(x), Key(k), value)[x], k) == value
  {
  }

  /**
   * Setting a path of names from a plain object whose first slot is to be
   * filled (or is the last) makes get find the value, and changes no
   * container of the memory but that object.
   */
  lemma {:induction false} FillGet(nodes: seq<Node>, x: Addr, segs: seq<Segment>, value: Slot)
    requires Closed(nodes) && SlotIn(value, |nodes|) && x < |nodes| && !nodes[x].isArray
    requires |segs| >= 1 && AllKeys(segs) && (|segs| == 1 || !SlotTruthy(Read(nodes[x], segs[0].name)))
    ensures HeapGet(Run(nodes, Ref(x), segs, value), Ref(x), segs) == value
    ensures forall a :: 0 <= a < |nodes| && a != x ==> Run(nodes, Ref(x), segs, value)[a] == nodes[a]
    decreases |segs|
  {
    var k := segs[0].name;
    assert segs[0] == Key(k);
    var final := Run(nodes, Ref(x), segs, value);
    if |segs| == 1 {
      FinishObject(nodes, x, k, value);
    } else {
      EnterObject(nodes, x, k, segs[1]);
      var nodes' := Fill(nodes, x, k, segs[1]);
      assert final == Run(nodes', Ref(|nodes|), segs[1..], value);
      assert nodes'[|nodes|] == EmptyObject && Read(nodes'[x], k) == Ref(|nodes|);
      assert segs[1..][0] == segs[1];
      FillGet(nodes', |nodes|, segs[1..], value);
    }
    GetThrough(final, x, segs);
  }

  /**
   * Setting a path of names through plain objects in acyclic memory makes
   * get find the value, and changes no container ranked at or above the
   * start other than the start itself.
   */
  lemma {:induction false} KeyRun(nodes: seq<Node>, rank: seq<nat>, x: Addr, segs: seq<Segment>, value: Slot)
    requires Closed(nodes) && SlotIn(value, |nodes|) && Acyclic(nodes, rank) && x < |nodes|
    requires |segs| >= 1 && AllKeys(segs) && ObjectPath(nodes, Ref(x), segs)
    ensures HeapGet(Run(nodes, Ref(x), segs, value), Ref(x), segs) == value
    ensures forall a :: 0 <= a < |nodes| && a != x && rank[a] >= rank[x] ==> Run(nodes, Ref(x), segs, value)[a] == nodes[a]
    decreases |segs|
  {
    var k := segs[0].name;
    assert segs[0] == Key(k);
    var c := Read(nodes[x], k);
    if |segs| == 1 || !SlotTruthy(c) {
      FillGet(nodes, x, segs, value);
    } else {
      var final := Run(nodes, Ref(x), segs, value);
      EnterObject(nodes, x, k, segs[1]);
      assert final == Run(nodes, c, segs[1..], value);
      assert c.Ref? && c.addr < |nodes|;
      ReadBelow(nodes[x], k, rank, rank[x]);
      KeyRun(nodes, rank, c.addr, segs[1..], value);
      GetThrough(final, x, segs);
    }
  }

  // ---------------------------------------------------------------------
  // What set does to the copy and to the containers it shares.
  // ---------------------------------------------------------------------

  /** `{...obj}[k]`: the slot the copy holds under k, undefined when absent. */
  function SpreadSlot(props: seq<(string, Slot)>, k: string): Slot {
    match Lookup(props, k)
    case Some(s) => s
    case None => Prim(Undef)
  }

  /** The memory set starts from refers to nothing at or above its copy's address. */
  lemma StartAvoids(nodes: seq<Node>, obj: Slot)
    requires Closed(nodes) && SlotIn(obj, |nodes|)
    ensures NoRefTo(Start(nodes, obj), |nodes|)
    ensures NodeIn(Start(nodes, obj)[|nodes|], |nodes|)
  {
    var m := Start(nodes, obj);
    SpreadIn(nodes, obj);
    forall a | 0 <= a < |m| ensures NodeAvoids(m[a], |nodes|) {
      assert NodeIn(m[a], |nodes|);
    }
  }

  /**
   * An empty path, or one whose first segment is a number: the copy cannot
   * take a number, so a new array that nothing refers to takes the write,
   * and neither obj's memory nor the copy changes.
   */
  lemma SetIndexFirst(nodes: seq<Node>, obj: Slot, segs: seq<Segment>, value: Slot)
    requires Closed(nodes) && SlotIn(obj, |nodes|) && SlotIn(value, |nodes|)
    requires segs == [] || !segs[0].Key?
    ensures SetResult(nodes, obj, segs, value)[..|nodes| + 1] == Start(nodes, obj)
  {
    if segs != [] {
      RunAbove(Start(nodes, obj), Ref(|nodes|), segs, value, |nodes| + 1);
    }
  }

  /** A single name: the copy gets `{...obj, [k]: value}` and obj's memory is untouched. */
  lemma SetOneKey(nodes: seq<Node>, obj: Slot, k: string, value: Slot)
    requires Closed(nodes) && SlotIn(obj, |nodes|) && SlotIn(value, |nodes|)
    ensures var final := SetResult(nodes, obj, [Key(k)], value);
      |final| == |nodes| + 1 && final[..|nodes|] == nodes &&
      final[|nodes|] == Node(false, [], Put(Spread(nodes, obj), k, value))
  {
    var m := Start(nodes, obj);
    FinishObject(m, |nodes|, k, value);
    assert m[..|nodes|] == nodes;
  }

  /**
   * A longer path whose first name holds a truthy value in the copy: the
   * copy itself is left as `{...obj}`, and the walk goes on in the value it
   * shares with obj.
   */
  lemma SetKeepsCopy(nodes: seq<Node>, obj: Slot, segs: seq<Segment>, value: Slot)
    requires Closed(nodes) && SlotIn(obj, |nodes|) && SlotIn(value, |nodes|)
    requires |segs| >= 2 && segs[0].Key? && SlotTruthy(SpreadSlot(Spread(nodes, obj), segs[0].name))
    ensures SetResult(nodes, obj, segs, value)[|nodes|] == Node(false, [], Spread(nodes, obj))
  {
    var m := Start(nodes, obj);
    var k := segs[0].name;
    assert segs[0] == Key(k);
    EnterObject(m, |nodes|, k, segs[1]);
    StartAvoids(nodes, obj);
    ReadIn(m[|nodes|], k, |nodes|);
    var c := Read(m[|nodes|], k);
    assert SetResult(nodes, obj, segs, value) == Run(m, c, segs[1..], value);
    Untouched(m, c, segs[1..], value, |nodes|);
  }

  /**
   * A longer path whose first name is absent or falsy in the copy: the copy
   * gets `{...obj, [k]: c}` for a new container c, an array exactly when the
   * second segment is a number.
   */
  lemma SetFillsCopy(nodes: seq<Node>, obj: Slot, segs: seq<Segment>, value: Slot)
    requires Closed(nodes) && SlotIn(obj, |nodes|) && SlotIn(value, |nodes|)
    requires |segs| >= 2 && segs[0].Key? && !SlotTruthy(SpreadSlot(Spread(nodes, obj), segs[0].name))
    ensures var final := SetResult(nodes, obj, segs, value);
      |nodes| + 1 < |final| &&
      final[|nodes|] == Node(false, [], Put(Spread(nodes, obj), segs[0].name, Ref(|nodes| + 1))) &&
      final[|nodes| + 1].isArray == !segs[1].Key?
  {
    var m := Start(nodes, obj);
    var k := segs[0].name;
    assert segs[0] == Key(k);
    EnterObject(m, |nodes|, k, segs[1]);
    StartAvoids(nodes, obj);
    var m' := Fill(m, |nodes|, k, segs[1]);
    assert SetResult(nodes, obj, segs, value) == Run(m', Ref(|nodes| + 1), segs[1..], value);
    FillAvoids(m, |nodes|, k, segs[1], |nodes|);
    Untouched(m', Ref(|nodes| + 1), segs[1..], value, |nodes|);
  }

  /**
   * A longer path whose first name holds a truthy value that cannot take
   * the second segment (a primitive, or an object met by a number): the
   * write goes to a new container that nothing refers to, so neither obj's
   * memory nor the copy changes, and get finds nothing at the path.
   */
  lemma SetLosesWrite(nodes: seq<Node>, obj: Slot, segs: seq<Segment>, value: Slot)
    requires Closed(nodes) && SlotIn(obj, |nodes|) && SlotIn(value, |nodes|) && |segs| >= 2 && segs[0].Key?
    requires var c := SpreadSlot(Spread(nodes, obj), segs[0].name); SlotTruthy(c) && !Reusable(nodes, c, segs[1])
    ensures var final := SetResult(nodes, obj, segs, value);
      final[..|nodes| + 1] == Start(nodes, obj) && HeapGet(final, Ref(|nodes|), segs) == Prim(Undef)
  {
    var m := Start(nodes, obj);
    var k := segs[0].name;
    assert segs[0] == Key(k);
    EnterObject(m, |nodes|, k, segs[1]);
    StartAvoids(nodes, obj);
    ReadIn(m[|nodes|], k, |nodes|);
    var c := Read(m[|nodes|], k);
    var final := SetResult(nodes, obj, segs, value);
    assert final == Run(m, c, segs[1..], value);
    assert !Reusable(m, c, segs[1]);
    RunAbove(m, c, segs[1..], value, |m|);
    assert final[|nodes|] == m[|nodes|] && (c.Ref? ==> final[c.addr] == m[c.addr]);
    GetThrough(final, |nodes|, segs);
  }

  /**
   * A two-name path whose first name holds a plain object shared with obj:
   * that object, not a copy of it, gets the write, and the copy still
   * refers to it.
   */
  lemma SetMutatesShared(nodes: seq<Node>, obj: Slot, k: string, k': string, value: Slot)
    requires Closed(nodes) && SlotIn(obj, |nodes|) && SlotIn(value, |nodes|)
    requires var c := SpreadSlot(Spread(nodes, obj), k); c.Ref? && c.addr < |nodes| && !nodes[c.addr].isArray
    ensures var final := SetResult(nodes, obj, [Key(k), Key(k')], value);
      var a := SpreadSlot(Spread(nodes, obj), k).addr;
      |final| == |nodes| + 1 &&
      final[a] == nodes[a].(props := Put(nodes[a].props, k', value)) &&
      final[|nodes|] == Node(false, [], Spread(nodes, obj)) &&
      forall b :: 0 <= b < |nodes| && b != a ==> final[b] == nodes[b]
  {
    var m := Start(nodes, obj);
    var segs := [Key(k), Key(k')];
    EnterObject(m, |nodes|, k, segs[1]);
    var c := Read(m[|nodes|], k);
    assert SetResult(nodes, obj, segs, value) == Run(m, c, segs[1..], value);
    assert segs[1..] == [Key(k')];
    FinishObject(m, c.addr, k', value);
  }

  // ---------------------------------------------------------------------
  // set leaves its input alone, in memory without cycles.
  // ---------------------------------------------------------------------

  /**
   * The containers a walk from below rank k can reach: those allocated at
   * or after n, and the older ones ranked below k.
   */
  predicate InScope(a: Addr, n: nat, rank: seq<nat>, k: nat) {
    n <= a || (a < |rank| && rank[a] < k)
  }

  predicate SlotInScope(s: Slot, n: nat, rank: seq<nat>, k: nat) {
    s.Ref? ==> InScope(s.addr, n, rank, k)
  }

  predicate PropsInScope(ps: seq<(string, Slot)>, n: nat, rank: seq<nat>, k: nat) {
    forall j :: 0 <= j < |ps| ==> SlotInScope(ps[j].1, n, rank, k)
  }

  predicate ElemsInScope(es: seq<Slot>, n: nat, rank: seq<nat>, k: nat) {
    forall j :: 0 <= j < |es| ==> SlotInScope(es[j], n, rank, k)
  }

  predicate NodeInScope(nd: Node, n: nat, rank: seq<nat>, k: nat) {
    ElemsInScope(nd.elems, n, rank, k) && PropsInScope(nd.props, n, rank, k)
  }

  /** The containers in scope refer only to containers in scope. */
  predicate ScopeClosed(nodes: seq<Node>, n: nat, rank: seq<nat>, k: nat) {
    forall a :: 0 <= a < |nodes| && InScope(a, n, rank, k) ==> NodeInScope(nodes[a], n, rank, k)
  }

  lemma {:induction false} PutInScope(ps: seq<(string, Slot)>, key: string, s: Slot, n: nat, rank: seq<nat>, k: nat)
    requires PropsInScope(ps, n, rank, k) && SlotInScope(s, n, rank, k)
    ensures PropsInScope(Put(ps, key, s), n, rank, k)
    decreases |ps|
  {
    if ps != [] && ps[0].0 != key {
      PutInScope(ps[1..], key, s, n, rank, k);
      assert Put(ps, key, s) == [ps[0]] + Put(ps[1..], key, s);
    }
  }

  lemma WriteInScope(nd: Node, name: string, s: Slot, n: nat, rank: seq<nat>, k: nat)
    requires NodeInScope(nd, n, rank, k) && SlotInScope(s, n, rank, k)
    ensures NodeInScope(Write(nd, name, s), n, rank, k)
  {
    if IsElement(nd, name) {
      var es := StoreAt(nd.elems, CanonicalValue(name), s);
      forall j | 0 <= j < |es| ensures SlotInScope(es[j], n, rank, k) {
        if j < |nd.elems| && j != CanonicalValue(name) {
          assert es[j] == nd.elems[j];
        }
      }
    } else {
      PutInScope(nd.props, name, s, n, rank, k);
    }
  }

  lemma ReadInScope(nd: Node, name: string, n: nat, rank: seq<nat>, k: nat)
    requires NodeInScope(nd, n, rank, k)
    ensures SlotInScope(Read(nd, name), n, rank, k)
  {
    if !IsElement(nd, name) && !(nd.isArray && name == "length") {
      var v := Lookup(nd.props, name);
      if v.Some? {
        var i :| 0 <= i < |nd.props| && nd.props[i] == (name, v.value);
      }
    }
  }

  /** Allocating an empty container keeps the scope closed. */
  lemma AllocInScope(nodes: seq<Node>, e: Node, n: nat, rank: seq<nat>, k: nat)
    requires ScopeClosed(nodes, n, rank, k) && e.elems == [] && e.props == []
    ensures ScopeClosed(nodes + [e], n, rank, k)
  {
    var m := nodes + [e];
    forall a | 0 <= a < |m| && InScope(a, n, rank, k) ensures NodeInScope(m[a], n, rank, k) {
      if a < |nodes| {
        assert m[a] == nodes[a];
      }
    }
  }

  /**
   * One intermediate step from a value in scope, in memory whose scope is
   * closed, writes only in scope and moves to a value in scope.
   */
  lemma EnterInScope(nodes: seq<Node>, current: Slot, seg: Segment, next: Segment, t: Addr, n: nat, rank: seq<nat>, k: nat)
    requires Closed(nodes) && SlotIn(current, |nodes|) && n <= |nodes| && t < |nodes| && !InScope(t, n, rank, k)
    requires ScopeClosed(nodes, n, rank, k) && SlotInScope(current, n, rank, k)
    ensures var (nodes', current') := Enter(nodes, current, seg, next);
      nodes'[t] == nodes[t] && ScopeClosed(nodes', n, rank, k) && SlotInScope(current', n, rank, k)
  {
    var (nodes1, a) := Pick(nodes, current, seg);
    PickInScope(nodes, current, seg, t, n, rank, k);
    var name := PropName(seg);
    if !SlotTruthy(Read(nodes1[a], name)) {
      FillInScope(nodes1, a, name, next, t, n, rank, k);
    }
    var nodes2 := if SlotTruthy(Read(nodes1[a], name)) then nodes1 else Fill(nodes1, a, name, next);
    ReadInScope(nodes2[a], name, n, rank, k);
  }

  /** The container picked from a value in scope is in scope, and so is a new one. */
  lemma PickInScope(nodes: seq<Node>, current: Slot, seg: Segment, t: Addr, n: nat, rank: seq<nat>, k: nat)
    requires Closed(nodes) && SlotIn(current, |nodes|) && n <= |nodes| && t < |nodes| && !InScope(t, n, rank, k)
    requires ScopeClosed(nodes, n, rank, k) && SlotInScope(current, n, rank, k)
    ensures var (nodes1, a) := Pick(nodes, current, seg);
      InScope(a, n, rank, k) && a != t && t < |nodes1| && nodes1[t] == nodes[t] && ScopeClosed(nodes1, n, rank, k)
  {
    var (nodes1, a) := Pick(nodes, current, seg);
    if nodes1 != nodes {
      AllocInScope(nodes, EmptyFor(seg), n, rank, k);
    }
  }

  /** Filling a slot of a container in scope writes only in scope. */
  lemma FillInScope(nodes: seq<Node>, a: Addr, name: string, next: Segment, t: Addr, n: nat, rank: seq<nat>, k: nat)
    requires Closed(nodes) && a < |nodes| && t < |nodes| && a != t && InScope(a, n, rank, k) && n <= |nodes|
    requires ScopeClosed(nodes, n, rank, k)
    ensures Fill(nodes, a, name, next)[t] == nodes[t] && ScopeClosed(Fill(nodes, a, name, next), n, rank, k)
  {
    AllocInScope(nodes, EmptyFor(next), n, rank, k);
    var m := nodes + [EmptyFor(next)];
    WriteInScope(nodes[a], name, Ref(|nodes|), n, rank, k);
    assert Fill(nodes, a, name, next) == m[a := Write(nodes[a], name, Ref(|nodes|))];
  }

  /** A walk from a value in scope writes only in scope. */
  lemma {:induction false} RunInScope(nodes: seq<Node>, current: Slot, segs: seq<Segment>, value: Slot, t: Addr, n: nat, rank: seq<nat>, k: nat)
    requires Closed(nodes) && SlotIn(current, |nodes|) && SlotIn(value, |nodes|)
    requires n <= |nodes| && t < |nodes| && !InScope(t, n, rank, k)
    requires ScopeClosed(nodes, n, rank, k) && SlotInScope(current, n, rank, k)
    ensures Run(nodes, current, segs, value)[t] == nodes[t]
    decreases |segs|
  {
    if |segs| == 1 {
      var (nodes1, a) := Pick(nodes, current, segs[0]);
      assert InScope(a, n, rank, k) && a != t;
    } else if |segs| > 1 {
      EnterInScope(nodes, current, segs[0], segs[1], t, n, rank, k);
      var (nodes', current') := Enter(nodes, current, segs[0], segs[1]);
      RunInScope(nodes', current', segs[1..], value, t, n, rank, k);
    }
  }

  /** In acyclic memory, the scope below obj's rank holds the copy and is closed. */
  lemma StartInScope(nodes: seq<Node>, obj: Slot, rank: seq<nat>)
    requires Closed(nodes) && SlotIn(obj, |nodes|) && obj.Ref? && Acyclic(nodes, rank)
    ensures ScopeClosed(Start(nodes, obj), |nodes|, rank, rank[obj.addr])
  {
    var m := Start(nodes, obj);
    var k := rank[obj.addr];
    var o := nodes[obj.addr];
    assert NodeBelow(o, rank, k);
    var sp := Spread(nodes, obj);
    assert PropsInScope(sp, |nodes|, rank, k) by {
      if o.isArray {
        var es := seq(|o.elems|, i requires 0 <= i < |o.elems| => (NatToString(i), o.elems[i]));
        assert sp == es + o.props;
        forall j | 0 <= j < |sp| ensures SlotInScope(sp[j].1, |nodes|, rank, k) {
          if j < |es| {
            assert sp[j].1 == o.elems[j];
          } else {
            assert sp[j] == o.props[j - |es|];
          }
        }
      }
    }
    forall a | 0 <= a < |m| && InScope(a, |nodes|, rank, k) ensures NodeInScope(m[a], |nodes|, rank, k) {
      if a < |nodes| {
        assert NodeBelow(nodes[a], rank, rank[a]) && m[a] == nodes[a];
      }
    }
  }

  /**
   * set never changes its input container when memory has no cycle, nor
   * any container ranked as high: the walk starts at the copy and only
   * reaches containers ranked below obj, or new ones.
   */
  lemma SetKeepsInput(nodes: seq<Node>, obj: Slot, segs: seq<Segment>, value: Slot, rank: seq<nat>)
    requires Closed(nodes) && SlotIn(obj, |nodes|) && SlotIn(value, |nodes|) && Acyclic(nodes, rank) && obj.Ref?
    ensures SetResult(nodes, obj, segs, value)[obj.addr] == nodes[obj.addr]
    ensures forall a :: 0 <= a < |nodes| && rank[a] >= rank[obj.addr] ==> SetResult(nodes, obj, segs, value)[a] == nodes[a]
  {
    var m := Start(nodes, obj);
    StartInScope(nodes, obj, rank);
    forall a | 0 <= a < |nodes| && rank[a] >= rank[obj.addr] ensures SetResult(nodes, obj, segs, value)[a] == nodes[a] {
      RunInScope(m, Ref(|nodes|), segs, value, a, |nodes|, rank, rank[obj.addr]);
    }
  }

  /**
   * With a cycle, set can change its input: with o = {a: o}, setting a.x
   * walks from the copy back into o and writes x there.
   */
  lemma SetCycleWritesInput()
    ensures var nodes := [Node(false, [], [("a", Ref(0))])];
      Closed(nodes) &&
      SetResult(nodes, Ref(0), [Key("a"), Key("x")], Prim(Num(1)))[0] ==
        Node(false, [], [("a", Ref(0)), ("x", Prim(Num(1)))])
  {
    var nodes := [Node(false, [], [("a", Ref(0))])];
    CycleStart(nodes);
    var m := Start(nodes, Ref(0));
    CycleEnter(m);
    CycleFinish(m);
  }

  /** In the cycle example the copy {...o} is again {a: o}. */
  lemma CycleStart(nodes: seq<Node>)
    requires nodes == [Node(false, [], [("a", Ref(0))])]
    ensures Closed(nodes) && Start(nodes, Ref(0)) == [nodes[0], nodes[0]]
  {
    var m := Start(nodes, Ref(0));
    assert m[1] == Node(false, [], [("a", Ref(0))]);
  }

  /** The first step of the cycle example walks from the copy back to o. */
  lemma CycleEnter(m: seq<Node>)
    requires Closed(m) && m == [Node(false, [], [("a", Ref(0))]), Node(false, [], [("a", Ref(0))])]
    ensures Enter(m, Ref(1), Key("a"), Key("x")) == (m, Ref(0))
    ensures Run(m, Ref(1), [Key("a"), Key("x")], Prim(Num(1))) == Run(m, Ref(0), [Key("x")], Prim(Num(1)))
  {
    EnterObject(m, 1, "a", Key("x"));
    assert Read(m[1], "a") == Ref(0);
    assert [Key("a"), Key("x")][1..] == [Key("x")];
  }

  /** The last step of the cycle example writes x into o itself. */
  lemma CycleFinish(m: seq<Node>)
    requires Closed(m) && m == [Node(false, [], [("a", Ref(0))]), Node(false, [], [("a", Ref(0))])]
    ensures Run(m, Ref(0), [Key("x")], Prim(Num(1)))[0] ==
      Node(false, [], [("a", Ref(0)), ("x", Prim(Num(1)))])
  {
    FinishObject(m, 0, "x", Prim(Num(1)));
    assert !IsElement(m[0], "x");
    assert Keys(m[0].props) == ["a"];
    assert Write(m[0], "x", Prim(Num(1))) == Node(false, [], [("a", Ref(0)), ("x", Prim(Num(1)))]);
  }

  /** Plain-object paths survive allocation. */
  lemma {:induction false} ObjectPathGrow(nodes: seq<Node>, more: seq<Node>, s: Slot, segs: seq<Segment>)
    requires |nodes| <= |more| && more[..|nodes|] == nodes && ObjectPath(nodes, s, segs)
    ensures ObjectPath(more, s, segs)
    decreases |segs|
  {
    if segs != [] && SlotTruthy(s) {
      assert more[s.addr] == nodes[s.addr];
      ObjectPathGrow(nodes, more, Read(nodes[s.addr], PropName(segs[0])), segs[1..]);
    }
  }

  /** The rank the copy `{...obj}` takes: that of a plain object copied, or the lowest. */
  function StartRank(rank: seq<nat>, obj: Slot): (r: seq<nat>)
    requires obj.Ref? ==> obj.addr < |rank|
    ensures |r| == |rank| + 1 && r[..|rank|] == rank
  {
    rank + [if obj.Ref? then rank[obj.addr] else 0]
  }

  /** The copy of a plain object ranks with it; the copy of a falsy primitive is empty. */
  lemma AcyclicStart(nodes: seq<Node>, obj: Slot, rank: seq<nat>)
    requires Closed(nodes) && SlotIn(obj, |nodes|) && Acyclic(nodes, rank)
    requires obj.Ref? ==> !nodes[obj.addr].isArray
    requires obj.Prim? ==> !Truthy(obj.p)
    ensures Acyclic(Start(nodes, obj), StartRank(rank, obj))
  {
    var m := Start(nodes, obj);
    var rank' := StartRank(rank, obj);
    if obj.Prim? {
      assert Spread(nodes, obj) == [];
    }
    forall a | 0 <= a < |m| ensures NodeBelow(m[a], rank', rank'[a]) {
      if a < |nodes| {
        assert NodeBelow(nodes[a], rank, rank[a]);
        forall j | 0 <= j < |m[a].props| ensures SlotBelow(m[a].props[j].1, rank', rank'[a]) {
          assert m[a].props[j] == nodes[a].props[j];
        }
      } else if obj.Ref? {
        assert NodeBelow(nodes[obj.addr], rank, rank'[a]);
        forall j | 0 <= j < |m[a].props| ensures SlotBelow(m[a].props[j].1, rank', rank'[a]) {
          assert m[a].props[j] == nodes[obj.addr].props[j];
        }
      }
    }
  }

  /**
   * get(set(obj, path, value), path) == value, for a path of names whose
   * intermediate values in obj are absent, falsy or plain objects, in
   * memory without cycles; obj itself may be a falsy primitive, whose copy
   * `{...obj}` is `{}`.
   */
  lemma SetThenGet(nodes: seq<Node>, obj: Slot, segs: seq<Segment>, value: Slot, rank: seq<nat>)
    requires Closed(nodes) && SlotIn(obj, |nodes|) && SlotIn(value, |nodes|) && Acyclic(nodes, rank)
    requires |segs| >= 1 && AllKeys(segs) && ObjectPath(nodes, obj, segs)
    ensures HeapGet(SetResult(nodes, obj, segs, value), Ref(|nodes|), segs) == value
  {
    var m := Start(nodes, obj);
    var k := segs[0].name;
    assert segs[0] == Key(k);
    AcyclicStart(nodes, obj, rank);
    if obj.Ref? {
      var c := Read(nodes[obj.addr], k);
      assert Read(m[|nodes|], k) == c;
      ObjectPathGrow(nodes, m, c, segs[1..]);
    } else {
      assert Spread(nodes, obj) == [];
      assert Read(m[|nodes|], k) == Prim(Undef);
    }
    assert ObjectPath(m, Ref(|nodes|), segs);
    KeyRun(m, StartRank(rank, obj), |nodes|, segs, value);
  }

  /**
   * Without the acyclic premise get(set(...)) can miss the value: with
   * obj = {a: o} and o = {b: o}, setting a.b.b overwrites o.b, the link
   * the path goes through.
   */
  lemma SetThenGetCycle()
    ensures var nodes := [Node(false, [], [("a", Ref(1))]), Node(false, [], [("b", Ref(1))])];
      var segs := [Key("a"), Key("b"), Key("b")];
      Closed(nodes) && ObjectPath(nodes, Ref(0), segs) &&
      HeapGet(SetResult(nodes, Ref(0), segs, Prim(Bool(true))), Ref(2), segs) == Prim(Undef)
  {
    var nodes := [Node(false, [], [("a", Ref(1))]), Node(false, [], [("b", Ref(1))])];
    var segs := [Key("a"), Key("b"), Key("b")];
    var m := Start(nodes, Ref(0));
    assert m[2] == Node(false, [], [("a", Ref(1))]);
    EnterObject(m, 2, "a", segs[1]);
    assert Read(m[2], "a") == Ref(1);
    EnterObject(m, 1, "b", segs[2]);
    assert Read(m[1], "b") == Ref(1);
    var final := m[1 := Write(m[1], "b", Prim(Bool(true)))];
    assert SetResult(nodes, Ref(0), segs, Prim(Bool(true))) == final;
    assert final[1].props == [("b", Prim(Bool(true)))];
    assert Read(final[2], "a") == Ref(1);
    assert Read(final[1], "b") == Prim(Bool(true));
  }
}

=== FILE: pathcodec.dfy ===
/**
 * The path codec of src/utils.ts: splitPath, a character scanner with an
 * in-brackets flag, and joinPath, its serialiser.
 */
module PathCodec {
  import opened Wrappers
  import opened Seqs
  import opened Decimal

  /**
   * One step of a path. splitPath pushes a string or the result of
   * parseInt; a parseInt result is an integer or NaN.
   */
  datatype Segment = Key(name: string) | Index(index: int) | NaNIndex

  /** The property name JavaScript uses for `current[segment]`. */
  function PropName(seg: Segment): string {
    match seg
    case Key(k) => k
    case Index(i) => IntToString(i)
    case NaNIndex => NaNText
  }

  /** How NaN prints. */
  const NaNText: string := "NaN"

  /** What the scanner carries between characters. */
  datatype Scan = Scan(segments: seq<Segment>, current: string, inBrackets: bool)

  const Start: Scan := Scan([], "", false)

  /** `parseInt(current, 10)` as a segment. */
  function ParseSegment(text: string): (r: Segment)
    ensures !r.Key?
    ensures r.NaNIndex? <==>
      var t := TrimStart(text);
      var u := if t != [] && (t[0] == '+' || t[0] == '-') then t[1..] else t;
      u == [] || !IsDigit(u[0])
  {
    match ParseInt(text)
    case Some(i) => Index(i)
    case None => NaNIndex
  }

  /** The segments with the pending text pushed as a key, when there is any. */
  function Flushed(st: Scan): seq<Segment> {
    if st.current != "" then st.segments + [Key(st.current)] else st.segments
  }

  /** The body of the scanning loop for one character. */
  function Step(st: Scan, c: char, sep: char): Scan {
    if c == '[' then Scan(Flushed(st), "", true)
    else if c == ']' then
      Scan(if st.current != "" then st.segments + [ParseSegment(st.current)] else st.segments, "", false)
    else if c == sep && !st.inBrackets then Scan(Flushed(st), "", st.inBrackets)
    else Scan(st.segments, st.current + [c], st.inBrackets)
  }

  /** The scanner's state after the characters of s, left to right. */
  function Run(st: Scan, s: string, sep: char): Scan
    decreases |s|
  {
    if s == [] then st else Step(Run(st, s[..|s| - 1], sep), s[|s| - 1], sep)
  }

  /** What splitPath returns: the final state with its pending text flushed. */
  function Split(path: string, sep: char): seq<Segment> {
    Flushed(Run(Start, path, sep))
  }

  /** A key that splitPath can produce: never empty, never a bracket in it. */
  predicate ScannedKey(seg: Segment) {
    seg.Key? ==> seg.name != "" && '[' !in seg.name && ']' !in seg.name
  }

  predicate ScannedKeys(segs: seq<Segment>) {
    forall i :: 0 <= i < |segs| ==> ScannedKey(segs[i])
  }

  /** splitPath (src/utils.ts:9-44), scanning the path once. */
  method SplitPath(path: string, sep: char) returns (segments: seq<Segment>)
    ensures segments == Split(path, sep)
    ensures ScannedKeys(segments)
    ensures path == "" ==> segments == []
  {
    segments := [];
    var current := "";
    var inBrackets := false;
    for i := 0 to |path|
      invariant Scan(segments, current, inBrackets) == Run(Start, path[..i], sep)
    {
      assert path[..i + 1][..i] == path[..i];
      var c := path[i];
      if c == '[' {
        if current != "" {
          segments := segments + [Key(current)];
          current := "";
        }
        inBrackets := true;
      } else if c == ']' {
        if current != "" {
          segments := segments + [ParseSegment(current)];
          current := "";
        }
        inBrackets := false;
      } else if c == sep && !inBrackets {
        if current != "" {
          segments := segments + [Key(current)];
          current := "";
        }
      } else {
        current := current + [c];
      }
    }
    assert path[..|path|] == path;
    if current != "" {
      segments := segments + [Key(current)];
    }
    SplitKeys(path, sep);
  }

  predicate GoodScan(st: Scan) {
    ScannedKeys(st.segments) && '[' !in st.current && ']' !in st.current
  }

  lemma {:induction false} RunGood(s: string, sep: char)
    ensures GoodScan(Run(Start, s, sep))
    decreases |s|
  {
    if s != [] {
      RunGood(s[..|s| - 1], sep);
    }
  }

  /** Every key splitPath emits is non-empty and free of brackets. */
  lemma SplitKeys(path: string, sep: char)
    ensures ScannedKeys(Split(path, sep))
  {
    RunGood(path, sep);
  }

  // ---------------------------------------------------------------------
  // joinPath
  // ---------------------------------------------------------------------

  /** How joinPath renders the segment at position i. */
  function Render(seg: Segment, i: nat, sep: char): string {
    match seg
    case Index(n) => "[" + IntToString(n) + "]"
    case NaNIndex => "[" + NaNText + "]"
    case Key(k) => if i > 0 then [sep] + k else k
  }

  /** joinPath (src/utils.ts:52-62): the renderings concatenated in order. */
  function JoinPath(segs: seq<Segment>, sep: char): (r: string)
    ensures segs == [] ==> r == ""
    ensures segs != [] ==> Render(segs[0], 0, sep) <= r
    ensures segs != [] && segs[0].Key? ==> segs[0].name <= r
  {
    if segs == [] then "" else JoinPath(segs[..|segs| - 1], sep) + Render(segs[|segs| - 1], |segs| - 1, sep)
  }

  /** A key joinPath can write so that splitPath reads it back. */
  predicate JoinableKey(seg: Segment, sep: char) {
    seg.Key? ==> seg.name != "" && sep !in seg.name && '[' !in seg.name && ']' !in seg.name
  }

  predicate Joinable(segs: seq<Segment>, sep: char) {
    sep != '[' && sep != ']' && forall i :: 0 <= i < |segs| ==> JoinableKey(segs[i], sep)
  }

  /** The path is empty exactly when there are no segments (keys being non-empty). */
  lemma {:induction false} JoinPathEmpty(segs: seq<Segment>, sep: char)
    requires forall i :: 0 <= i < |segs| ==> segs[i].Key? ==> segs[i].name != ""
    ensures JoinPath(segs, sep) == "" <==> segs == []
  {
    if segs != [] {
      var last := segs[|segs| - 1];
      assert |Render(last, |segs| - 1, sep)| > 0;
    }
  }

  lemma {:induction false} RunAppend(st: Scan, a: string, b: string, sep: char)
    ensures Run(st, a + b, sep) == Run(Run(st, a, sep), b, sep)
    decreases |b|
  {
    if b == [] {
      assert a + b == a;
    } else {
      var b' := b[..|b| - 1];
      assert (a + b)[..|a + b| - 1] == a + b';
      RunAppend(st, a, b', sep);
    }
  }

  /** Characters that only accumulate in the pending text. */
  lemma {:induction false} RunPlain(st: Scan, w: string, sep: char)
    requires forall i :: 0 <= i < |w| ==> w[i] != '[' && w[i] != ']' && (st.inBrackets || w[i] != sep)
    ensures Run(st, w, sep) == Scan(st.segments, st.current + w, st.inBrackets)
    decreases |w|
  {
    if w == [] {
      assert st.current + w == st.current;
    } else {
      var w' := w[..|w| - 1];
      RunPlain(st, w', sep);
      assert st.current + w' + [w[|w| - 1]] == st.current + w;
    }
  }

  /** The scanner state after a joined path: the last key is still pending. */
  function Pending(segs: seq<Segment>): Scan {
    if segs == [] then Start
    else if segs[|segs| - 1].Key? then Scan(segs[..|segs| - 1], segs[|segs| - 1].name, false)
    else Scan(segs, "", false)
  }

  lemma ParseIntToString(n: int)
    ensures ParseSegment(IntToString(n)) == Index(n)
  {
    if n >= 0 {
      assert ParseInt(IntToString(n)) == Some(n) by {
        ParseNatToString(n);
      }
    } else {
      var d := NatToString(-n);
      assert ParseInt(IntToString(n)) == Some(n) by {
        assert IntToString(n) == "-" + d;
        NatToStringValue(-n);
        ParseNegative(d);
      }
    }
  }

  lemma ParseNaN()
    ensures ParseSegment(NaNText) == NaNIndex
  {
    ParseLetter(NaNText);
  }

  /** NaN's text has no bracket in it. */
  lemma NaNPlain()
    ensures NaNText != [] && forall i :: 0 <= i < |NaNText| ==> NaNText[i] != '[' && NaNText[i] != ']'
  {
  }

  lemma {:induction false} RunJoin(segs: seq<Segment>, sep: char)
    requires Joinable(segs, sep)
    ensures Run(Start, JoinPath(segs, sep), sep) == Pending(segs)
    decreases |segs|
  {
    if segs != [] {
      var n := |segs| - 1;
      var p := segs[..n];
      var x := segs[n];
      assert Joinable(p, sep) by {
        forall i | 0 <= i < |p| ensures JoinableKey(p[i], sep) {
          assert p[i] == segs[i];
        }
      }
      RunJoin(p, sep);
      assert JoinableKey(x, sep);
      RunAppend(Start, JoinPath(p, sep), Render(x, n, sep), sep);
      InitLast(segs);
      RenderStep(p, x, sep);
    }
  }

  /** Scanning one more rendered segment after a joined path. */
  lemma RenderStep(p: seq<Segment>, x: Segment, sep: char)
    requires Joinable(p, sep) && JoinableKey(x, sep)
    ensures Run(Pending(p), Render(x, |p|, sep), sep) == Pending(p + [x])
  {
    PendingFlushed(p, sep);
    match x
    case Key(k) => RenderKey(p, k, sep);
    case Index(i) => RenderIndex(p, i, sep);
    case NaNIndex => RenderNaN(p, sep);
  }

  lemma RenderKey(p: seq<Segment>, k: string, sep: char)
    requires Joinable(p, sep) && JoinableKey(Key(k), sep)
    ensures Run(Pending(p), Render(Key(k), |p|, sep), sep) == Pending(p + [Key(k)])
  {
    PendingFlushed(p, sep);
    var q := p + [Key(k)];
    assert Pending(q) == Scan(p, k, false) by {
      assert q[..|q| - 1] == p;
    }
    assert forall i :: 0 <= i < |k| ==> k[i] != '[' && k[i] != ']' && k[i] != sep;
    if |p| > 0 {
      assert Render(Key(k), |p|, sep) == [sep] + k;
      KeyAfter(Pending(p), k, sep);
    } else {
      RunPlain(Start, k, sep);
      assert "" + k == k;
    }
  }

  lemma RenderIndex(p: seq<Segment>, i: int, sep: char)
    requires Joinable(p, sep)
    ensures Run(Pending(p), Render(Index(i), |p|, sep), sep) == Pending(p + [Index(i)])
  {
    PendingFlushed(p, sep);
    ParseIntToString(i);
    IntTextPlain(i);
    Bracketed(Pending(p), IntToString(i), sep);
  }

  /** An integer's text is non-empty and has no bracket in it. */
  lemma IntTextPlain(i: int)
    ensures IntToString(i) != [] && forall j :: 0 <= j < |IntToString(i)| ==> IntToString(i)[j] != '[' && IntToString(i)[j] != ']'
  {
    var d := NatToString(if i < 0 then -i else i);
    assert AllDigits(d);
    if i < 0 {
      forall j | 0 <= j < |IntToString(i)| ensures IntToString(i)[j] != '[' && IntToString(i)[j] != ']' {
        if j > 0 {
          assert IntToString(i)[j] == d[j - 1];
        }
      }
    }
  }

  lemma RenderNaN(p: seq<Segment>, sep: char)
    requires Joinable(p, sep)
    ensures Run(Pending(p), Render(NaNIndex, |p|, sep), sep) == Pending(p + [NaNIndex])
  {
    PendingFlushed(p, sep);
    ParseNaN();
    NaNPlain();
    Bracketed(Pending(p), NaNText, sep);
  }

  lemma PendingFlushed(p: seq<Segment>, sep: char)
    requires Joinable(p, sep)
    ensures Flushed(Pending(p)) == p && !Pending(p).inBrackets
  {
    if p != [] && p[|p| - 1].Key? {
      assert JoinableKey(p[|p| - 1], sep);
      InitLast(p);
    }
  }

  /** Scanning `sep key` outside brackets flushes the pending key and starts a new one. */
  lemma KeyAfter(st: Scan, k: string, sep: char)
    requires !st.inBrackets && sep != '[' && sep != ']'
    requires forall i :: 0 <= i < |k| ==> k[i] != '[' && k[i] != ']' && k[i] != sep
    ensures Run(st, [sep] + k, sep) == Scan(Flushed(st), k, false)
  {
    RunAppend(st, [sep], k, sep);
    assert [sep][..0] == [];
    assert Run(st, [sep], sep) == Step(st, sep, sep);
    RunPlain(Scan(Flushed(st), "", false), k, sep);
    assert "" + k == k;
  }

  /** Scanning `[body]` pushes the parsed body. */
  lemma Bracketed(st: Scan, body: string, sep: char)
    requires !st.inBrackets && body != []
    requires forall i :: 0 <= i < |body| ==> body[i] != '[' && body[i] != ']'
    ensures Run(st, "[" + body + "]", sep) == Scan(Flushed(st) + [ParseSegment(body)], "", false)
  {
    RunAppend(st, "[" + body, "]", sep);
    RunAppend(st, "[", body, sep);
    assert Run(st, "[", sep) == Step(st, '[', sep);
    RunPlain(Scan(Flushed(st), "", true), body, sep);
    assert "" + body == body;
    assert Run(Run(st, "[" + body, sep), "]", sep) == Step(Run(st, "[" + body, sep), ']', sep);
  }

  /** splitPath reads back what joinPath writes (src/utils.ts:9-62). */
  lemma SplitJoin(segs: seq<Segment>, sep: char)
    requires Joinable(segs, sep)
    ensures Split(JoinPath(segs, sep), sep) == segs
  {
    RunJoin(segs, sep);
    PendingFlushed(segs, sep);
  }

  /** joinPath is injective on the segment lists it can round-trip. */
  lemma JoinInjective(a: seq<Segment>, b: seq<Segment>, sep: char)
    requires Joinable(a, sep) && Joinable(b, sep)
    requires JoinPath(a, sep) == JoinPath(b, sep)
    ensures a == b
  {
    SplitJoin(a, sep);
    SplitJoin(b, sep);
  }
}

=== FILE: utils_clone.dfy ===
/**
 * deepClone (src/utils.ts:96-123) over memory. The input lives at the
 * addresses below |inp|; every clone is allocated above it and records, in
 * origin, the input container it copies. seen is the WeakMap from input
 * containers to their clones.
 */
module Clone {
  import opened Seqs
  import opened Decimal
  import opened Values
  import opened PathCodec
  import opened Heap

  /** t is a clone of s: the same primitive, or a clone whose origin is s. */
  predicate Corr(s: Slot, t: Slot, n0: nat, origin: seq<Addr>) {
    if s.Prim? then t == s
    else t.Ref? && n0 <= t.addr < n0 + |origin| && origin[t.addr - n0] == s.addr
  }

  /** Element lists that correspond position by position. */
  predicate ElemsMirror(cs: seq<Slot>, os: seq<Slot>, n0: nat, origin: seq<Addr>) {
    |cs| == |os| && forall i :: 0 <= i < |os| ==> Corr(os[i], cs[i], n0, origin)
  }

  /** Property lists with the same names in the same order and corresponding values. */
  predicate PropsMirror(cs: seq<(string, Slot)>, os: seq<(string, Slot)>, n0: nat, origin: seq<Addr>) {
    |cs| == |os| && forall i :: 0 <= i < |os| ==> cs[i].0 == os[i].0 && Corr(os[i].1, cs[i].1, n0, origin)
  }

  /**
   * c is a complete copy of o: an array of the clones of o's elements
   * (`map` keeps no named property), or an object with o's own properties
   * in order, each holding the clone of o's value.
   */
  predicate Mirrors(c: Node, o: Node, n0: nat, origin: seq<Addr>) {
    c.isArray == o.isArray &&
    (o.isArray ==> c.props == [] && ElemsMirror(c.elems, o.elems, n0, origin)) &&
    (!o.isArray ==> c.elems == [] && PropsMirror(c.props, o.props, n0, origin))
  }

  /** Input as JavaScript builds it: it refers only to itself, and names are distinct. */
  predicate InputOk(inp: seq<Node>) {
    forall a :: 0 <= a < |inp| ==> NodeIn(inp[a], |inp|) && UniqueKeys(inp[a].props)
  }

  /** The input unchanged at the bottom of memory, and an input origin for each clone above it. */
  predicate Layout(nodes: seq<Node>, inp: seq<Node>, origin: seq<Addr>) {
    |inp| <= |nodes| && nodes[..|inp|] == inp && |origin| == |nodes| - |inp| &&
    (forall i :: 0 <= i < |origin| ==> origin[i] < |inp|) &&
    (forall y :: |inp| <= y < |nodes| ==> nodes[y].isArray == inp[origin[y - |inp|]].isArray)
  }

  /**
   * seen maps input containers to clones of them, and each object clone is
   * the one seen records for its origin.
   */
  predicate SeenOk(nodes: seq<Node>, seen: map<Addr, Addr>, inp: seq<Node>, origin: seq<Addr>)
    requires Layout(nodes, inp, origin)
  {
    (forall a :: a in seen ==> a < |inp| && |inp| <= seen[a] < |nodes| && origin[seen[a] - |inp|] == a) &&
    (forall y :: |inp| <= y < |nodes| && !nodes[y].isArray ==> origin[y - |inp|] in seen && seen[origin[y - |inp|]] == y)
  }

  /** No two object clones share an origin: an input object shared twice is cloned once. */
  predicate ObjectsOnce(nodes: seq<Node>, inp: seq<Node>, origin: seq<Addr>)
    requires Layout(nodes, inp, origin)
  {
    forall y, z ::
      (|inp| <= y < |nodes| && |inp| <= z < |nodes| && !nodes[y].isArray && !nodes[z].isArray &&
       origin[y - |inp|] == origin[z - |inp|]) ==> y == z
  }

  /** The clones from address `from` on are complete copies of their origins. */
  predicate Built(nodes: seq<Node>, inp: seq<Node>, origin: seq<Addr>, from: nat)
    requires Layout(nodes, inp, origin) && |inp| <= from
  {
    forall y :: from <= y < |nodes| ==> Mirrors(nodes[y], inp[origin[y - |inp|]], |inp|, origin)
  }

  /**
   * scope holds the containers a clone may visit: it is closed under
   * elements and property values, so it holds every container reachable
   * from one in it. Within scope no cycle runs through array elements
   * alone: each array's elements rank below it. Containers outside scope
   * are unconstrained.
   */
  predicate ArraysRanked(inp: seq<Node>, rank: seq<nat>, scope: set<Addr>) {
    |rank| == |inp| &&
    (forall a :: a in scope ==> a < |inp|) &&
    (forall a, j :: a in scope && a < |inp| && 0 <= j < |inp[a].elems| && inp[a].elems[j].Ref? ==>
      inp[a].elems[j].addr in scope) &&
    (forall a, j :: a in scope && a < |inp| && 0 <= j < |inp[a].props| && inp[a].props[j].1.Ref? ==>
      inp[a].props[j].1.addr in scope) &&
    (forall a, j :: a in scope && a < |inp| && inp[a].isArray && 0 <= j < |inp[a].elems| && inp[a].elems[j].Ref? ==>
      inp[a].elems[j].addr < |inp| && rank[inp[a].elems[j].addr] < rank[a])
  }

  /** The input containers seen has no entry for. */
  function Unseen(inp: seq<Node>, seen: map<Addr, Addr>): set<Addr> {
    set a | 0 <= a < |inp| && a !in seen
  }

  function Rank(value: Slot, rank: seq<nat>): nat {
    if value.Ref? && value.addr < |rank| then rank[value.addr] + 1 else 0
  }

  // ---------------------------------------------------------------------
  // Growth: later clones and a longer origin keep earlier facts.
  // ---------------------------------------------------------------------

  lemma CorrGrow(s: Slot, t: Slot, n0: nat, origin: seq<Addr>, origin': seq<Addr>)
    requires Corr(s, t, n0, origin) && |origin| <= |origin'| && origin'[..|origin|] == origin
    ensures Corr(s, t, n0, origin')
  {
    if s.Ref? {
      assert origin'[t.addr - n0] == origin'[..|origin|][t.addr - n0];
    }
  }

  lemma MirrorsGrow(c: Node, o: Node, n0: nat, origin: seq<Addr>, origin': seq<Addr>)
    requires Mirrors(c, o, n0, origin) && |origin| <= |origin'| && origin'[..|origin|] == origin
    ensures Mirrors(c, o, n0, origin')
  {
    forall i | 0 <= i < |o.elems| && o.isArray ensures Corr(o.elems[i], c.elems[i], n0, origin') {
      CorrGrow(o.elems[i], c.elems[i], n0, origin, origin');
    }
    forall i | 0 <= i < |o.props| && !o.isArray ensures Corr(o.props[i].1, c.props[i].1, n0, origin') {
      CorrGrow(o.props[i].1, c.props[i].1, n0, origin, origin');
    }
  }

  /** Clones complete before a call stay complete after it. */
  lemma BuiltGrow(nodes: seq<Node>, origin: seq<Addr>, nodes': seq<Node>, origin': seq<Addr>, inp: seq<Node>, from: nat)
    requires Layout(nodes, inp, origin) && Layout(nodes', inp, origin') && |inp| <= from
    requires |nodes| <= |nodes'| && nodes'[..|nodes|] == nodes && origin'[..|origin|] == origin
    requires Built(nodes, inp, origin, from) && Built(nodes', inp, origin', |nodes|)
    ensures Built(nodes', inp, origin', from)
  {
    forall y | from <= y < |nodes'| ensures Mirrors(nodes'[y], inp[origin'[y - |inp|]], |inp|, origin') {
      if y < |nodes| {
        assert nodes'[y] == nodes[y];
        assert origin'[y - |inp|] == origin[y - |inp|];
        MirrorsGrow(nodes[y], inp[origin[y - |inp|]], |inp|, origin, origin');
      }
    }
  }

  lemma ElemsGrow(cs: seq<Slot>, os: seq<Slot>, n0: nat, origin: seq<Addr>, origin': seq<Addr>)
    requires ElemsMirror(cs, os, n0, origin) && |origin| <= |origin'| && origin'[..|origin|] == origin
    ensures ElemsMirror(cs, os, n0, origin')
  {
    forall i | 0 <= i < |os| ensures Corr(os[i], cs[i], n0, origin') {
      CorrGrow(os[i], cs[i], n0, origin, origin');
    }
  }

  lemma PropsGrow(cs: seq<(string, Slot)>, os: seq<(string, Slot)>, n0: nat, origin: seq<Addr>, origin': seq<Addr>)
    requires PropsMirror(cs, os, n0, origin) && |origin| <= |origin'| && origin'[..|origin|] == origin
    ensures PropsMirror(cs, os, n0, origin')
  {
    forall i | 0 <= i < |os| ensures Corr(os[i].1, cs[i].1, n0, origin') {
      CorrGrow(os[i].1, cs[i].1, n0, origin, origin');
    }
  }

  /** Seeing more containers leaves fewer unseen. */
  lemma UnseenShrinks(inp: seq<Node>, seen: map<Addr, Addr>, seen': map<Addr, Addr>)
    requires seen.Keys <= seen'.Keys
    ensures Unseen(inp, seen') <= Unseen(inp, seen)
  {
  }

  // ---------------------------------------------------------------------
  // deepClone.
  // ---------------------------------------------------------------------

  lemma ElemsSnoc(cs: seq<Slot>, os: seq<Slot>, o: Slot, c: Slot, n0: nat, origin: seq<Addr>)
    requires ElemsMirror(cs, os, n0, origin) && Corr(o, c, n0, origin)
    ensures ElemsMirror(cs + [c], os + [o], n0, origin)
  {
  }

  lemma PropsSnoc(cs: seq<(string, Slot)>, os: seq<(string, Slot)>, o: (string, Slot), c: Slot, n0: nat, origin: seq<Addr>)
    requires PropsMirror(cs, os, n0, origin) && Corr(o.1, c, n0, origin)
    ensures PropsMirror(cs + [(o.0, c)], os + [o], n0, origin)
  {
  }

  /** With distinct names, the next property's name is not among those already copied. */
  lemma NewKey(cs: seq<(string, Slot)>, os: seq<(string, Slot)>, i: nat, n0: nat, origin: seq<Addr>)
    requires UniqueKeys(os) && i < |os| && PropsMirror(cs, os[..i], n0, origin)
    ensures os[i].0 !in Keys(cs)
  {
    forall j | 0 <= j < |cs| ensures cs[j].0 != os[i].0 {
      assert cs[j].0 == os[j].0;
    }
  }

  /** nodes' and origin' extend nodes and origin. */
  predicate Grows(nodes: seq<Node>, origin: seq<Addr>, nodes': seq<Node>, origin': seq<Addr>) {
    |nodes| <= |nodes'| && nodes'[..|nodes|] == nodes && |origin| <= |origin'| && origin'[..|origin|] == origin
  }

  /**
   * Cloning array a into y, its first i elements done: memory is laid out,
   * seen is consistent, and every clone above y is complete.
   */
  predicate ArrayInv(nodes: seq<Node>, inp: seq<Node>, origin: seq<Addr>, seen: map<Addr, Addr>, y: Addr, a: Addr, done: seq<Slot>, i: nat) {
    Layout(nodes, inp, origin) && |inp| <= y < |nodes| && SeenOk(nodes, seen, inp, origin) &&
    Built(nodes, inp, origin, y + 1) && origin[y - |inp|] == a && a < |inp| && inp[a].isArray &&
    i <= |inp[a].elems| && nodes[y] == Node(true, done, []) && ElemsMirror(done, inp[a].elems[..i], |inp|, origin)
  }

  /** Cloning object a into y, its first i properties done. */
  predicate ObjectInv(nodes: seq<Node>, inp: seq<Node>, origin: seq<Addr>, seen: map<Addr, Addr>, y: Addr, a: Addr, done: seq<(string, Slot)>, i: nat) {
    Layout(nodes, inp, origin) && |inp| <= y < |nodes| && SeenOk(nodes, seen, inp, origin) &&
    Built(nodes, inp, origin, y + 1) && origin[y - |inp|] == a && a < |inp| && !inp[a].isArray &&
    i <= |inp[a].props| && nodes[y] == Node(false, [], done) && PropsMirror(done, inp[a].props[..i], |inp|, origin)
  }

  /** A new empty array at the top of memory starts the clone of array a. */
  lemma ArrayStart(nodes: seq<Node>, inp: seq<Node>, origin: seq<Addr>, seen: map<Addr, Addr>, a: Addr)
    requires Layout(nodes, inp, origin) && SeenOk(nodes, seen, inp, origin) && a < |inp| && inp[a].isArray
    ensures ArrayInv(nodes + [EmptyArray], inp, origin + [a], seen, |nodes|, a, [], 0)
  {
    var nodes' := nodes + [EmptyArray];
    var origin': seq<Addr> := origin + [a];
    assert nodes'[..|inp|] == inp;
    assert Layout(nodes', inp, origin') by {
      forall y: nat | |inp| <= y < |nodes'| ensures nodes'[y].isArray == inp[origin'[y - |inp|]].isArray {
        if y < |nodes| {
          assert nodes'[y] == nodes[y];
        }
      }
    }
    assert SeenOk(nodes', seen, inp, origin') by {
      forall y: nat | |inp| <= y < |nodes'| && !nodes'[y].isArray ensures origin'[y - |inp|] in seen && seen[origin'[y - |inp|]] == y {
        assert nodes'[y] == nodes[y];
      }
    }
  }

  /** A new empty object at the top of memory, recorded in seen, starts the clone of object a. */
  lemma ObjectStart(nodes: seq<Node>, inp: seq<Node>, origin: seq<Addr>, seen: map<Addr, Addr>, a: Addr)
    requires Layout(nodes, inp, origin) && SeenOk(nodes, seen, inp, origin) && a < |inp| && !inp[a].isArray && a !in seen
    ensures ObjectInv(nodes + [EmptyObject], inp, origin + [a], seen[a := |nodes|], |nodes|, a, [], 0)
  {
    var nodes' := nodes + [EmptyObject];
    var origin': seq<Addr> := origin + [a];
    var seen' := seen[a := |nodes|];
    assert nodes'[..|inp|] == inp;
    assert Layout(nodes', inp, origin') by {
      forall y: nat | |inp| <= y < |nodes'| ensures nodes'[y].isArray == inp[origin'[y - |inp|]].isArray {
        if y < |nodes| {
          assert nodes'[y] == nodes[y];
        }
      }
    }
    assert SeenOk(nodes', seen', inp, origin') by {
      forall y: nat | |inp| <= y < |nodes'| && !nodes'[y].isArray ensures origin'[y - |inp|] in seen' && seen'[origin'[y - |inp|]] == y {
        if y < |nodes| {
          assert nodes'[y] == nodes[y];
          assert origin'[y - |inp|] != a;
        }
      }
    }
  }

  /** Storing into the clone under construction keeps the layout, seen, and the complete clones above it. */
  lemma StoreKeeps(nodes: seq<Node>, inp: seq<Node>, origin: seq<Addr>, seen: map<Addr, Addr>, y: Addr, n: Node)
    requires Layout(nodes, inp, origin) && |inp| <= y < |nodes| && SeenOk(nodes, seen, inp, origin)
    requires Built(nodes, inp, origin, y + 1) && n.isArray == nodes[y].isArray
    ensures Layout(nodes[y := n], inp, origin) && SeenOk(nodes[y := n], seen, inp, origin) && Built(nodes[y := n], inp, origin, y + 1)
  {
    var nodes' := nodes[y := n];
    assert nodes'[..|inp|] == inp;
    assert Layout(nodes', inp, origin) by {
      forall z: nat | |inp| <= z < |nodes'| ensures nodes'[z].isArray == inp[origin[z - |inp|]].isArray {
        assert nodes'[z].isArray == nodes[z].isArray;
      }
    }
  }

  /** After one more element's clone, the array invariant holds one further on. */
  lemma ArrayStep(nodes: seq<Node>, origin: seq<Addr>, seen: map<Addr, Addr>, nodes': seq<Node>, origin': seq<Addr>, seen': map<Addr, Addr>,
                  inp: seq<Node>, y: Addr, a: Addr, done: seq<Slot>, i: nat, c: Slot)
    requires ArrayInv(nodes, inp, origin, seen, y, a, done, i) && i < |inp[a].elems|
    requires Grows(nodes, origin, nodes', origin') && Layout(nodes', inp, origin') && SeenOk(nodes', seen', inp, origin')
    requires Built(nodes', inp, origin', |nodes|) && Corr(inp[a].elems[i], c, |inp|, origin')
    ensures y < |nodes'| && nodes'[y] == nodes[y]
    ensures nodes'[y := Write(nodes'[y], NatToString(i), c)][..y] == nodes[..y]
    ensures ArrayInv(nodes'[y := Write(nodes'[y], NatToString(i), c)], inp, origin', seen', y, a, done + [c], i + 1)
  {
    UpdateAbove(nodes', nodes, y, Write(nodes'[y], NatToString(i), c));
    assert origin'[y - |inp|] == origin'[..|origin|][y - |inp|];
    BuiltGrow(nodes, origin, nodes', origin', inp, y + 1);
    ElemsGrow(done, inp[a].elems[..i], |inp|, origin, origin');
    CanonicalNatToString(i);
    var n := Write(nodes'[y], NatToString(i), c);
    assert n == Node(true, done + [c], []);
    StoreKeeps(nodes', inp, origin', seen', y, n);
    TakeOneMore(inp[a].elems, i);
    ElemsSnoc(done, inp[a].elems[..i], inp[a].elems[i], c, |inp|, origin');
  }

  /** After one more property's clone, the object invariant holds one further on. */
  lemma ObjectStep(nodes: seq<Node>, origin: seq<Addr>, seen: map<Addr, Addr>, nodes': seq<Node>, origin': seq<Addr>, seen': map<Addr, Addr>,
                   inp: seq<Node>, y: Addr, a: Addr, done: seq<(string, Slot)>, i: nat, c: Slot)
    requires InputOk(inp) && ObjectInv(nodes, inp, origin, seen, y, a, done, i) && i < |inp[a].props|
    requires Grows(nodes, origin, nodes', origin') && Layout(nodes', inp, origin') && SeenOk(nodes', seen', inp, origin')
    requires Built(nodes', inp, origin', |nodes|) && Corr(inp[a].props[i].1, c, |inp|, origin')
    ensures y < |nodes'| && nodes'[y] == nodes[y]
    ensures nodes'[y := Write(nodes'[y], inp[a].props[i].0, c)][..y] == nodes[..y]
    ensures ObjectInv(nodes'[y := Write(nodes'[y], inp[a].props[i].0, c)], inp, origin', seen', y, a, done + [(inp[a].props[i].0, c)], i + 1)
  {
    UpdateAbove(nodes', nodes, y, Write(nodes'[y], inp[a].props[i].0, c));
    assert origin'[y - |inp|] == origin'[..|origin|][y - |inp|];
    BuiltGrow(nodes, origin, nodes', origin', inp, y + 1);
    PropsGrow(done, inp[a].props[..i], |inp|, origin, origin');
    var k := inp[a].props[i].0;
    NewKey(done, inp[a].props, i, |inp|, origin');
    var n := Write(nodes'[y], k, c);
    assert n == Node(false, [], done + [(k, c)]);
    StoreKeeps(nodes', inp, origin', seen', y, n);
    TakeOneMore(inp[a].props, i);
    PropsSnoc(done, inp[a].props[..i], inp[a].props[i], c, |inp|, origin');
  }

  /** A finished array clone is complete, and seen records it. */
  lemma ArrayDone(nodes: seq<Node>, inp: seq<Node>, origin: seq<Addr>, seen: map<Addr, Addr>, y: Addr, a: Addr, done: seq<Slot>)
    requires a < |inp| && ArrayInv(nodes, inp, origin, seen, y, a, done, |inp[a].elems|)
    ensures Layout(nodes, inp, origin) && SeenOk(nodes, seen[a := y], inp, origin) && Built(nodes, inp, origin, y)
    ensures Corr(Ref(a), Ref(y), |inp|, origin)
  {
    assert inp[a].elems[..|inp[a].elems|] == inp[a].elems;
    assert SeenOk(nodes, seen[a := y], inp, origin) by {
      forall z: nat | |inp| <= z < |nodes| && !nodes[z].isArray ensures origin[z - |inp|] in seen[a := y] && seen[a := y][origin[z - |inp|]] == z {
        assert origin[z - |inp|] != a;
      }
    }
  }

  /** A finished object clone is complete. */
  lemma ObjectDone(nodes: seq<Node>, inp: seq<Node>, origin: seq<Addr>, seen: map<Addr, Addr>, y: Addr, a: Addr, done: seq<(string, Slot)>)
    requires a < |inp| && ObjectInv(nodes, inp, origin, seen, y, a, done, |inp[a].props|)
    ensures Layout(nodes, inp, origin) && SeenOk(nodes, seen, inp, origin) && Built(nodes, inp, origin, y)
    ensures Corr(Ref(a), Ref(y), |inp|, origin)
  {
    assert inp[a].props[..|inp[a].props|] == inp[a].props;
  }

  /**
   * deepClone(value, seen): a primitive as it is, a container seen already
   * as its recorded clone, otherwise a new clone. Memory only grows, and
   * every container allocated is complete on return.
   */
  method DeepClone(mem: Memory, value: Slot, seen: map<Addr, Addr>, ghost inp: seq<Node>, ghost origin: seq<Addr>, ghost rank: seq<nat>, ghost scope: set<Addr>)
    returns (r: Slot, seen': map<Addr, Addr>, ghost origin': seq<Addr>)
    requires InputOk(inp) && ArraysRanked(inp, rank, scope) && SlotIn(value, |inp|) && (value.Ref? ==> value.addr in scope)
    requires Layout(mem.nodes, inp, origin) && SeenOk(mem.nodes, seen, inp, origin)
    modifies mem
    ensures Grows(old(mem.nodes), origin, mem.nodes, origin')
    ensures Layout(mem.nodes, inp, origin') && SeenOk(mem.nodes, seen', inp, origin')
    ensures Built(mem.nodes, inp, origin', |old(mem.nodes)|)
    ensures seen.Keys <= seen'.Keys
    ensures Corr(value, r, |inp|, origin')
    ensures value.Prim? ==> r == value && mem.nodes == old(mem.nodes)
    ensures value.Ref? && value.addr in seen ==> r == Ref(seen[value.addr]) && mem.nodes == old(mem.nodes)
    decreases Unseen(inp, seen), Rank(value, rank), 1
  {
    if value.Prim? {
      return value, seen, origin;
    }
    if value.addr in seen {
      return Ref(seen[value.addr]), seen, origin;
    }
    assert mem.nodes[value.addr] == inp[value.addr];
    if mem.nodes[value.addr].isArray {
      r, seen', origin' := CloneArray(mem, value.addr, seen, inp, origin, rank, scope);
    } else {
      r, seen', origin' := CloneObject(mem, value.addr, seen, inp, origin, rank, scope);
    }
  }

  /** `value.map((item) => deepClone(item, seen))`, then `seen.set(value, result)`. */
  method CloneArray(mem: Memory, a: Addr, seen: map<Addr, Addr>, ghost inp: seq<Node>, ghost origin: seq<Addr>, ghost rank: seq<nat>, ghost scope: set<Addr>)
    returns (r: Slot, seen': map<Addr, Addr>, ghost origin': seq<Addr>)
    requires InputOk(inp) && ArraysRanked(inp, rank, scope) && a in scope && a < |inp| && inp[a].isArray && a !in seen
    requires Layout(mem.nodes, inp, origin) && SeenOk(mem.nodes, seen, inp, origin)
    modifies mem
    ensures Grows(old(mem.nodes), origin, mem.nodes, origin')
    ensures Layout(mem.nodes, inp, origin') && SeenOk(mem.nodes, seen', inp, origin')
    ensures Built(mem.nodes, inp, origin', |old(mem.nodes)|)
    ensures seen.Keys <= seen'.Keys
    ensures Corr(Ref(a), r, |inp|, origin')
    decreases Unseen(inp, seen), Rank(Ref(a), rank), 0
  {
    assert mem.nodes[a] == inp[a];
    var items := mem.nodes[a].elems;
    ArrayStart(mem.nodes, inp, origin, seen, a);
    var y := mem.Alloc(EmptyArray);
    origin' := origin + [a];
    seen' := seen;
    ghost var done: seq<Slot> := [];
    for i := 0 to |items|
      invariant y == |old(mem.nodes)| < |mem.nodes| && mem.nodes[..y] == old(mem.nodes)
      invariant |origin| <= |origin'| && origin'[..|origin|] == origin
      invariant seen.Keys <= seen'.Keys
      invariant ArrayInv(mem.nodes, inp, origin', seen', y, a, done, i)
    {
      assert items[i] == inp[a].elems[i] && NodeIn(inp[a], |inp|);
      UnseenShrinks(inp, seen, seen');
      ghost var before, beforeOrigin, beforeSeen := mem.nodes, origin', seen';
      var c;
      c, seen', origin' := DeepClone(mem, items[i], seen', inp, origin', rank, scope);
      ArrayStep(before, beforeOrigin, beforeSeen, mem.nodes, origin', seen', inp, y, a, done, i, c);
      PrefixTrans(origin, beforeOrigin, origin');
      mem.Store(y, NatToString(i), c);
      done := done + [c];
    }
    ArrayDone(mem.nodes, inp, origin', seen', y, a, done);
    seen' := seen'[a := y];
    r := Ref(y);
  }

  /** `result = {}`, `seen.set(value, result)`, then `result[key] = deepClone(value[key], seen)` for each own key. */
  method CloneObject(mem: Memory, a: Addr, seen: map<Addr, Addr>, ghost inp: seq<Node>, ghost origin: seq<Addr>, ghost rank: seq<nat>, ghost scope: set<Addr>)
    returns (r: Slot, seen': map<Addr, Addr>, ghost origin': seq<Addr>)
    requires InputOk(inp) && ArraysRanked(inp, rank, scope) && a in scope && a < |inp| && !inp[a].isArray && a !in seen
    requires Layout(mem.nodes, inp, origin) && SeenOk(mem.nodes, seen, inp, origin)
    modifies mem
    ensures Grows(old(mem.nodes), origin, mem.nodes, origin')
    ensures Layout(mem.nodes, inp, origin') && SeenOk(mem.nodes, seen', inp, origin')
    ensures Built(mem.nodes, inp, origin', |old(mem.nodes)|)
    ensures seen.Keys <= seen'.Keys
    ensures Corr(Ref(a), r, |inp|, origin')
    decreases Unseen(inp, seen), Rank(Ref(a), rank), 0
  {
    assert mem.nodes[a] == inp[a];
    var props := mem.nodes[a].props;
    ObjectStart(mem.nodes, inp, origin, seen, a);
    var y := mem.Alloc(EmptyObject);
    origin' := origin + [a];
    seen' := seen[a := y];
    ghost var done: seq<(string, Slot)> := [];
    for i := 0 to |props|
      invariant y == |old(mem.nodes)| < |mem.nodes| && mem.nodes[..y] == old(mem.nodes)
      invariant |origin| <= |origin'| && origin'[..|origin|] == origin
      invariant seen.Keys <= seen'.Keys && a in seen'
      invariant ObjectInv(mem.nodes, inp, origin', seen', y, a, done, i)
    {
      assert props[i] == inp[a].props[i] && NodeIn(inp[a], |inp|);
      UnseenShrinks(inp, seen[a := y], seen');
      assert a in Unseen(inp, seen) && a !in Unseen(inp, seen');
      ghost var before, beforeOrigin, beforeSeen := mem.nodes, origin', seen';
      var c;
      c, seen', origin' := DeepClone(mem, props[i].1, seen', inp, origin', rank, scope);
      ObjectStep(before, beforeOrigin, beforeSeen, mem.nodes, origin', seen', inp, y, a, done, i, c);
      PrefixTrans(origin, beforeOrigin, origin');
      mem.Store(y, props[i].0, c);
      done := done + [(props[i].0, c)];
    }
    ObjectDone(mem.nodes, inp, origin', seen', y, a, done);
    r := Ref(y);
  }

  /**
   * deepClone(value) with a fresh WeakMap: memory below the old top is
   * untouched, every container allocated is a complete copy of its origin,
   * no input object is cloned twice, and the result is the clone of value.
   */
  method DeepCloneFresh(mem: Memory, value: Slot, ghost rank: seq<nat>, ghost scope: set<Addr>) returns (r: Slot, ghost origin: seq<Addr>)
    requires InputOk(mem.nodes) && ArraysRanked(mem.nodes, rank, scope) && SlotIn(value, |mem.nodes|)
    requires value.Ref? ==> value.addr in scope
    modifies mem
    ensures Layout(mem.nodes, old(mem.nodes), origin) && Built(mem.nodes, old(mem.nodes), origin, |old(mem.nodes)|)
    ensures Corr(value, r, |old(mem.nodes)|, origin)
    ensures ObjectsOnce(mem.nodes, old(mem.nodes), origin)
    ensures value.Prim? ==> r == value && mem.nodes == old(mem.nodes)
  {
    ghost var inp := mem.nodes;
    assert mem.nodes[..|inp|] == inp;
    var seen;
    r, seen, origin := DeepClone(mem, value, map[], inp, [], rank, scope);
    forall y, z | |inp| <= y < |mem.nodes| && |inp| <= z < |mem.nodes| && !mem.nodes[y].isArray && !mem.nodes[z].isArray &&
      origin[y - |inp|] == origin[z - |inp|]
      ensures y == z
    {
      ObjectsCloneOnce(mem.nodes, seen, inp, origin, y, z);
    }
  }

  /**
   * A self-containing array that value never reaches does not bar the
   * clone: for `{x: 1}` beside `a = [a]`, the scope {0} is closed and
   * ranked, while no rank admits a scope holding the array.
   */
  lemma UnreachedCycleAllowed(rank: seq<nat>, scope: set<Addr>)
    ensures var inp := [Node(false, [], [("x", Prim(Num(1)))]), Node(true, [Ref(1)], [])];
      InputOk(inp) && ArraysRanked(inp, [0, 0], {0}) &&
      (1 in scope ==> !ArraysRanked(inp, rank, scope))
  {
    var inp := [Node(false, [], [("x", Prim(Num(1)))]), Node(true, [Ref(1)], [])];
    assert Keys(inp[0].props) == ["x"];
    assert inp[1].elems[0] == Ref(1);
  }

  // ---------------------------------------------------------------------
  // What a complete clone gives: the same reads, and no shared container.
  // ---------------------------------------------------------------------

  /** Whether a read of name from o is one the clone of o answers too: not a named property of an array. */
  predicate Cloned(o: Node, name: string) {
    o.isArray ==> IsCanonicalIndex(name) || name == "length" || Lookup(o.props, name).None?
  }

  /** Corresponding property lists answer every lookup alike. */
  lemma {:induction false} LookupMirror(cs: seq<(string, Slot)>, os: seq<(string, Slot)>, name: string, n0: nat, origin: seq<Addr>)
    requires PropsMirror(cs, os, n0, origin)
    ensures Lookup(os, name).None? <==> Lookup(cs, name).None?
    ensures Lookup(os, name).Some? ==> Corr(Lookup(os, name).value, Lookup(cs, name).value, n0, origin)
    decreases |os|
  {
    if os != [] && os[0].0 != name {
      LookupMirror(cs[1..], os[1..], name, n0, origin);
    }
  }

  /** A complete copy answers a read the way the original does, up to cloning. */
  lemma ReadMirror(c: Node, o: Node, name: string, n0: nat, origin: seq<Addr>)
    requires Mirrors(c, o, n0, origin) && Cloned(o, name)
    ensures Corr(Read(o, name), Read(c, name), n0, origin)
  {
    if !o.isArray {
      LookupMirror(c.props, o.props, name, n0, origin);
    }
  }

  /** get's walk, restricted to reads a clone answers too. */
  predicate ClonedPath(inp: seq<Node>, s: Slot, segs: seq<Segment>)
    decreases |segs|
  {
    segs == [] || s.Prim? || s.addr >= |inp| ||
    (Cloned(inp[s.addr], PropName(segs[0])) &&
     ((segs[0].Key? || inp[s.addr].isArray) ==> ClonedPath(inp, Read(inp[s.addr], PropName(segs[0])), segs[1..])))
  }

  /**
   * get on a clone returns the clone of what get returns on the original:
   * the same primitive, or the clone of the same container.
   */
  lemma {:induction false} CloneGet(nodes: seq<Node>, inp: seq<Node>, origin: seq<Addr>, s: Slot, t: Slot, segs: seq<Segment>)
    requires InputOk(inp) && Layout(nodes, inp, origin) && Built(nodes, inp, origin, |inp|)
    requires SlotIn(s, |inp|) && Corr(s, t, |inp|, origin) && ClonedPath(inp, s, segs)
    ensures Corr(HeapGet(inp, s, segs), HeapGet(nodes, t, segs), |inp|, origin)
    decreases |segs|
  {
    if segs != [] && s.Ref? {
      var o := inp[s.addr];
      var c := nodes[t.addr];
      assert Mirrors(c, o, |inp|, origin);
      var name := PropName(segs[0]);
      if segs[0].Key? || o.isArray {
        ReadMirror(c, o, name, |inp|, origin);
        ReadIn(o, name, |inp|);
        CloneGet(nodes, inp, origin, Read(o, name), Read(c, name), segs[1..]);
      }
    }
  }

  /** Every container a clone refers to is itself a clone: nothing is shared with the input. */
  lemma CloneDisjoint(nodes: seq<Node>, inp: seq<Node>, origin: seq<Addr>, y: Addr)
    requires Layout(nodes, inp, origin) && Built(nodes, inp, origin, |inp|) && |inp| <= y < |nodes|
    ensures forall j :: 0 <= j < |nodes[y].elems| && nodes[y].elems[j].Ref? ==> |inp| <= nodes[y].elems[j].addr < |nodes|
    ensures forall j :: 0 <= j < |nodes[y].props| && nodes[y].props[j].1.Ref? ==> |inp| <= nodes[y].props[j].1.addr < |nodes|
  {
    var o := inp[origin[y - |inp|]];
    assert Mirrors(nodes[y], o, |inp|, origin);
    if o.isArray {
      forall j | 0 <= j < |nodes[y].elems| && nodes[y].elems[j].Ref? ensures |inp| <= nodes[y].elems[j].addr < |nodes| {
        assert Corr(o.elems[j], nodes[y].elems[j], |inp|, origin);
      }
    } else {
      forall j | 0 <= j < |nodes[y].props| && nodes[y].props[j].1.Ref? ensures |inp| <= nodes[y].props[j].1.addr < |nodes| {
        assert Corr(o.props[j].1, nodes[y].props[j].1, |inp|, origin);
      }
    }
  }

  /** Objects shared in the input stay shared: one input object has one object clone. */
  lemma ObjectsCloneOnce(nodes: seq<Node>, seen: map<Addr, Addr>, inp: seq<Node>, origin: seq<Addr>, y: Addr, z: Addr)
    requires Layout(nodes, inp, origin) && SeenOk(nodes, seen, inp, origin)
    requires |inp| <= y < |nodes| && |inp| <= z < |nodes| && !nodes[y].isArray && !nodes[z].isArray
    requires origin[y - |inp|] == origin[z - |inp|]
    ensures y == z
  {
    assert seen[origin[y - |inp|]] == y;
  }
}

=== FILE: values.dfy ===
/** Option and Result wrappers used across the model. */
module Wrappers {
  datatype Option<+T> = None | Some(value: T)

  datatype Result<+T, +E> = Ok(value: T) | Err(error: E)
}

/** Small facts about sequences, stated once for every element type. */
module Seqs {
  lemma HeadTailSnoc<T>(s: seq<T>, x: T)
    requires |s| > 0
    ensures [s[0]] + (s[1..] + [x]) == s + [x]
  {
    assert s == s[..1] + s[1..];
  }

  lemma InitLast<T>(s: seq<T>)
    requires |s| > 0
    ensures s == s[..|s| - 1] + [s[|s| - 1]]
  {
  }

  lemma TakeOneMore<T>(s: seq<T>, i: nat)
    requires i < |s|
    ensures s[..i + 1] == s[..i] + [s[i]]
  {
  }

  lemma PrefixTrans<T>(a: seq<T>, b: seq<T>, c: seq<T>)
    requires |a| <= |b| <= |c| && b[..|a|] == a && c[..|b|] == b
    ensures c[..|a|] == a
  {
    assert c[..|a|] == c[..|b|][..|a|];
  }

  lemma UpdateAbove<T>(s: seq<T>, t: seq<T>, y: nat, v: T)
    requires |t| <= |s| && s[..|t|] == t && y < |t|
    ensures s[y] == t[y] && s[y := v][..y] == t[..y]
  {
    assert s[y] == s[..|t|][y];
    assert s[y := v][..y] == s[..|t|][..y];
  }
}

/**
 * The dynamically typed values the library walks over, with the two
 * classification helpers of src/utils.ts and JavaScript's property-list
 * semantics for plain objects.
 */
module Values {
  import opened Wrappers
  import opened Seqs
  import opened Decimal

  /**
   * A JSON-like value. Numbers are integers (no NaN, no fractions); an object
   * is its own enumerable properties in enumeration order.
   */
  datatype Value =
    | Null
    | Undef
    | Bool(b: bool)
    | Num(n: int)
    | Str(s: string)
    | Arr(items: seq<Value>)
    | Obj(fields: seq<(string, Value)>)

  /** isPrimitive: null, string, number, boolean and undefined. */
  predicate IsPrimitive(v: Value): (b: bool)
    ensures b <==> v.Null? || v.Str? || v.Num? || v.Bool? || v.Undef?
  {
    !v.Arr? && !v.Obj?
  }

  type Primitive = v: Value | IsPrimitive(v) witness Null

  /** getType: "null" for null, "array" for arrays, otherwise JavaScript's typeof. */
  function GetType(v: Value): (t: string)
    ensures t in TypeNames()
  {
    match v
    case Null => "null"
    case Undef => "undefined"
    case Bool(_) => "boolean"
    case Num(_) => "number"
    case Str(_) => "string"
    case Arr(_) => "array"
    case Obj(_) => "object"
  }

  function TypeNames(): set<string> {
    {"null", "undefined", "boolean", "number", "string", "array", "object"}
  }

  /** Two values are of the same runtime kind. */
  predicate SameKind(a: Value, b: Value) {
    match (a, b)
    case (Null, Null) => true
    case (Undef, Undef) => true
    case (Bool(_), Bool(_)) => true
    case (Num(_), Num(_)) => true
    case (Str(_), Str(_)) => true
    case (Arr(_), Arr(_)) => true
    case (Obj(_), Obj(_)) => true
    case _ => false
  }

  /** getType tells two values apart exactly when their runtime kinds differ. */
  lemma GetTypeSeparatesKinds(a: Value, b: Value)
    ensures GetType(a) == GetType(b) <==> SameKind(a, b)
  {
    if !SameKind(a, b) {
      var ta, tb := GetType(a), GetType(b);
      assert ta[..2] != tb[..2] || |ta| != |tb| || ta[2..] != tb[2..];
    }
  }

  /** isPrimitive holds exactly for the values getType names neither "array" nor "object". */
  lemma PrimitiveByType(v: Value)
    ensures IsPrimitive(v) <==> GetType(v) != "array" && GetType(v) != "object"
  {
    if IsPrimitive(v) {
      var t := GetType(v);
      assert t[0] != 'a' || |t| != 5;
      assert t[0] != 'o' || |t| != 6;
    }
  }

  /** JavaScript truthiness: what `x || fallback` keeps. */
  predicate Truthy(v: Value) {
    match v
    case Null => false
    case Undef => false
    case Bool(b) => b
    case Num(n) => n != 0
    case Str(s) => s != ""
    case Arr(_) => true
    case Obj(_) => true
  }

  // ---------------------------------------------------------------------
  // Ordered property lists: a plain object's own properties.
  // ---------------------------------------------------------------------

  function Keys<V>(ps: seq<(string, V)>): (ks: seq<string>)
    ensures |ks| == |ps| && forall i :: 0 <= i < |ps| ==> ks[i] == ps[i].0
  {
    if ps == [] then [] else [ps[0].0] + Keys(ps[1..])
  }

  predicate UniqueKeys<V>(ps: seq<(string, V)>) {
    forall i, j :: 0 <= i < j < |ps| ==> ps[i].0 != ps[j].0
  }

  /** Reading `o[k]`: the first property named k, if any. */
  function Lookup<V>(ps: seq<(string, V)>, k: string): (r: Option<V>)
    ensures r.None? <==> k !in Keys(ps)
    ensures r.Some? ==> exists i :: 0 <= i < |ps| && ps[i] == (k, r.value)
  {
    if ps == [] then None
    else if ps[0].0 == k then Some(ps[0].1)
    else
      var r := Lookup(ps[1..], k);
      assert r.Some? ==> exists i :: 0 <= i < |ps| && ps[i] == (k, r.value) by {
        if r.Some? {
          var i :| 0 <= i < |ps| - 1 && ps[1..][i] == (k, r.value);
          assert ps[i + 1] == (k, r.value);
        }
      }
      r
  }

  /**
   * Assigning `o[k] = v`: an existing property keeps its position and takes
   * the new value, a new one is appended.
   */
  function Put<V>(ps: seq<(string, V)>, k: string, v: V): (r: seq<(string, V)>)
    ensures Lookup(r, k) == Some(v)
    ensures k in Keys(ps) ==> Keys(r) == Keys(ps)
    ensures k !in Keys(ps) ==> r == ps + [(k, v)]
  {
    if ps == [] then [(k, v)]
    else if ps[0].0 == k then
      var r := [(k, v)] + ps[1..];
      assert r[1..] == ps[1..];
      assert Keys(r) == [k] + Keys(ps[1..]) == Keys(ps);
      r
    else
      var t := Put(ps[1..], k, v);
      var r := [ps[0]] + t;
      assert r[0] == ps[0] && r[1..] == t;
      assert Keys(r) == [ps[0].0] + Keys(t);
      assert Keys(ps) == [ps[0].0] + Keys(ps[1..]);
      assert k !in Keys(ps) ==> r == ps + [(k, v)] by {
        if k !in Keys(ps) {
          assert t == ps[1..] + [(k, v)];
          HeadTailSnoc(ps, (k, v));
        }
      }
      r
  }

  /** Assigning one property leaves every other property as it was. */
  lemma {:induction false} LookupPutOther<V>(ps: seq<(string, V)>, k: string, v: V, k': string)
    requires k' != k
    ensures Lookup(Put(ps, k, v), k') == Lookup(ps, k')
  {
    if ps != [] && ps[0].0 != k {
      LookupPutOther(ps[1..], k, v, k');
      assert Put(ps, k, v)[1..] == Put(ps[1..], k, v);
    }
  }

  /** Assigning the same property twice keeps only the second value. */
  lemma {:induction false} PutPut<V>(ps: seq<(string, V)>, k: string, a: V, b: V)
    ensures Put(Put(ps, k, a), k, b) == Put(ps, k, b)
  {
    if ps != [] && ps[0].0 != k {
      PutPut(ps[1..], k, a, b);
      assert Put(ps, k, a)[1..] == Put(ps[1..], k, a);
    }
  }

  /** Assigning a key keeps the property names distinct. */
  lemma {:induction false} PutKeepsUnique<V>(ps: seq<(string, V)>, k: string, v: V)
    requires UniqueKeys(ps)
    ensures UniqueKeys(Put(ps, k, v))
  {
    var r := Put(ps, k, v);
    if k in Keys(ps) {
      assert Keys(r) == Keys(ps);
      forall i, j | 0 <= i < j < |r| ensures r[i].0 != r[j].0 {
        assert Keys(r)[i] == Keys(ps)[i] && Keys(r)[j] == Keys(ps)[j];
      }
    } else {
      forall i, j | 0 <= i < j < |r| ensures r[i].0 != r[j].0 {
        if j == |ps| {
          assert Keys(ps)[i] == ps[i].0;
        }
      }
    }
  }

  // ---------------------------------------------------------------------
  // Reading a property of a container.
  // ---------------------------------------------------------------------

  /**
   * `v[name]` for a container: an object's own property, or an array's
   * element at a canonical index or its `length`; undefined otherwise.
   */
  function Member(v: Value, name: string): (r: Value)
    ensures v.Obj? && name in Keys(v.fields) ==> Some(r) == Lookup(v.fields, name)
    ensures v.Obj? && name !in Keys(v.fields) ==> r == Undef
    ensures v.Arr? && IsCanonicalIndex(name) && CanonicalValue(name) < |v.items| ==>
      r == v.items[CanonicalValue(name)]
  {
    match v
    case Obj(fields) =>
      (match Lookup(fields, name) case Some(x) => x case None => Undef)
    case Arr(items) =>
      if IsCanonicalIndex(name) then
        (if CanonicalValue(name) < |items| then items[CanonicalValue(name)] else Undef)
      else if name == "length" then Num(|items|)
      else Undef
    case _ => Undef
  }
}
